=== FILE: README.md ===
# A verified model of the data helpers of a gas-service web application

This project models the data-handling core of a Nuxt web application and
proves properties about that model. The application manages gas-service
vendors, users and their service records. It is written in JavaScript.
The model covers the following parts.

- **The text block codec** (`app/composables/useEssentials.js`):
  - `formatValueToString` and `parseValueString` write and read one value;
  - `convertJSONToString` and `convertStringToJSON` write and read records as `key:value|key:value` lines;
  - `transformData` walks a value and turns text leaves into the values they spell;
  - `parseDataByKey` and `getParsedServiceData` pick and decode stored entries.
- **The client-side row filters** (`client/composables/useFilters.js`):
  - `filterObjectsUsingCriteria` and `findByCriteria` match rows on their properties;
  - `useGasDataFilter` and `useDataFilter` build a per-role view.
- **The MongoDB helpers** (`server/utils/MongoDB.js`):
  - `mapFilter` turns `{field, operator, value}` conditions into a query;
  - the batching cuts lists into chunks of 1000;
  - the builders for `updateMany` and `deleteMany` operations and for aggregation stages.
- **Two client stores:**
  - the user list mirrored to storage (`client/stores/test.js`);
  - the counter (`client/stores/counter.js`).
- **The permission table and its lookup** (`app/composables/usePermission.js`).

The model stands on a few pieces of JavaScript semantics.

- **JavaScript values** (`values.dfy`):
  - strings, integers, booleans, null, undefined, arrays, and objects as insertion-ordered key lists;
  - property writes (`Put`, `PutAll`) and reads (`Prop`), truthiness and `String(v)`.
- **A TypeError that escapes** is a `Throw` result.
- **String methods** (`text.dfy`): `trim`, `split`, `join` and `indexOf`.
- **Integer number text** (`numbers.dfy`): `String(n)`, `Number(t)` and `parseFloat`.
- **JSON** (`json.dfy`): a recursive-descent `JSON.parse` and a `JSON.stringify`; `json_laws.dfy` proves that the first reads back what the second writes.
- **The four regular-expression rewrites** of the codec, as left-to-right scanners (`value_codec.dfy`).

The modules are as follows.

- **`BlockCodec`** decodes and encodes record blocks. `ConvertStringToJSON` is a method with loops. It is proved equal to the `DecodeBlock` specification.
- **`CodecLaws`** proves what `formatValueToString` writes for a one-member object and a one-element array, and that `parseValueString` reads that text back.
- **`BlockLaws`** proves the round trips. It also proves the merge rule, where the last key wins.
- **`Transform`** models `transformData`. It terminates because JSON parsing yields string leaves shorter than the text they came from.
- **`KeyedData`** models `parseDataByKey` and `getParsedServiceData`. The latter is a method with a loop.
- **`Filters`** models the row filters. `FindByCriteria` is a method with a loop.
- **`Mongo`** models the MongoDB helpers. `MapFilter` is a method with a loop.
- **`UserStore.Store`** and **`CounterStore.Counter`** are classes whose methods update their fields.
- **`Permission`** holds the permission table.

`transformData` does not re-run over the result of a block decode. Because of this it is not idempotent. A quoted `'true'` inside a block decodes to the text `"true"`, and a second pass turns that text into a boolean. The model follows the code, and `Transform.TransformNotIdempotent` proves the example.

## Model

| member | source | states |
|---|---|---|
| Text.Trim | app/composables/useEssentials.js:39 | the result is a slice of the input with only white space cut off at either end, and it neither starts nor ends with white space |
| Text.TrimOfTrimmed | app/composables/useEssentials.js:142-143 | text with no white space at either end is its own trim |
| Text.IndexOf | app/composables/useEssentials.js:140 | the result is the first position of the character, or -1 exactly when the character is absent |
| Text.Split | app/composables/useEssentials.js:139 | at least one piece, and no piece holds the separator |
| Text.SplitJoin | app/composables/useEssentials.js:165-172 | splitting joined pieces on the separator gives the pieces back when no piece holds the separator |
| Text.JoinHasSeparator | app/composables/useEssentials.js:170 | the separator occurs in a join of separator-free pieces exactly when there are two or more pieces |
| JsNumber.IntToString | app/composables/useEssentials.js:114 | `String(n)` is non-empty and made only of a sign and digits |
| JsNumber.NumberOfIntToString | app/composables/useEssentials.js:51 | `Number(String(n))` is `n`, and the text passes the numeric guard |
| JsNumber.NumericIffNonBlankNumber | app/composables/useEssentials.js:88 | the guard `!isNaN(Number(t)) && !isNaN(parseFloat(t))` holds exactly when `Number` reads a number and the text is not blank |
| Json.Parse | app/composables/useEssentials.js:78 | every string in a parsed value is shorter than the parsed text |
| JsonLaws.ParseStringify | app/composables/useEssentials.js:78 | `JSON.parse(JSON.stringify(v))` is `v` for every value with no undefined in it and no repeated key |
| JsonLaws.ParseValueStringify | app/composables/useEssentials.js:78 | the text written for such a value reads back as the value, whatever comma, bracket or brace follows it |
| JsonLaws.ParseWrittenNumber | app/composables/useEssentials.js:78 | `String(n)` followed by the end or a separator reads as the JSON number `n` |
| JsonLaws.ParseQuoted | app/composables/useEssentials.js:78 | the body of a written string literal reads back as the string, leaving what follows the closing quote |
| JsonLaws.UndefinedMemberDropped | app/composables/useEssentials.js:120 | a member holding undefined, wherever it stands in the object, is left out of the JSON text: the text equals that of the object without it, and reads back as that object |
| Json.ParseContainer | app/composables/useEssentials.js:44 | a parsed value is an array exactly when its first non-blank character is `[`, and an object exactly when it is `{` |
| Json.Stringify | app/composables/useEssentials.js:120 | the JSON text is never empty and never starts with white space |
| ValueCodec.DoubleQuoteLiterals | app/composables/useEssentials.js:76 | the rewrite of `'...'` to `"..."` keeps the length and every character in place except single quotes turned into double quotes; a leading quote changes exactly when a complete literal starts there |
| ValueCodec.DoubleQuotesLiteral | app/composables/useEssentials.js:76 | a single-quoted literal whose body has no quote or backslash becomes double-quoted with the same body, and the rewrite goes on after it |
| ValueCodec.EscapedQuoteInLiteral | app/composables/useEssentials.js:76 | a backslash keeps the quote after it inside the literal: `'it\'s'` becomes `"it\'s"` |
| ValueCodec.QuoteBareKeys | app/composables/useEssentials.js:77 | the rewrite of `ident:` to `"ident":` only inserts double quotes: removing them from both sides gives the same text; text without a colon is unchanged |
| ValueCodec.BareKeyQuoted | app/composables/useEssentials.js:77 | an identifier followed by a colon gains double quotes, and the rewrite goes on after the colon |
| ValueCodec.SingleQuoteStrings | app/composables/useEssentials.js:121 | the rewrite of `"..."` to `'...'` keeps the length and every character in place except double quotes turned into single quotes |
| ValueCodec.StringSingleQuoted | app/composables/useEssentials.js:121 | a double-quoted text whose closing quote has no backslash before it becomes single-quoted, and the rewrite goes on after it |
| ValueCodec.EscapedCloseKept | app/composables/useEssentials.js:121 | when a backslash precedes the next double quote, the opening quote stays and the scan resumes right after it |
| ValueCodec.UnquoteIdentKeys | app/composables/useEssentials.js:122 | the rewrite of `'ident':` to `ident:` only removes single quotes: removing them from both sides gives the same text; text without a single quote is unchanged |
| ValueCodec.IdentKeyUnquoted | app/composables/useEssentials.js:122 | a single-quoted identifier followed by a colon loses its quotes, and the rewrite goes on after the colon |
| ValueCodec.EscapeQuotes | app/composables/useEssentials.js:110 | escaping never shortens the text, never starts it with a bare quote, and keeps every other character |
| ValueCodec.UnescapeEscape | app/composables/useEssentials.js:99 | unescaping `\'` undoes escaping for every text |
| ValueCodec.ObjectLiteral | app/composables/useEssentials.js:75-82 | the JSON step yields only arrays and objects |
| ValueCodec.ObjectLiteralNeedsBracket | app/composables/useEssentials.js:75-82 | text not starting with `[`, `{` or JSON white space never yields a container |
| ValueCodec.ParseValueString | app/composables/useEssentials.js:73-104 | the steps are tried in order: a container the JSON step yields is returned; otherwise numeric text gives its number; otherwise `true`/`false` give booleans; otherwise quoted text gives its unescaped body; never null or undefined, and unquoted text that fails every step is returned as it is |
| ValueCodec.NotNumeric | app/composables/useEssentials.js:88 | text starting with anything but a space, digit or sign fails the numeric guard |
| ValueCodec.ParsePlainText | app/composables/useEssentials.js:73-104 | for plain text that skips the JSON and number steps, the result is a boolean for `true`/`false`, the unquoted text for a quoted text, and the text itself otherwise |
| ValueCodec.FormatValueToString | app/composables/useEssentials.js:107-126 | text is single-quoted; numbers and booleans are written as `String(v)`; what arrays and objects become is stated by the `CodecLaws` lemmas below |
| ValueCodec.StringRoundTrip | app/composables/useEssentials.js:73-126 | parsing the formatted text of any string gives the string back |
| ValueCodec.NumberRoundTrip | app/composables/useEssentials.js:73-126 | parsing the formatted text of any integer gives the integer back |
| ValueCodec.BoolRoundTrip | app/composables/useEssentials.js:73-126 | parsing the formatted text of a boolean gives the boolean back |
| ValueCodec.PlainWord | app/composables/useEssentials.js:73-104 | a lower-case word other than `true` and `false` reads back as the same text |
| ValueCodec.NullReadsBackAsText | app/composables/useEssentials.js:93-125 | null formats as `null`, which reads back as the text "null" |
| ValueCodec.UndefinedReadsBackAsText | app/composables/useEssentials.js:93-125 | undefined formats as `undefined`, which reads back as text |
| ValueCodec.EmptyTextStaysText | app/composables/useEssentials.js:88 | the empty text is not a number, because `parseFloat("")` is NaN |
| ValueCodec.NumericTextReadsAsNumber | app/composables/useEssentials.js:87-90 | text that fails the JSON step and passes the numeric guard reads as the number `Number` gives it |
| ValueCodec.LenientNumbersRead | app/composables/useEssentials.js:88-89 | `007` reads as 7 and ` 5` as 5, because `Number` allows leading zeros and surrounding white space |
| JsNumber.NumericChars | app/composables/useEssentials.js:88 | text that passes the numeric guard holds only white space, signs and digits |
| JsNumber.LenientNumberText | app/composables/useEssentials.js:88-89 | `007` and ` 5` pass the numeric guard and read as 7 and 5 |
| CodecLaws.FormatObjectOfString | app/composables/useEssentials.js:116-122 | an object with one identifier key holding plain text is written `{k:'s'}` |
| CodecLaws.FormatArrayOfString | app/composables/useEssentials.js:116-122 | an array holding one plain text is written `['s']` |
| CodecLaws.FormatObjectOfNumber | app/composables/useEssentials.js:116-122 | an object with one identifier key holding a number is written `{k:n}` |
| CodecLaws.ObjectOfNumberRoundTrip | app/composables/useEssentials.js:73-126 | `{k:n}` reads as that one-member object, so formatting such an object and parsing the text gives it back |
| CodecLaws.ObjectOfStringRoundTrip | app/composables/useEssentials.js:73-126 | `{k:'s'}` reads as that one-member object when the text has no colon, so such an object survives formatting and parsing |
| CodecLaws.ArrayOfStringRoundTrip | app/composables/useEssentials.js:73-126 | `['s']` reads as that one-element array when the text has no colon, so such an array survives formatting and parsing |
| CodecLaws.ReadOneMember | app/composables/useEssentials.js:78 | the JSON text `{"k":x}` for an identifier key and a writable value parses to that one-member object |
| CodecLaws.FormatContainer | app/composables/useEssentials.js:120-122 | an array or object is written as its JSON text with string literals single-quoted and then identifier keys unquoted |
| BlockCodec.NonBlank | app/composables/useEssentials.js:131 | a line is kept exactly when it is one of the lines and does not trim to nothing; all lines are kept when none is blank |
| BlockCodec.NonBlankAppend | app/composables/useEssentials.js:131 | the kept lines of two blocks put together are the kept lines of each, in order |
| BlockCodec.NonBlankOne | app/composables/useEssentials.js:131 | one line is kept exactly when it does not trim to nothing |
| BlockCodec.SegmentPair | app/composables/useEssentials.js:140-145 | a segment yields a pair exactly when it holds a colon after its first character; the key is trimmed and holds no colon, and the value is never null or undefined (it is `parseValueString` of the trimmed rest) |
| BlockCodec.DecodeLine | app/composables/useEssentials.js:139-147 | a line without `\|` is one segment: it decodes to that segment's pair, or to the empty object when the segment has none |
| BlockCodec.DecodeBlock | app/composables/useEssentials.js:129-155 | no lines give `[]`; text with `\|` gives one object per line; other text gives one object |
| BlockCodec.ReduceLine | app/composables/useEssentials.js:139-147 | the accumulator loop over the segments of a line equals the `DecodeLine` specification |
| BlockCodec.ReduceLines | app/composables/useEssentials.js:137-148 | the loop over the lines decodes each line in order |
| BlockCodec.AssignAll | app/composables/useEssentials.js:153 | `Object.assign({}, ...objects)` assigns the fields of the objects in order |
| BlockCodec.EncodeLine | app/composables/useEssentials.js:168-170 | a one-field record is written as `key:formatted value`, with no separator |
| BlockCodec.ConvertStringToJSON | app/composables/useEssentials.js:129-155 | the method equals the `DecodeBlock` specification |
| BlockCodec.ConvertJSONToString | app/composables/useEssentials.js:158-173 | a non-array or an empty array gives `""`; an array throws exactly when it holds null or undefined |
| BlockLaws.FormatSafe | app/composables/useEssentials.js:107-126 | a string without `\|` or a line break, a number or a boolean formats to trimmed text free of both, and that text parses back to the value |
| BlockLaws.SegmentOfPair | app/composables/useEssentials.js:139-147 | a safe `key:value` segment decodes to its pair |
| BlockLaws.DecodeEncodeLine | app/composables/useEssentials.js:137-170 | decoding the line written for a safe record gives the record back |
| BlockLaws.LineFacts | app/composables/useEssentials.js:165-172 | a safe record's line has no line break, is not blank, and holds `\|` exactly when the record has two or more fields |
| BlockLaws.LinesOfBlock | app/composables/useEssentials.js:131 | splitting a written block into non-blank lines gives the written lines |
| BlockLaws.EncodeObjects | app/composables/useEssentials.js:158-173 | `convertJSONToString` of a list of objects joins their lines with line breaks |
| BlockLaws.ListRoundTrip | app/composables/useEssentials.js:129-173 | safe records, one with two or more fields, come back as the same list of objects |
| BlockLaws.MergedRoundTrip | app/composables/useEssentials.js:129-173 | single-field safe records with distinct keys come back merged into one object |
| BlockLaws.DecodeLineUnique | app/composables/useEssentials.js:139-147 | a decoded line never repeats a key |
| BlockLaws.MergedLastWins | app/composables/useEssentials.js:150-154 | in a block without `\|`, a key holds the value of its last occurrence, and is absent when it never occurs |
| BlockLaws.QuotedTrueExample | app/composables/useEssentials.js:139-151 | `a:'true'\|b:1` decodes to an object holding the text "true" and the number 1 |
| BlockLaws.OneRecordDecodes | app/composables/useEssentials.js:129-173 | the line of one safe record with two or more fields decodes to a one-object list |
| Transform.LowerAscii | app/composables/useEssentials.js:47 | lowering keeps the length |
| Transform.ParsedContainer | app/composables/useEssentials.js:44 | a parsed bracketed text has strings shorter than itself |
| Transform.TransformValue | app/composables/useEssentials.js:31-54 | text comes back as text only unchanged; an array stays an array and an object an object, with as many elements or fields; the branches are stated by `TransformShape`, `TransformBool`, `TransformNumber` and `TransformTextFallback` |
| Transform.TransformShape | app/composables/useEssentials.js:31-44 | arrays and objects are mapped element by element with the keys kept; non-text leaves are kept; text with `\|` or a line break is decoded as a block, with no further pass; other bracketed text that JSON-parses to a container is replaced by the walk over that container |
| Transform.ContainerIsContainer | app/composables/useEssentials.js:44 | the JSON branch is taken only for arrays and objects |
| Transform.EarlyStepsGiveContainers | app/composables/useEssentials.js:41-44 | the block and JSON branches produce only containers |
| Transform.TransformBool | app/composables/useEssentials.js:47-48 | text becomes a boolean exactly when, trimmed and lowered, it is `true` or `false` |
| Transform.TransformNumber | app/composables/useEssentials.js:50-51 | text becomes `n` exactly when, trimmed, it is `String(n)` |
| Transform.TransformTextFallback | app/composables/useEssentials.js:39-53 | text stays text exactly when, trimmed, it holds no `\|` or line break, does not JSON-parse to a container, is not `true`/`false` in any case and is not `String(n)` for any `n`; such text is returned untrimmed, as it was |
| Transform.BlockTextTransforms | app/composables/useEssentials.js:39-41 | text that is its own trim and holds a `\|` is decoded as a block |
| Transform.FirstPassExample | app/composables/useEssentials.js:39-41 | one pass over `a:'true'\|b:1` gives an object holding the text "true" and the number 1 |
| Transform.SecondPassExample | app/composables/useEssentials.js:47-48 | a second pass turns the decoded text "true" into a boolean |
| Transform.TransformNotIdempotent | app/composables/useEssentials.js:41-48 | one pass over `a:'true'\|b:1` keeps the text "true"; a second pass changes it, so the walk is not idempotent |
| KeyedData.FindByKeyFirst | app/composables/useEssentials.js:61 | `find` returns the first item whose `key` matches |
| KeyedData.FindByKeyThrows | app/composables/useEssentials.js:61 | `find` throws when it reaches a null or undefined item first |
| KeyedData.FindByKeyMissing | app/composables/useEssentials.js:61 | `find` gives undefined when no item matches |
| KeyedData.FindByKey | app/composables/useEssentials.js:61 | only a TypeError escapes; a found item is one of the items and its `key` matches; nothing found means no item matches |
| KeyedData.ReadEntryValue | app/composables/useEssentials.js:63-68 | a falsy value gives undefined; a truthy non-string gives null; bracketed text is JSON-parsed, or null on failure; other text is returned as it is |
| KeyedData.ParseDataByKey | app/composables/useEssentials.js:59-70 | anything but an array gives null |
| KeyedData.ParseDataByKeyFirst | app/composables/useEssentials.js:59-70 | the first matching item's `value` is read as above |
| KeyedData.ParseDataByKeyMissing | app/composables/useEssentials.js:59-70 | no match gives undefined |
| KeyedData.ParseDataByKeyNullItem | app/composables/useEssentials.js:59-70 | a null item before any match gives null |
| KeyedData.ServiceEntries | app/composables/useEssentials.js:201-209 | one new entry per entry, and only a TypeError escapes |
| KeyedData.ServiceEntry | app/composables/useEssentials.js:202-207 | an entry throws a TypeError exactly when its key has the prefix and its value is not text; an entry without the prefix keeps its value; a prefixed entry becomes the decoded block, an array or an object |
| KeyedData.ParsedServiceData | app/composables/useEssentials.js:193-212 | data that is not an object or a key that is not text gives `{}`; otherwise the result is an object with no repeated key, and only a TypeError escapes |
| KeyedData.GetParsedServiceData | app/composables/useEssentials.js:193-212 | the `for...in` loop equals the `ParsedServiceData` specification |
| KeyedData.ServiceEntriesThrow | app/composables/useEssentials.js:201-205 | the call throws exactly when a key with the prefix holds something other than text |
| KeyedData.ServiceEntriesValues | app/composables/useEssentials.js:201-208 | when no entry throws, each entry keeps its key, in order, and holds what `ServiceEntry` gives it (the decoded block under a matching key, the old value otherwise) |
| KeyedData.ServiceDataFields | app/composables/useEssentials.js:193-212 | the result has the input's keys in order, with matching values decoded and the others kept |
| KeyedData.MappedUnique | app/composables/useEssentials.js:201-209 | distinct keys stay distinct |
| Filters.FilterThrows | client/composables/useFilters.js:33-40 | the filter throws, always a TypeError, exactly when there are criteria and the list holds null or undefined |
| Filters.FilterItems | client/composables/useFilters.js:34-39 | only a TypeError escapes; the result is no longer than the list and holds only items of the list that pass the test |
| Filters.FilterObjectsUsingCriteria | client/composables/useFilters.js:33-40 | only a TypeError escapes; a result means the data is an array, and holds only its items that pass the test |
| Filters.FilterMembers | client/composables/useFilters.js:33-40 | an item is in the result exactly when it is in the list and has every criterion key as an own property with a value of the same text |
| Filters.FilterAppend | client/composables/useFilters.js:34 | filtering distributes over concatenation, so the result keeps the list's order |
| Filters.FilterOne | client/composables/useFilters.js:34-38 | a single item is kept exactly when it passes the test |
| Filters.FilterNoCriteria | client/composables/useFilters.js:35 | with no criteria every item is returned |
| Filters.MatchingRowsSound | client/composables/useFilters.js:24-31 | the row numbers findByCriteria collects lie in `2..data.length`, name matching rows and increase strictly |
| Filters.MatchingRowsComplete | client/composables/useFilters.js:24-31 | no row after the header that matches every criterion is missing from the row numbers |
| Filters.FindByCriteria | client/composables/useFilters.js:24-31 | the loop throws exactly when there are criteria and a row after the header is null or undefined; otherwise it returns exactly the row numbers `MatchingRows` describes |
| Filters.Matches | client/composables/useFilters.js:26 | the `every` loop holds exactly when each criterion reads the same text |
| Filters.MissingPropertyReadsUndefined | client/composables/useFilters.js:24-40 | findByCriteria matches a missing key against undefined or the text "undefined"; the object filter does not keep such an object |
| Filters.GasFilterByRole | client/composables/useFilters.js:1-10 | `{}` for SAdmin, `{userId, approved: true}` for a user, `{vendorId, approved: true}` for a vendor, undefined for other roles, and a throw for a null user |
| Filters.UseGasDataFilter | client/composables/useFilters.js:1-10 | the call throws exactly for a null or undefined user; otherwise it gives an object or undefined |
| Filters.UseDataFilter | client/composables/useFilters.js:12-22 | only a TypeError escapes, and a null or undefined user throws; a user or vendor gets an array of objects drawn from the data |
| Filters.KeptAreObjects | client/composables/useFilters.js:38 | with criteria, only objects pass the test, because `hasOwnProperty` holds for nothing else |
| Filters.DataFilterScopes | client/composables/useFilters.js:17-20 | a user or vendor sees exactly the objects of the data whose `userId` or `vendorId` has the text of their id |
| Filters.AdminSeesAll | client/composables/useFilters.js:15-16 | SAdmin sees the data, or `[]` for falsy data |
| Mongo.ClauseOf | server/utils/MongoDB.js:16-23 | a clause exists exactly for the seven listed operators |
| Mongo.ClauseIn | server/utils/MongoDB.js:21-22 | `in` wraps a non-array value in a one-element list; `is.null` ignores the value |
| Mongo.ConditionPair | server/utils/MongoDB.js:15 | destructuring a condition throws exactly for null or undefined |
| Mongo.FilterQuery | server/utils/MongoDB.js:11-27 | a non-array gives `{}`; the query throws exactly when some condition is null or undefined; a query never repeats a field |
| Mongo.MapFilter | server/utils/MongoDB.js:11-27 | the `forEach` loop equals the `FilterQuery` specification, which is `{}` for a non-array |
| Mongo.FilterQueryGet | server/utils/MongoDB.js:15-25 | a field holds the clause of the last condition on it, and is present exactly when some condition with a listed operator names it |
| Mongo.UnknownOperatorIgnored | server/utils/MongoDB.js:16-24 | a condition with an unlisted operator changes nothing |
| Mongo.LaterConditionWins | server/utils/MongoDB.js:15-25 | a later condition on a field replaces an earlier one |
| Mongo.Chunks | server/utils/MongoDB.js:34-36 | there are `ceil(n / 1000)` chunks |
| Mongo.ChunkSizes | server/utils/MongoDB.js:34-36 | the chunk count is the least that covers the list; each chunk has 1 to 1000 items and all but the last have 1000 |
| Mongo.FlattenChunks | server/utils/MongoDB.js:78-80 | the chunks concatenate back to the list |
| Mongo.UpdateOperationsInOrder | server/utils/MongoDB.js:70-80 | there is one operation per update spec, in order, and the batches hold exactly those operations |
| Mongo.UpdateOperation | server/utils/MongoDB.js:70-76 | an update spec throws exactly when it is null or undefined or its conditions hold a null or undefined condition; otherwise it is one `updateMany` field |
| Mongo.UpdateOperationParts | server/utils/MongoDB.js:70-76 | the filter is mapFilter of the conditions; the update is `$inc` exactly when `increment` is truthy and `$set` otherwise; `upsert` is false unless truthy |
| Mongo.DeleteOperationsInOrder | server/utils/MongoDB.js:92-94 | there is one `deleteMany` per condition set, in order, filtered by its mapFilter query |
| Mongo.DeleteOperation | server/utils/MongoDB.js:92-94 | a condition set throws exactly when mapFilter of it does; otherwise it is one `deleteMany` field |
| Mongo.MatchStage | server/utils/MongoDB.js:156 | the stage throws exactly when mapFilter of the conditions does; non-array conditions give `{$match: {}}` |
| Mongo.GroupStage | server/utils/MongoDB.js:157 | the stage is one `$group` object whose keys are exactly `_id` and the accumulators' keys, none repeated |
| Mongo.MatchWraps | server/utils/MongoDB.js:156 | the match stage wraps exactly the mapFilter query |
| Mongo.GroupIdFirst | server/utils/MongoDB.js:157 | `_id` comes first, and an accumulator named `_id` overrides its value |
| Mongo.PassThroughStages | server/utils/MongoDB.js:158-165 | each other stage is one field under its operator holding the argument; the lookup stage lists its four arguments |
| UserStore.FindById | client/stores/test.js:22 | `findIndex` finds the first user with the id, or -1 when every user has another id; it throws only on a null user or an unreadable target |
| UserStore.FindByIdTotal | client/stores/test.js:30 | over users that are not null, the search never throws and finds an index exactly when some user has the id |
| UserStore.RemoveAt | client/stores/test.js:32 | `splice(i, 1)` shortens the list by one and keeps the order of the rest |
| UserStore.Store.constructor | client/stores/test.js:9 | the list is the stored `users`, or `[]` when none is stored |
| UserStore.Store.SetUsers | client/stores/test.js:11-14 | the list is replaced and stored |
| UserStore.Store.AddUser | client/stores/test.js:16-19 | the user is appended, earlier users are kept, and the list is stored |
| UserStore.Store.UpdateUser | client/stores/test.js:21-27 | only the first user with the same id is replaced, and the list is stored; with no match, or a throw, nothing changes |
| UserStore.Store.DeleteUser | client/stores/test.js:29-35 | only the first user with the id is removed, and the list is stored; with no match, or a throw, nothing changes |
| UserStore.Store.ClearUsers | client/stores/test.js:37-40 | the list is emptied and the stored entry removed |
| CounterStore.Counter.constructor | client/stores/counter.js:7 | the count starts at 10 |
| CounterStore.Counter.DoubleCount | client/stores/counter.js:8 | the derived value is even, and half of it is the count |
| CounterStore.Counter.Increment | client/stores/counter.js:9-11 | the count grows by exactly 1, and its double by 2 |
| CounterStore.Counter.Decrement | client/stores/counter.js:12-14 | the count drops by exactly 1, and its double by 2 |
| CounterStore.IncrementThenDecrement | client/stores/counter.js:9-14 | an increment then a decrement restores the count |
| Permission.Lookup | app/composables/usePermission.js:2-4 | the lookup throws exactly for a feature other than `vendor` and `user`; otherwise it finds flags exactly for the roles that feature lists, and undefined for any other role |
| Permission.AdminsHoldAll | app/composables/usePermission.js:8-19 | `admins` and `SAdmin` hold all five flags in both features |
| Permission.DeleteDenied | app/composables/usePermission.js:8-19 | `delete` is 0 exactly for vendor and managers on the vendor feature, and for user and vendor on the user feature |
| Permission.DisableDenied | app/composables/usePermission.js:14-19 | `disable` is 0 exactly for user and vendor on the user feature |
| Permission.FlagsAreBits | app/composables/usePermission.js:6-22 | every flag is 0 or 1, and read, create and update are granted to every listed role |
| Permission.UnknownRole | app/composables/usePermission.js:2-4 | a role a known feature does not list gets undefined |

## Left out

- **JavaScript numbers are modelled as integers only.**
  - `Number`, `parseFloat` and `String(n)` handle optional signs and decimal digits.
  - Fractions, exponents, `Infinity`, NaN and hexadecimal text are not numbers in the model.
  - Precision above 2^53 is not modelled.
  - The same holds for JSON number literals, so a JSON text with a fraction or an exponent fails to parse.
- **JSON escapes.** `\u` escapes naming surrogate halves fail to parse, because characters here are Unicode scalar values.
- JsValue.Entries: a string is a sequence of Unicode scalar values, not of UTF-16 code units. `Object.entries` of a string holding a character outside the Basic Multilingual Plane yields two entries in the source, one per surrogate half, and one entry in the model. So `convertJSONToString(['😀'])` writes `0:'\ud83d'|1:'\ude00'` in the source, while BlockCodec.ConvertJSONToString gives `0:'😀'`. The other string operations agree, because every character they search for lies in that plane.
- **Property order.** JavaScript lists integer-like object keys before the others; the model keeps plain insertion order.
- **Prototype properties.** Property reads see only an object's own fields. Inherited members are not modelled, for example `toString` or an array's `filter` on a non-array.
- **Arrays and strings as property owners.**
  - Filters.HasOwn: sees only an object's own fields. An array's or string's indices and `length` are not own properties in the model.
  - JsValue.Prop: likewise reads undefined for any key of an array or a string.
- Transform.LowerChar: lowers only the letters A-Z. Comparing the result with `true` and `false` is still exact, because no other character lowers to one of their letters.
- Mongo.ClauseOf: the `like` operator stores its pattern and the flag `i` in place of a `RegExp` object. An invalid pattern, which makes `new RegExp` throw, is not modelled.
- **The `__proto__` key.** In JavaScript, `obj[k] = v` with `k` equal to `"__proto__"` sets the object's prototype and creates no own property. The model treats it as an ordinary key.
  - BlockCodec.SegmentPair: a segment with the key `__proto__` adds a field in the model; `acc[key] = …` in the source changes the accumulator's prototype instead. The round-trip lemmas exclude the key through `BlockLaws.SafeKey`.
  - Mongo.MapFilter: a condition on the field `__proto__` adds a field to the query in the model, not in the source.
  - KeyedData.GetParsedServiceData: an own `__proto__` key of the data (JSON.parse creates one) is copied as a field in the model; `result[key] = …` in the source sets the result's prototype.
- UserStore.Store.SetUsers: the store keeps the caller's array itself, so later changes the caller makes to that array show in the store. The model copies the list as a value and does not capture this aliasing.
- Json.Parse: its own contract states only the bound on strings that the termination of `Transform` needs. What it reads is stated by JsonLaws.ParseStringify and Json.ParseContainer; a parse of text not written by `JSON.stringify` is not characterised further.
- Json.Stringify: its own contract states only that the text is non-empty and starts with no white space. What the text means is stated by JsonLaws.ParseStringify.
- CodecLaws.ObjectOfStringRoundTrip: requires text without a colon. The key-quoting rewrite (`useEssentials.js` line 77) also rewrites `word:` inside a string literal, so `['a:b']` becomes `["\"a\":b"]`, JSON.parse fails and the whole text comes back as a string. Text with a colon is therefore not claimed to round-trip.
- CodecLaws.ArrayOfStringRoundTrip: requires text without a colon, for the same reason.
- CodecLaws.FormatObjectOfString: covers one identifier key and text with no quote, backslash or control character. Longer objects and arrays, non-identifier keys and text that JSON.stringify escapes are covered only by the general rewrite laws (`ValueCodec.SingleQuoteStrings`, `ValueCodec.UnquoteIdentKeys` and their one-match lemmas), not by a closed form.
- CodecLaws.FormatArrayOfString: covers one plain text element, as above.
- UserStore.FindById: compares ids by value, where `===` compares arrays and objects by identity.
- **The user store's storage.**
  - The storage is an abstract map from keys to stored lists.
  - SecureLS encryption and compression are not part of this model, and neither is Pinia's persistence plumbing.
  - A stored `users` value that is not a list is not modelled.
- CounterStore.Counter.Increment: the count is an unbounded integer, where the source's count is a double that loses precision above 2^53.
- Filters.FindByCriteria: takes `data` as a list, so `data.slice` on a non-array is not modelled. It takes the criteria as their entry list, as does Filters.FilterObjectsUsingCriteria, so the TypeError from `Object.entries(null)` is not modelled.
- **Aggregation stages.**
  - `stages.group`'s accumulators are a record; spreading a non-object is not modelled.
  - The default `{}` for missing accumulators is the empty record.
- **Database calls.**
  - The model stops at the operations and batches handed to the database.
  - `insertMany`, `bulkWrite`, `find` cursors, `aggregate`, `createIndex`, the `p-limit` concurrency and `console` timing are not modelled.
  - Neither are the counts these calls return.
- **Other parts of useEssentials.js.**
  - The clock and random helpers (`generateUniqueId`, `generateTimeStamp`, `generateServiceHistory` and the date functions) are not part of this model.
  - Neither are the browser helpers (scrolling, sharing, clipboard, file upload and image download).
- **`console.error` calls** in `parseDataByKey`, `convertJSONToString` and `getParsedServiceData`. Only their return values are modelled.

=== FILE: block_codec.dfy ===
/** The block codec: `convertJSONToString` writes a list of records one
    per line as `key:value|key:value`, and `convertStringToJSON` reads such
    a block back, either as one record per line (when the text holds a `|`)
    or as one object merging all lines. */
module BlockCodec {
  import opened Opt
  import opened Text
  import opened JsNumber
  import opened JsValue
  import opened ValueCodec

  /** The lines that are not blank after trimming, in order. */
  function NonBlank(lines: seq<string>): (r: seq<string>)
    ensures |r| <= |lines|
    ensures forall i :: 0 <= i < |r| ==> Trim(r[i]) != []
    ensures (forall i :: 0 <= i < |lines| ==> Trim(lines[i]) != []) ==> r == lines
    ensures forall x :: x in r <==> x in lines && Trim(x) != []
  {
    if lines == [] then []
    else
      var rest := NonBlank(lines[1..]);
      assert forall x :: x in lines <==> x == lines[0] || x in lines[1..];
      if Trim(lines[0]) != [] then [lines[0]] + rest else rest
  }

  /** Filtering distributes over concatenation: the kept lines of two blocks
      are the kept lines of each, in order. */
  lemma {:induction false} NonBlankAppend(a: seq<string>, b: seq<string>)
    ensures NonBlank(a + b) == NonBlank(a) + NonBlank(b)
  {
    if a != [] {
      var x, ab := a[0], a + b;
      assert ab[0] == x && ab[1..] == a[1..] + b;
      NonBlankAppend(a[1..], b);
      if Trim(x) != [] {
        assert NonBlank(ab) == [x] + NonBlank(ab[1..]);
        assert NonBlank(a) == [x] + NonBlank(a[1..]);
      } else {
        assert NonBlank(ab) == NonBlank(ab[1..]);
        assert NonBlank(a) == NonBlank(a[1..]);
      }
    } else {
      assert a + b == b;
    }
  }

  /** One line is kept exactly when it does not trim to nothing. */
  lemma NonBlankOne(line: string)
    ensures NonBlank([line]) == if Trim(line) != [] then [line] else []
  {
    assert [line][1..] == [];
  }

  function Lines(s: string): seq<string>
  {
    NonBlank(Split(s, '\n'))
  }

  /** What one `|`-separated segment contributes: nothing unless its first
      `:` is past index 0; then the trimmed text before it as the key and
      the trimmed text after it read by parseValueString as the value. */
  function SegmentPair(seg: string): (r: Option<(string, Value)>)
    ensures r.Some? <==> ':' in seg && seg[0] != ':'
    ensures r.Some? ==> Trim(r.value.0) == r.value.0 && ':' !in r.value.0
    ensures r.Some? ==> !r.value.1.Null? && !r.value.1.Undef?
  {
    var i := IndexOf(seg, ':');
    if i > 0 then
      TrimTwice(seg[..i]);
      TrimKeepsAbsent(seg[..i], ':');
      Some((Trim(seg[..i]), ParseValueString(Trim(seg[i + 1..]))))
    else None
  }

  /** What each segment contributes. */
  function SegmentPairs(segs: seq<string>): seq<Option<(string, Value)>>
  {
    seq(|segs|, j requires 0 <= j < |segs| => SegmentPair(segs[j]))
  }

  /** The key/value pairs a line's segments contribute, in order. */
  function LinePairs(segs: seq<string>): (r: Record)
    ensures |r| <= |segs|
  {
    Present(SegmentPairs(segs))
  }

  /** The record one line decodes to: the pairs assigned in order onto an
      empty object, so a repeated key keeps its first place and its last
      value. */
  function DecodeLine(line: string): (r: Record)
    ensures '|' !in line ==> r == match SegmentPair(line) case Some(p) => [p] case None => []
  {
    OneSegmentLine(line);
    PutAll([], LinePairs(Split(line, '|')))
  }

  /** A line without `|` is one segment. */
  lemma OneSegmentLine(line: string)
    ensures '|' !in line ==>
              PutAll([], LinePairs(Split(line, '|'))) == match SegmentPair(line) case Some(p) => [p] case None => []
  {
    if '|' !in line {
      assert Split(line, '|') == [line];
      var os := SegmentPairs([line]);
      assert os == [SegmentPair(line)];
      assert os[..0] == [];
    }
  }

  /** All the records' pairs, record after record. */
  function Concat(rs: seq<Record>): Record
  {
    if rs == [] then [] else Concat(rs[..|rs| - 1]) + rs[|rs| - 1]
  }

  /** The records of the lines, one per line. */
  function DecodeLines(lines: seq<string>): (rs: seq<Record>)
    ensures |rs| == |lines|
  {
    if lines == [] then [] else DecodeLines(lines[..|lines| - 1]) + [DecodeLine(lines[|lines| - 1])]
  }

  /** Decoding one more line appends its record. */
  lemma DecodeLinesSnoc(lines: seq<string>, i: nat)
    requires i < |lines|
    ensures DecodeLines(lines[..i + 1]) == DecodeLines(lines[..i]) + [DecodeLine(lines[i])]
  {
    assert lines[..i + 1][..i] == lines[..i];
  }

  lemma {:induction false} DecodeLinesAt(lines: seq<string>, k: nat)
    requires k < |lines|
    ensures DecodeLines(lines)[k] == DecodeLine(lines[k])
  {
    if k < |lines| - 1 {
      DecodeLinesAt(lines[..|lines| - 1], k);
    }
  }

  /** Each record as an object. */
  function Objects(rs: seq<Record>): (r: seq<Value>)
    ensures |r| == |rs|
    ensures forall i :: 0 <= i < |r| ==> r[i] == Obj(rs[i])
  {
    seq(|rs|, i requires 0 <= i < |rs| => Obj(rs[i]))
  }

  /** What convertStringToJSON returns for a text: no lines give an empty
      list; a text holding `|` gives one object per line; any other text
      gives a single object. */
  function DecodeBlock(s: string): (r: Value)
    ensures Lines(s) == [] ==> r == Arr([])
    ensures Lines(s) != [] && '|' in s ==>
              r.Arr? && |r.items| == |Lines(s)| && forall i :: 0 <= i < |r.items| ==> r.items[i].Obj?
    ensures Lines(s) != [] && '|' !in s ==> r.Obj?
  {
    var lines := Lines(s);
    if lines == [] then Arr([])
    else if '|' in s then Arr(Objects(DecodeLines(lines)))
    else Obj(PutAll([], Concat(DecodeLines(lines))))
  }

  /** The `reduce` over one line's segments: each segment whose first `:`
      is past index 0 assigns its key in the accumulator. */
  method ReduceLine(line: string) returns (acc: Record)
    ensures acc == DecodeLine(line)
  {
    var segs := Split(line, '|');
    ghost var pairs := SegmentPairs(segs);
    acc := [];
    for j := 0 to |segs|
      invariant acc == PutAll([], Present(pairs[..j]))
    {
      PresentPrefixSnoc(pairs, j);
      var contribution := SegmentPair(segs[j]);
      assert contribution == pairs[j];
      if contribution.Some? {
        PutAllSnoc([], Present(pairs[..j]), contribution.value);
        acc := Put(acc, contribution.value.0, contribution.value.1);
      }
    }
    assert pairs[..|segs|] == pairs;
  }

  /** The `lines.map(...)` step: one record per line. */
  method ReduceLines(lines: seq<string>) returns (processed: seq<Record>)
    ensures processed == DecodeLines(lines)
  {
    processed := [];
    for i := 0 to |lines|
      invariant processed == DecodeLines(lines[..i])
    {
      var acc := ReduceLine(lines[i]);
      DecodeLinesSnoc(lines, i);
      processed := processed + [acc];
    }
    assert lines[..|lines|] == lines;
  }

  /** `Object.assign({}, ...records)`: the records' properties assigned one
      record after another onto an empty object. */
  method AssignAll(records: seq<Record>) returns (merged: Record)
    ensures merged == PutAll([], Concat(records))
  {
    merged := [];
    for i := 0 to |records|
      invariant merged == PutAll([], Concat(records[..i]))
    {
      assert records[..i + 1][..i] == records[..i];
      PutAllAppend([], Concat(records[..i]), records[i]);
      merged := PutAll(merged, records[i]);
    }
    assert records[..|records|] == records;
  }

  /** `convertStringToJSON(dataString)`, written as the source computes it:
      each line's segments are assigned into an accumulator, and the
      records are then either returned as a list or assigned one after
      another onto an empty object. */
  method ConvertStringToJSON(s: string) returns (r: Value)
    ensures r == DecodeBlock(s)
  {
    var containsPipe := '|' in s;
    var lines := Lines(s);
    if |lines| == 0 {
      return Arr([]);
    }
    var processed := ReduceLines(lines);
    if containsPipe {
      r := Arr(Objects(processed));
    } else {
      var merged := AssignAll(processed);
      r := Obj(merged);
    }
  }

  /** One encoded pair: `key:` followed by the formatted value. */
  function EncodePair(p: (string, Value)): string
  {
    p.0 + ":" + FormatValueToString(p.1)
  }

  /** Each pair of a record, encoded. */
  function EncodePairs(fields: Record): seq<string>
  {
    seq(|fields|, j requires 0 <= j < |fields| => EncodePair(fields[j]))
  }

  /** One record's line: its pairs joined with `|`. */
  function EncodeLine(fields: Record): (r: string)
    ensures |fields| == 1 ==> r == EncodePair(fields[0])
  {
    Join(EncodePairs(fields), '|')
  }

  /** `convertJSONToString(jsonData)`: the empty text for anything but an
      array; a TypeError when an element is null or undefined, whose entries
      cannot be listed; otherwise one line per element, joined with
      newlines. */
  function ConvertJSONToString(data: Value): (r: Completion<string>)
    ensures !data.Arr? ==> r == Normal("")
    ensures data.Arr? ==> (r.Throw? <==> exists i :: 0 <= i < |data.items| && (data.items[i].Null? || data.items[i].Undef?))
    ensures data == Arr([]) ==> r == Normal("")
  {
    if !data.Arr? then Normal("")
    else
      var items := data.items;
      if exists i :: 0 <= i < |items| && Entries(items[i]).None? then Throw(TypeError)
      else Normal(Join(seq(|items|, i requires 0 <= i < |items| => EncodeLine(Entries(items[i]).value)), '\n'))
  }
}

=== FILE: block_laws.dfy ===
/** What the block codec promises: a list of records written by
    convertJSONToString reads back through convertStringToJSON as the same
    list (when some record has two fields, so the text holds a `|`) or as
    one object holding every field (when each record has one field), and
    lines read as one object are merged with later lines winning. */
module BlockLaws {
  import opened Opt
  import opened Text
  import opened JsNumber
  import opened JsValue
  import opened ValueCodec
  import opened BlockCodec

  /** A key the line format carries unchanged: not blank at either end,
      free of the three characters the format gives meaning to, and not
      `__proto__`, which an assignment `obj[key] = value` in JavaScript
      takes as the object's prototype rather than as a property. */
  predicate SafeKey(k: string) {
    && k != []
    && !IsSpace(k[0]) && !IsSpace(k[|k| - 1])
    && ':' !in k && '|' !in k && '\n' !in k
    && k != "__proto__"
  }

  /** A value the line format carries unchanged: a string without `|` or a
      line break, an integer or a boolean. */
  predicate SafeValue(v: Value) {
    || (v.Str? && '|' !in v.s && '\n' !in v.s)
    || v.Num?
    || v.Bool?
  }

  /** A non-empty record of distinct safe keys with safe values. */
  predicate SafeRecord(fields: Record) {
    && fields != []
    && UniqueKeys(fields)
    && forall j :: 0 <= j < |fields| ==> SafeKey(fields[j].0) && SafeValue(fields[j].1)
  }

  /** The lines convertJSONToString writes for a list of records. */
  function EncodedLines(rs: seq<Record>): (r: seq<string>)
    ensures |r| == |rs|
    ensures forall i :: 0 <= i < |rs| ==> r[i] == EncodeLine(rs[i])
  {
    seq(|rs|, i requires 0 <= i < |rs| => EncodeLine(rs[i]))
  }

  /** A safe value formats to text free of separators and surrounding
      blanks, and that text reads back as the value. */
  lemma FormatSafe(v: Value)
    requires SafeValue(v)
    ensures '|' !in FormatValueToString(v) && '\n' !in FormatValueToString(v)
    ensures Trim(FormatValueToString(v)) == FormatValueToString(v)
    ensures ParseValueString(FormatValueToString(v)) == v
  {
    match v
    case Str(s) => FormatStrSafe(s);
    case Num(n) => FormatNumSafe(n);
    case Bool(b) => FormatBoolSafe(b);
  }

  lemma FormatStrSafe(s: string)
    requires '|' !in s && '\n' !in s
    ensures '|' !in FormatValueToString(Str(s)) && '\n' !in FormatValueToString(Str(s))
    ensures Trim(FormatValueToString(Str(s))) == FormatValueToString(Str(s))
    ensures ParseValueString(FormatValueToString(Str(s))) == Str(s)
  {
    StringRoundTrip(s);
    QuotedStrShape(s);
    TrimOfTrimmed(FormatValueToString(Str(s)));
  }

  /** A formatted string is quoted on both ends and, like the string, holds
      no `|` or line break. */
  lemma QuotedStrShape(s: string)
    requires '|' !in s && '\n' !in s
    ensures var f := FormatValueToString(Str(s));
            '|' !in f && '\n' !in f && f[0] == '\'' && f[|f| - 1] == '\''
  {
    var f := FormatValueToString(Str(s));
    assert f == "'" + EscapeQuotes(s) + "'";
    assert '|' !in EscapeQuotes(s) && '\n' !in EscapeQuotes(s);
  }

  lemma FormatNumSafe(n: int)
    ensures '|' !in FormatValueToString(Num(n)) && '\n' !in FormatValueToString(Num(n))
    ensures Trim(FormatValueToString(Num(n))) == FormatValueToString(Num(n))
    ensures ParseValueString(FormatValueToString(Num(n))) == Num(n)
  {
    var f := IntToString(n);
    NumberRoundTrip(n);
    IntToStringIsTrimmed(n);
    assert forall i :: 0 <= i < |f| ==> f[i] != '|' && f[i] != '\n';
  }

  lemma FormatBoolSafe(b: bool)
    ensures '|' !in FormatValueToString(Bool(b)) && '\n' !in FormatValueToString(Bool(b))
    ensures Trim(FormatValueToString(Bool(b))) == FormatValueToString(Bool(b))
    ensures ParseValueString(FormatValueToString(Bool(b))) == Bool(b)
  {
    var t := FormatValueToString(Bool(b));
    assert t == if b then "true" else "false";
    assert forall k :: 0 <= k < |t| ==> 'a' <= t[k] <= 'z';
    BoolRoundTrip(b);
    TrimOfTrimmed(t);
  }

  /** An encoded pair holds no separator. */
  lemma PairAvoids(p: (string, Value))
    requires SafeKey(p.0) && SafeValue(p.1)
    ensures '|' !in EncodePair(p) && '\n' !in EncodePair(p)
  {
    FormatSafe(p.1);
    assert EncodePair(p) == p.0 + ":" + FormatValueToString(p.1);
  }

  /** An encoded pair is a segment that decodes to the pair: its first `:`
      is the one after the key. */
  lemma SegmentOfPair(p: (string, Value))
    requires SafeKey(p.0) && SafeValue(p.1)
    ensures SegmentPair(EncodePair(p)) == Some(p)
  {
    var k := p.0;
    var f := FormatValueToString(p.1);
    assert EncodePair(p) == k + ":" + f;
    FirstSeparator(k, ':', f);
    TrimOfTrimmed(k);
    FormatSafe(p.1);
  }

  /** A record's encoded pairs are segments that decode to its pairs. */
  lemma LinePairsOfEncoded(fields: Record)
    requires forall j :: 0 <= j < |fields| ==> SafeKey(fields[j].0) && SafeValue(fields[j].1)
    ensures LinePairs(EncodePairs(fields)) == fields
  {
    var segs := EncodePairs(fields);
    forall j | 0 <= j < |segs| ensures SegmentPairs(segs)[j] == Some(fields[j]) {
      SegmentOfPair(fields[j]);
    }
    PresentAll(SegmentPairs(segs), fields);
  }

  /** A record's line splits at `|` into its encoded pairs. */
  lemma SplitEncodedLine(fields: Record)
    requires SafeRecord(fields)
    ensures Split(EncodeLine(fields), '|') == EncodePairs(fields)
  {
    var segs := EncodePairs(fields);
    forall j | 0 <= j < |segs| ensures '|' !in segs[j] {
      PairAvoids(fields[j]);
    }
    SplitJoin(segs, '|');
  }

  /** One record's line decodes back to the record. */
  lemma DecodeEncodeLine(fields: Record)
    requires SafeRecord(fields)
    ensures DecodeLine(EncodeLine(fields)) == fields
  {
    SplitEncodedLine(fields);
    LinePairsOfEncoded(fields);
    assert [] + fields == fields;
    PutAllFresh([], fields);
  }

  /** A record's line is one line, is not blank, and holds a `|` exactly
      when the record has more than one field. */
  lemma LineFacts(fields: Record)
    requires SafeRecord(fields)
    ensures '\n' !in EncodeLine(fields)
    ensures Trim(EncodeLine(fields)) != []
    ensures '|' in EncodeLine(fields) <==> |fields| >= 2
  {
    var segs := EncodePairs(fields);
    var line := EncodeLine(fields);
    assert line == Join(segs, '|');
    forall j | 0 <= j < |segs| ensures '|' !in segs[j] && '\n' !in segs[j] {
      PairAvoids(fields[j]);
    }
    JoinAvoids(segs, '|', '\n');
    JoinHasSeparator(segs, '|');
    JoinStartsWithFirst(segs, '|');
    assert segs[0] == fields[0].0 + ":" + FormatValueToString(fields[0].1);
    assert line[0] == segs[0][0] == fields[0].0[0];
    TrimNotBlank(line);
  }

  /** The text of a block splits back into its records' lines, and holds a
      `|` exactly when some record has more than one field. */
  lemma LinesOfBlock(rs: seq<Record>)
    requires forall i :: 0 <= i < |rs| ==> SafeRecord(rs[i])
    ensures Lines(Join(EncodedLines(rs), '\n')) == EncodedLines(rs)
    ensures '|' in Join(EncodedLines(rs), '\n') <==> exists i :: 0 <= i < |rs| && |rs[i]| >= 2
  {
    var lines := EncodedLines(rs);
    var text := Join(lines, '\n');
    forall i | 0 <= i < |lines|
      ensures '\n' !in lines[i] && Trim(lines[i]) != [] && ('|' in lines[i] <==> |rs[i]| >= 2)
    {
      LineFacts(rs[i]);
    }
    if rs == [] {
      assert text == "";
      assert Split(text, '\n') == [""];
    } else {
      SplitJoin(lines, '\n');
    }
    if exists i :: 0 <= i < |rs| && |rs[i]| >= 2 {
      var i :| 0 <= i < |rs| && |rs[i]| >= 2;
      JoinKeeps(lines, '\n', i, '|');
    } else {
      JoinAvoids(lines, '\n', '|');
    }
  }

  /** The records of the lines of a block are the block's records. */
  lemma DecodeEncodedLines(rs: seq<Record>)
    requires forall i :: 0 <= i < |rs| ==> SafeRecord(rs[i])
    ensures DecodeLines(EncodedLines(rs)) == rs
  {
    var lines := EncodedLines(rs);
    forall k | 0 <= k < |rs| ensures DecodeLines(lines)[k] == rs[k] {
      DecodeLinesAt(lines, k);
      DecodeEncodeLine(rs[k]);
    }
  }

  /** convertJSONToString writes a list of objects as its records' lines
      joined by line breaks. */
  lemma EncodeObjects(rs: seq<Record>)
    ensures ConvertJSONToString(Arr(Objects(rs))) == Normal(Join(EncodedLines(rs), '\n'))
  {
    var items := Objects(rs);
    assert forall i :: 0 <= i < |items| ==> Entries(items[i]) == Some(rs[i]);
    assert seq(|items|, i requires 0 <= i < |items| => EncodeLine(Entries(items[i]).value)) == EncodedLines(rs);
  }

  /** The text of a list of safe records with some record of two fields
      decodes to that list. */
  lemma DecodeEncodedBlock(rs: seq<Record>)
    requires forall i :: 0 <= i < |rs| ==> SafeRecord(rs[i])
    requires exists i :: 0 <= i < |rs| && |rs[i]| >= 2
    ensures DecodeBlock(Join(EncodedLines(rs), '\n')) == Arr(Objects(rs))
  {
    LinesOfBlock(rs);
    DecodeEncodedLines(rs);
  }

  /** Round trip, list mode: when some record has at least two fields, the
      text written for a list of safe records reads back as that list. */
  lemma ListRoundTrip(rs: seq<Record>)
    requires forall i :: 0 <= i < |rs| ==> SafeRecord(rs[i])
    requires exists i :: 0 <= i < |rs| && |rs[i]| >= 2
    ensures ConvertJSONToString(Arr(Objects(rs))).Normal?
    ensures DecodeBlock(ConvertJSONToString(Arr(Objects(rs))).value) == Arr(Objects(rs))
  {
    EncodeObjects(rs);
    DecodeEncodedBlock(rs);
  }

  /** Round trip, merged mode: when every record has one field and no key
      repeats, the text reads back as a single object holding every field,
      in order. */
  lemma MergedRoundTrip(rs: seq<Record>)
    requires rs != []
    requires forall i :: 0 <= i < |rs| ==> SafeRecord(rs[i]) && |rs[i]| == 1
    requires UniqueKeys(Concat(rs))
    ensures ConvertJSONToString(Arr(Objects(rs))).Normal?
    ensures DecodeBlock(ConvertJSONToString(Arr(Objects(rs))).value) == Obj(Concat(rs))
  {
    EncodeObjects(rs);
    LinesOfBlock(rs);
    DecodeEncodedLines(rs);
    assert [] + Concat(rs) == Concat(rs);
    PutAllFresh([], Concat(rs));
  }

  /** A line's record never holds a key twice. */
  lemma DecodeLineUnique(line: string)
    ensures UniqueKeys(DecodeLine(line))
  {
    PutAllUnique([], LinePairs(Split(line, '|')));
  }

  /** Merged mode in general: every key of the single object holds the
      value of the last line segment that names it, and the object has no
      other keys. */
  lemma MergedLastWins(s: string, k: string)
    requires Lines(s) != [] && '|' !in s
    ensures DecodeBlock(s).Obj?
    ensures Get(DecodeBlock(s).fields, k) ==
              match LastBinding(Concat(DecodeLines(Lines(s))), k)
              case Some(v) => v
              case None => Undef
  {
    PutAllGet([], Concat(DecodeLines(Lines(s))), k);
  }

  /** A block written for one record whose text field reads "true". */
  lemma QuotedTrueExample()
    ensures DecodeBlock("a:'true'|b:1") == Arr([Obj([("a", Str("true")), ("b", Num(1))])])
  {
    TrueRecordDecodes();
    EncodedTrueLine();
  }

  lemma TrueRecordDecodes()
    ensures var rec: Record := [("a", Str("true")), ("b", Num(1))];
            DecodeBlock(EncodeLine(rec)) == Arr([Obj(rec)])
  {
    var rec: Record := [("a", Str("true")), ("b", Num(1))];
    assert SafeRecord(rec) by {
      assert UniqueKeys(rec);
      assert SafeKey("a") && SafeKey("b");
    }
    OneRecordDecodes(rec);
  }

  /** The record of the example above is written as `a:'true'|b:1`. */
  lemma EncodedTrueLine()
    ensures EncodeLine([("a", Str("true")), ("b", Num(1))]) == "a:'true'|b:1"
  {
    var rec: Record := [("a", Str("true")), ("b", Num(1))];
    assert EncodePair(rec[0]) == "a:'true'" by {
      assert EscapeQuotes("true") == "true";
    }
    assert EncodePair(rec[1]) == "b:1" by {
      assert IntToString(1) == "1";
    }
    assert EncodePairs(rec) == ["a:'true'", "b:1"];
    assert Join(["a:'true'", "b:1"], '|') == "a:'true'" + "|" + "b:1";
  }

  /** The line of a single safe record of two or more fields decodes to a
      list holding that record. */
  lemma OneRecordDecodes(rec: Record)
    requires SafeRecord(rec) && |rec| >= 2
    ensures DecodeBlock(EncodeLine(rec)) == Arr([Obj(rec)])
  {
    var rs := [rec];
    assert |rs[0]| >= 2;
    assert EncodedLines(rs) == [EncodeLine(rec)];
    DecodeEncodedBlock(rs);
    assert Objects(rs) == [Obj(rec)];
  }
}

=== FILE: codec_laws.dfy ===
/** What `formatValueToString` writes for objects and arrays, and what
    `parseValueString` reads back from such text: JSON whose string
    literals are single-quoted and whose identifier keys are bare. */
module CodecLaws {
  import opened Opt
  import opened Text
  import opened JsNumber
  import opened JsValue
  import opened Json
  import JsonLaws
  import opened ValueCodec

  /** Text JSON.stringify writes inside a string literal unchanged. */
  predicate JsonPlain(s: string) {
    forall i :: 0 <= i < |s| ==> s[i] != '"' && s[i] != '\\' && s[i] >= ' '
  }

  /** Text the codec's single-quoted literals hold unchanged. */
  predicate PlainText(s: string) {
    JsonPlain(s) && '\'' !in s
  }

  /** `"x"` followed by `r`. */
  function DoubleQuoted(x: string, r: string): string {
    "\"" + (x + ("\"" + r))
  }

  /** `'x'` followed by `r`. */
  function SingleQuoted(x: string, r: string): string {
    "'" + (x + ("'" + r))
  }

  lemma {:induction false} EscapeStringPlain(s: string)
    requires JsonPlain(s)
    ensures EscapeString(s) == s
  {
    if s != [] {
      EscapeStringPlain(s[1..]);
      assert EscapeChar(s[0]) == [s[0]];
    }
  }

  lemma IdentifierPlain(k: string)
    requires IsIdentifier(k)
    ensures PlainText(k) && '"' !in k && ':' !in k
  {
    assert forall i :: 0 <= i < |k| ==> IsIdentChar(k[i]);
  }

  /** JSON.stringify of a string whose characters need no escape. */
  lemma WrittenString(s: string, r: string)
    requires JsonPlain(s)
    ensures Stringify(Str(s)) + r == DoubleQuoted(s, r)
  {
    EscapeStringPlain(s);
    Nest4("\"", s, "\"", r);
  }

  /** JSON.stringify of a one-member object whose key needs no escape. */
  lemma WrittenMember(k: string, x: Value)
    requires JsonPlain(k) && !x.Undef?
    ensures Stringify(Obj([(k, x)])) == "{" + DoubleQuoted(k, ":" + (Stringify(x) + "}"))
  {
    var v := Obj([(k, x)]);
    assert MembersText(v, 1) == "";
    var w := Stringify(x);
    assert MembersText(v, 0) == Quote(k) + ":" + w;
    WrittenString(k, ":" + (w + "}"));
    Nest4(Quote(k), ":", w, "}");
    Nest3("{", Quote(k) + ":" + w, "}");
  }

  /** JSON.stringify of a one-element array. */
  lemma WrittenElement(x: Value)
    ensures Stringify(Arr([x])) == "[" + (Stringify(x) + "]")
  {
    Nest3("[", Stringify(x), "]");
  }

  /** A character other than the one a rewrite looks for at the front is
      kept, and the rewrite goes on after it. */
  lemma RewritesSkip(c: char, y: string)
    ensures c != '\'' ==> DoubleQuoteLiterals([c] + y) == [c] + DoubleQuoteLiterals(y)
    ensures !IsIdentStart(c) ==> QuoteBareKeys([c] + y) == [c] + QuoteBareKeys(y)
    ensures c != '"' ==> SingleQuoteStrings([c] + y) == [c] + SingleQuoteStrings(y)
    ensures c != '\'' ==> UnquoteIdentKeys([c] + y) == [c] + UnquoteIdentKeys(y)
  {
    assert ([c] + y)[1..] == y;
  }

  /** A text free of single quotes passes through the `'...'` rewrite. */
  lemma {:induction false} DoubleQuotePrefix(x: string, y: string)
    requires '\'' !in x
    ensures DoubleQuoteLiterals(x + y) == x + DoubleQuoteLiterals(y)
  {
    if x == [] {
      assert x + y == y;
      assert x + DoubleQuoteLiterals(y) == DoubleQuoteLiterals(y);
    } else {
      assert x[0] in x;
      DoubleQuotePrefix(x[1..], y);
      FirstAndRest(x, y);
      FirstAndRest(x, DoubleQuoteLiterals(y));
      RewritesSkip(x[0], x[1..] + y);
    }
  }

  /** A text free of single quotes, then a closing quote and a text that
      opens no identifier, passes through the `'ident':` rewrite. */
  lemma {:induction false} UnquoteTail(s: string, rest: string)
    requires '\'' !in s && '\'' !in rest && (rest == [] || !IsIdentStart(rest[0]))
    ensures UnquoteIdentKeys(s + ("'" + rest)) == s + ("'" + rest)
  {
    if s == [] {
      assert s + ("'" + rest) == "'" + rest;
      assert UnquoteIdentKeys(rest) == rest;
    } else {
      assert s[0] in s;
      UnquoteTail(s[1..], rest);
      FirstAndRest(s, "'" + rest);
      RewritesSkip(s[0], s[1..] + ("'" + rest));
    }
  }

  /** A single-quoted literal that is not followed by a colon keeps its
      quotes through the `'ident':` rewrite. */
  lemma UnquoteLiteral(s: string, rest: string)
    requires '\'' !in s && '\'' !in rest && rest != [] && !IsIdentStart(rest[0]) && rest[0] != ':'
    ensures UnquoteIdentKeys(SingleQuoted(s, rest)) == SingleQuoted(s, rest)
  {
    var t := SingleQuoted(s, rest);
    var u := s + ("'" + rest);
    assert t[1..] == u;
    UnquoteTail(s, rest);
    if |t| >= 2 && IsIdentStart(t[1]) {
      var n := IdentRun(u);
      assert u[|s|] == '\'';
      assert n <= |s|;
      if n < |s| {
        assert t[n + 1] == s[n];
      } else {
        assert t[n + 2] == rest[0];
      }
    }
  }

  /** A double-quoted literal free of quotes and backslashes becomes a
      single-quoted one. */
  lemma SingleQuotePlain(s: string, rest: string)
    requires JsonPlain(s)
    ensures SingleQuoteStrings(DoubleQuoted(s, rest)) == SingleQuoted(s, SingleQuoteStrings(rest))
  {
    if s != [] {
      assert s[|s| - 1] != '\\';
    }
    assert '"' !in s;
    StringSingleQuoted(s, rest);
    Nest4("\"", s, "\"", rest);
    Nest4("'", s, "'", SingleQuoteStrings(rest));
  }

  /** A single-quoted literal free of quotes and backslashes becomes a
      double-quoted one. */
  lemma DoubleQuotePlain(s: string, rest: string)
    requires PlainText(s)
    ensures DoubleQuoteLiterals(SingleQuoted(s, rest)) == DoubleQuoted(s, DoubleQuoteLiterals(rest))
  {
    assert '\\' !in s;
    DoubleQuotesLiteral(s, rest);
    Nest4("'", s, "'", rest);
    Nest4("\"", s, "\"", DoubleQuoteLiterals(rest));
  }

  /** A quoted identifier key loses its quotes. */
  lemma UnquoteKey(k: string, rest: string)
    requires IsIdentifier(k)
    ensures UnquoteIdentKeys(SingleQuoted(k, ":" + rest)) == k + (":" + UnquoteIdentKeys(rest))
  {
    IdentKeyUnquoted(k, rest);
    NestKey(k, rest);
    Nest3(k, ":", UnquoteIdentKeys(rest));
  }

  /** A bare identifier key gains quotes. */
  lemma QuoteKey(k: string, rest: string)
    requires IsIdentifier(k)
    ensures QuoteBareKeys(k + (":" + rest)) == DoubleQuoted(k, ":" + QuoteBareKeys(rest))
  {
    BareKeyQuoted(k, rest);
    NestKey(k, QuoteBareKeys(rest));
    Nest3(k, ":", rest);
  }

  /** `formatValueToString` of a container is the JSON text after the
      two rewrites. */
  lemma FormatContainer(v: Value, j: string)
    requires (v.Arr? || v.Obj?) && Stringify(v) == j
    ensures FormatValueToString(v) == UnquoteIdentKeys(SingleQuoteStrings(j))
  {
  }

  /** Stage one of the writer after an opening bracket `c`: a double-quoted
      plain literal becomes single-quoted. */
  lemma SingleQuoteAfter(c: char, x: string, rest: string)
    requires c != '"' && JsonPlain(x)
    ensures SingleQuoteStrings([c] + DoubleQuoted(x, rest)) == [c] + SingleQuoted(x, SingleQuoteStrings(rest))
  {
    RewritesSkip(c, DoubleQuoted(x, rest));
    SingleQuotePlain(x, rest);
  }

  /** Stage two of the writer after an opening bracket `c`: a quoted
      identifier key loses its quotes. */
  lemma UnquoteKeyAfter(c: char, k: string, rest: string)
    requires c != '\'' && IsIdentifier(k)
    ensures UnquoteIdentKeys([c] + SingleQuoted(k, ":" + rest)) == [c] + (k + (":" + UnquoteIdentKeys(rest)))
  {
    RewritesSkip(c, SingleQuoted(k, ":" + rest));
    UnquoteKey(k, rest);
  }

  /** Stage two of the writer after a character `c` that opens no key: a
      single-quoted literal that no colon follows keeps its quotes. */
  lemma UnquoteLiteralAfter(c: char, s: string, close: char)
    requires c != '\'' && '\'' !in s && close != '\'' && !IsIdentStart(close) && close != ':'
    ensures UnquoteIdentKeys([c] + SingleQuoted(s, [close])) == [c] + SingleQuoted(s, [close])
  {
    RewritesSkip(c, SingleQuoted(s, [close]));
    UnquoteLiteral(s, [close]);
  }

  /** Stage one of the reader after a character `c` other than a quote: a
      single-quoted plain literal becomes double-quoted. */
  lemma DoubleQuoteAfter(c: char, s: string, rest: string)
    requires c != '\'' && PlainText(s)
    ensures DoubleQuoteLiterals([c] + SingleQuoted(s, rest)) == [c] + DoubleQuoted(s, DoubleQuoteLiterals(rest))
  {
    RewritesSkip(c, SingleQuoted(s, rest));
    DoubleQuotePlain(s, rest);
  }

  /** Stage two of the reader after an opening bracket `c`: a bare
      identifier key gains quotes. */
  lemma QuoteKeyAfter(c: char, k: string, rest: string)
    requires !IsIdentStart(c) && IsIdentifier(k)
    ensures QuoteBareKeys([c] + (k + (":" + rest))) == [c] + DoubleQuoted(k, ":" + QuoteBareKeys(rest))
  {
    RewritesSkip(c, k + (":" + rest));
    QuoteKey(k, rest);
  }

  /** A closing bracket after a plain literal: no rewrite touches it. */
  lemma ClosingUntouched(s: string, close: char)
    requires JsonPlain(s) && close != '\'' && close != '"' && close != ':'
    ensures SingleQuoteStrings([close]) == [close]
    ensures DoubleQuoteLiterals([close]) == [close]
    ensures ':' !in s ==> QuoteBareKeys(DoubleQuoted(s, [close])) == DoubleQuoted(s, [close])
  {
    if ':' !in s {
      assert DoubleQuoted(s, [close]) == "\"" + s + "\"" + [close];
    }
  }

  /** The text of an integer holds no quote and no colon. */
  lemma NumberTextPlain(n: int)
    ensures '"' !in IntToString(n) && '\'' !in IntToString(n) && ':' !in IntToString(n)
  {
    var d := IntToString(n);
    assert forall i :: 0 <= i < |d| ==> d[i] != '"' && d[i] != '\'' && d[i] != ':';
  }

  /** The digits of an integer, then `}`, pass every rewrite unchanged. */
  lemma NumberTail(n: int)
    ensures SingleQuoteStrings(":" + (IntToString(n) + "}")) == ":" + (IntToString(n) + "}")
    ensures UnquoteIdentKeys(IntToString(n) + "}") == IntToString(n) + "}"
    ensures QuoteBareKeys(IntToString(n) + "}") == IntToString(n) + "}"
  {
    var d := IntToString(n);
    NumberTextPlain(n);
    assert '"' !in ":" + (d + "}");
    assert '\'' !in d + "}";
    assert ':' !in d + "}";
  }

  /** `{k: 's'}` is written `{k:'s'}`: the key bare, the text in single
      quotes. */
  lemma FormatObjectOfString(k: string, s: string)
    requires IsIdentifier(k) && PlainText(s)
    ensures FormatValueToString(Obj([(k, Str(s))])) == "{" + k + ":'" + s + "'}"
  {
    var lit := SingleQuoted(s, "}");
    var j := "{" + DoubleQuoted(k, ":" + DoubleQuoted(s, "}"));
    assert Stringify(Obj([(k, Str(s))])) == j by {
      IdentifierPlain(k);
      WrittenMember(k, Str(s));
      WrittenString(s, "}");
    }
    FormatContainer(Obj([(k, Str(s))]), j);
    IdentifierPlain(k);
    SingleQuoteAfter('{', k, ":" + DoubleQuoted(s, "}"));
    SingleQuoteAfter(':', s, "}");
    ClosingUntouched(s, '}');
    UnquoteKeyAfter('{', k, lit);
    UnquoteLiteralAfter('{', s, '}');
    NestLiterals(k, s);
  }

  /** An array of one text is written `['s']`. */
  lemma FormatArrayOfString(s: string)
    requires PlainText(s)
    ensures FormatValueToString(Arr([Str(s)])) == "['" + s + "']"
  {
    var j := "[" + DoubleQuoted(s, "]");
    assert Stringify(Arr([Str(s)])) == j by {
      WrittenElement(Str(s));
      WrittenString(s, "]");
    }
    FormatContainer(Arr([Str(s)]), j);
    SingleQuoteAfter('[', s, "]");
    ClosingUntouched(s, ']');
    UnquoteLiteralAfter('[', s, ']');
    NestLiterals("", s);
  }

  /** `{k: n}` is written `{k:n}`. */
  lemma FormatObjectOfNumber(k: string, n: int)
    requires IsIdentifier(k)
    ensures FormatValueToString(Obj([(k, Num(n))])) == "{" + k + ":" + IntToString(n) + "}"
  {
    var d := IntToString(n);
    var j := "{" + DoubleQuoted(k, ":" + (d + "}"));
    assert Stringify(Obj([(k, Num(n))])) == j by {
      IdentifierPlain(k);
      WrittenMember(k, Num(n));
    }
    FormatContainer(Obj([(k, Num(n))]), j);
    IdentifierPlain(k);
    SingleQuoteAfter('{', k, ":" + (d + "}"));
    NumberTail(n);
    UnquoteKeyAfter('{', k, d + "}");
    Nest4("{" + k, ":", d, "}");
    Nest4("{", k, ":", d + "}");
  }

  /** The text of `{k: x}` with the key quoted again, as the JSON step of
      parseValueString rebuilds it, reads back as the object. */
  lemma ReadOneMember(k: string, x: Value)
    requires IsIdentifier(k) && JsonLaws.Writable(x)
    ensures Parse("{" + DoubleQuoted(k, ":" + (Stringify(x) + "}"))) == Some(Obj([(k, x)]))
  {
    IdentifierPlain(k);
    WrittenMember(k, x);
    JsonLaws.ParseStringify(Obj([(k, x)]));
  }

  /** The JSON step of parseValueString applied to a text `t` whose two
      rewrites give `u`, which JSON.parse reads as a container. */
  lemma ReadContainer(t: string, u: string, v: Value)
    requires QuoteBareKeys(DoubleQuoteLiterals(t)) == u && Parse(u) == Some(v) && (v.Arr? || v.Obj?)
    ensures ParseValueString(t) == v
  {
  }

  /** The container step of parseValueString: `{k:n}` reads as the object
      holding the number, for every identifier `k` and integer `n`. */
  lemma ObjectOfNumberRoundTrip(k: string, n: int)
    requires IsIdentifier(k)
    ensures ParseValueString("{" + k + ":" + IntToString(n) + "}") == Obj([(k, Num(n))])
    ensures ParseValueString(FormatValueToString(Obj([(k, Num(n))]))) == Obj([(k, Num(n))])
  {
    var d := IntToString(n);
    var t := "{" + (k + (":" + (d + "}")));
    assert "{" + k + ":" + d + "}" == t by {
      Nest4("{" + k, ":", d, "}");
      Nest4("{", k, ":", d + "}");
    }
    FormatObjectOfNumber(k, n);
    assert DoubleQuoteLiterals(t) == t by {
      IdentifierPlain(k);
      NumberTextPlain(n);
      assert '\'' !in t;
    }
    QuoteKeyAfter('{', k, d + "}");
    NumberTail(n);
    ReadOneMember(k, Num(n));
    ReadContainer(t, "{" + DoubleQuoted(k, ":" + (d + "}")), Obj([(k, Num(n))]));
  }

  /** `{k:'s'}` reads as the object holding the text, for every identifier
      `k` and every plain text `s` without a colon. */
  lemma ObjectOfStringRoundTrip(k: string, s: string)
    requires IsIdentifier(k) && PlainText(s) && ':' !in s
    ensures ParseValueString("{" + k + ":'" + s + "'}") == Obj([(k, Str(s))])
    ensures ParseValueString(FormatValueToString(Obj([(k, Str(s))]))) == Obj([(k, Str(s))])
  {
    var lit := SingleQuoted(s, "}");
    var dq := DoubleQuoted(s, "}");
    var t := "{" + (k + (":" + lit));
    assert "{" + k + ":'" + s + "'}" == t by {
      NestLiterals(k, s);
    }
    FormatObjectOfString(k, s);
    assert DoubleQuoteLiterals(t) == "{" + (k + (":" + dq)) by {
      IdentifierPlain(k);
      RewritesSkip('{', k + (":" + lit));
      DoubleQuotePrefix(k, ":" + lit);
      DoubleQuoteAfter(':', s, "}");
      ClosingUntouched(s, '}');
    }
    QuoteKeyAfter('{', k, dq);
    ClosingUntouched(s, '}');
    WrittenString(s, "}");
    ReadOneMember(k, Str(s));
    ReadContainer(t, "{" + DoubleQuoted(k, ":" + dq), Obj([(k, Str(s))]));
  }

  /** `['s']` reads as the array holding the text, for every plain text `s`
      without a colon. */
  lemma ArrayOfStringRoundTrip(s: string)
    requires PlainText(s) && ':' !in s
    ensures ParseValueString("['" + s + "']") == Arr([Str(s)])
    ensures ParseValueString(FormatValueToString(Arr([Str(s)]))) == Arr([Str(s)])
  {
    var lit := SingleQuoted(s, "]");
    var dq := DoubleQuoted(s, "]");
    assert "['" + s + "']" == "[" + lit by {
      NestLiterals("", s);
    }
    FormatArrayOfString(s);
    DoubleQuoteAfter('[', s, "]");
    ClosingUntouched(s, ']');
    RewritesSkip('[', dq);
    assert Stringify(Arr([Str(s)])) == "[" + dq by {
      WrittenElement(Str(s));
      WrittenString(s, "]");
    }
    JsonLaws.ParseStringify(Arr([Str(s)]));
    ReadContainer("[" + lit, "[" + dq, Arr([Str(s)]));
  }
}

=== FILE: counter.dfy ===
/** The counter store: a count that starts at 10, a derived double, and
    steps of one up and down. */
module CounterStore {

  class Counter {
    /** `count.value`. */
    var count: int

    constructor()
      ensures count == 10
    {
      count := 10;
    }

    /** The computed `doubleCount`, derived from the count on every read. */
    function DoubleCount(): (r: int)
      reads this
      ensures r % 2 == 0 && r / 2 == count
    {
      count * 2
    }

    method Increment()
      modifies this
      ensures count == old(count) + 1
      ensures DoubleCount() == old(DoubleCount()) + 2
    {
      count := count + 1;
    }

    method Decrement()
      modifies this
      ensures count == old(count) - 1
      ensures DoubleCount() == old(DoubleCount()) - 2
    {
      count := count - 1;
    }
  }

  /** An increment followed by a decrement leaves the counter as it was. */
  method IncrementThenDecrement(c: Counter)
    modifies c
    ensures c.count == old(c.count)
    ensures c.DoubleCount() == old(c.DoubleCount())
  {
    c.Increment();
    c.Decrement();
  }
}

=== FILE: filters.dfy ===
/** The client-side row filters: picking the objects of a list whose
    properties match a set of criteria when compared as text, finding the
    sheet row numbers of matching rows, and the per-role filters built from
    the signed-in user. */
module Filters {
  import opened JsValue

  /** `value == null`: the values reading a property of throws. */
  predicate Nullish(v: Value) {
    v.Null? || v.Undef?
  }

  /** `Object.prototype.hasOwnProperty.call(obj, key)` for a value that is
      not null or undefined. */
  predicate HasOwn(obj: Value, key: string) {
    obj.Obj? && HasKey(obj.fields, key)
  }

  /** The test one object must pass in filterObjectsUsingCriteria: it has
      every criterion key as an own property, and that property's text is
      the criterion value's text. With no criteria every item passes, null
      and undefined included. */
  predicate KeepsObject(obj: Value, criteria: Record) {
    forall j :: 0 <= j < |criteria| ==>
      HasOwn(obj, criteria[j].0) && ToText(Prop(obj, criteria[j].0).value) == ToText(criteria[j].1)
  }

  /** `data.filter(...)` over a list, front to back: the first item the test
      throws on ends the walk. The test throws on a null or undefined item
      as soon as there is a criterion to check. */
  function FilterItems(items: seq<Value>, criteria: Record): (r: Completion<seq<Value>>)
    ensures r.Throw? ==> r.error == TypeError
    ensures r.Normal? ==> |r.value| <= |items| && forall x :: x in r.value ==> x in items && KeepsObject(x, criteria)
  {
    if items == [] then Normal([])
    else if criteria != [] && Nullish(items[0]) then Throw(TypeError)
    else
      match FilterItems(items[1..], criteria)
      case Throw(e) => Throw(e)
      case Normal(rest) => Normal(if KeepsObject(items[0], criteria) then [items[0]] + rest else rest)
  }

  /** `filterObjectsUsingCriteria(data, criteria)`, with the criteria given
      by their entries. Anything but an array has no `filter` to call. */
  function FilterObjectsUsingCriteria(data: Value, criteria: Record): (r: Completion<seq<Value>>)
    ensures r.Throw? ==> r.error == TypeError
    ensures r.Normal? ==> data.Arr? && forall x :: x in r.value ==> x in data.items && KeepsObject(x, criteria)
  {
    if data.Arr? then FilterItems(data.items, criteria) else Throw(TypeError)
  }

  /** The filter throws exactly when it is not given an array, or when
      there are criteria and the list holds null or undefined; it throws
      only TypeError. */
  lemma {:induction false} FilterThrows(items: seq<Value>, criteria: Record)
    ensures FilterItems(items, criteria).Throw? <==>
            criteria != [] && exists i :: 0 <= i < |items| && Nullish(items[i])
    ensures FilterItems(items, criteria).Throw? ==> FilterItems(items, criteria).error == TypeError
  {
    if items != [] {
      FilterThrows(items[1..], criteria);
      if exists i :: 0 <= i < |items| && Nullish(items[i]) {
        var i :| 0 <= i < |items| && Nullish(items[i]);
        if i > 0 {
          assert Nullish(items[1..][i - 1]);
        }
      }
      if exists i :: 0 <= i < |items| - 1 && Nullish(items[1..][i]) {
        var i :| 0 <= i < |items| - 1 && Nullish(items[1..][i]);
        assert Nullish(items[i + 1]);
      }
    }
  }

  /** Filtering a concatenation filters each part: together with
      FilterOne this fixes the result and its order. */
  lemma {:induction false} FilterAppend(a: seq<Value>, b: seq<Value>, criteria: Record)
    requires FilterItems(a + b, criteria).Normal?
    ensures FilterItems(a, criteria).Normal? && FilterItems(b, criteria).Normal?
    ensures FilterItems(a + b, criteria).value == FilterItems(a, criteria).value + FilterItems(b, criteria).value
  {
    if a != [] {
      assert (a + b)[1..] == a[1..] + b;
      assert (a + b)[0] == a[0];
      FilterAppend(a[1..], b, criteria);
    } else {
      assert a + b == b;
    }
  }

  /** A single item is kept exactly when it passes the test. */
  lemma FilterOne(v: Value, criteria: Record)
    requires FilterItems([v], criteria).Normal?
    ensures FilterItems([v], criteria).value == if KeepsObject(v, criteria) then [v] else []
  {
    assert [v][1..] == [];
  }

  /** The result holds exactly the items that pass the test. */
  lemma {:induction false} FilterMembers(items: seq<Value>, criteria: Record, v: Value)
    requires FilterItems(items, criteria).Normal?
    ensures v in FilterItems(items, criteria).value <==> v in items && KeepsObject(v, criteria)
  {
    if items != [] {
      FilterMembers(items[1..], criteria, v);
      assert items == [items[0]] + items[1..];
    }
  }

  /** With no criteria the filter returns the list as it is. */
  lemma {:induction false} FilterNoCriteria(items: seq<Value>)
    ensures FilterItems(items, []) == Normal(items)
  {
    if items != [] {
      FilterNoCriteria(items[1..]);
      assert items == [items[0]] + items[1..];
    }
  }

  /** A property read in findByCriteria: `String(row[key])` throws on a
      null or undefined row and reads "undefined" for a missing key. */
  predicate RowMatches(row: Value, criteria: Record) {
    forall j :: 0 <= j < |criteria| ==>
      !Nullish(row) && ToText(Prop(row, criteria[j].0).value) == ToText(criteria[j].1)
  }

  /** The sheet row numbers of the matching rows among `data[1..n]`: the
      header is row 1, so `data[i]` is row `i + 1`. */
  function MatchingRows(data: seq<Value>, criteria: Record, n: nat): seq<int>
    requires n <= |data|
  {
    if n <= 1 then []
    else MatchingRows(data, criteria, n - 1) + if RowMatches(data[n - 1], criteria) then [n] else []
  }

  /** The row numbers lie after the header, name matching rows and
      increase strictly. */
  lemma {:induction false} MatchingRowsSound(data: seq<Value>, criteria: Record, n: nat)
    requires n <= |data|
    ensures forall k :: 0 <= k < |MatchingRows(data, criteria, n)| ==>
              2 <= MatchingRows(data, criteria, n)[k] <= n
    ensures forall k :: 0 <= k < |MatchingRows(data, criteria, n)| ==>
              RowMatches(data[MatchingRows(data, criteria, n)[k] - 1], criteria)
    ensures forall k, l :: 0 <= k < l < |MatchingRows(data, criteria, n)| ==>
              MatchingRows(data, criteria, n)[k] < MatchingRows(data, criteria, n)[l]
  {
    if n > 1 {
      MatchingRowsSound(data, criteria, n - 1);
    }
  }

  /** No matching row after the header is missed. */
  lemma {:induction false} MatchingRowsComplete(data: seq<Value>, criteria: Record, n: nat)
    requires n <= |data|
    ensures forall i :: 1 <= i < n && RowMatches(data[i], criteria) ==> i + 1 in MatchingRows(data, criteria, n)
  {
    if n > 1 {
      MatchingRowsComplete(data, criteria, n - 1);
      var before := MatchingRows(data, criteria, n - 1);
      assert forall x :: x in before ==> x in MatchingRows(data, criteria, n);
    }
  }

  /** `findByCriteria(data, criteria)`: the sheet row numbers of the rows
      after the header whose properties match the criteria as text. */
  method FindByCriteria(data: seq<Value>, criteria: Record) returns (r: Completion<seq<int>>)
    ensures r.Throw? <==> criteria != [] && exists i :: 1 <= i < |data| && Nullish(data[i])
    ensures r.Normal? ==> r.value == MatchingRows(data, criteria, |data|)
  {
    var rows: seq<int> := [];
    if |data| <= 1 {
      return Normal(rows);
    }
    for i := 1 to |data|
      invariant criteria != [] ==> forall m :: 1 <= m < i ==> !Nullish(data[m])
      invariant rows == MatchingRows(data, criteria, i)
    {
      var row := data[i];
      if criteria != [] && Nullish(row) {
        return Throw(TypeError);
      }
      var matches := Matches(row, criteria);
      if matches {
        rows := rows + [i + 1];
      }
    }
    r := Normal(rows);
  }

  /** The `every` over the criteria in findByCriteria, one criterion at a
      time. */
  method Matches(row: Value, criteria: Record) returns (b: bool)
    requires criteria != [] ==> !Nullish(row)
    ensures b <==> RowMatches(row, criteria)
  {
    var j := 0;
    while j < |criteria|
      invariant 0 <= j <= |criteria|
      invariant forall m :: 0 <= m < j ==> ToText(Prop(row, criteria[m].0).value) == ToText(criteria[m].1)
    {
      if ToText(Prop(row, criteria[j].0).value) != ToText(criteria[j].1) {
        return false;
      }
      j := j + 1;
    }
    return true;
  }

  /** findByCriteria reads a missing property as the text "undefined", so
      a row without the key matches a criterion whose value is undefined,
      where filterObjectsUsingCriteria, which asks hasOwnProperty first,
      drops it. */
  lemma MissingPropertyReadsUndefined(key: string)
    ensures RowMatches(Obj([]), [(key, Undef)])
    ensures RowMatches(Obj([]), [(key, Str("undefined"))])
    ensures !KeepsObject(Obj([]), [(key, Undef)])
  {
    var criterion: Record := [(key, Undef)];
    assert Get([], key) == Undef;
    assert ToText(Prop(Obj([]), criterion[0].0).value) == "undefined";
    assert !HasOwn(Obj([]), criterion[0].0);
  }

  /** `useGasDataFilter(user)`: the query a role may see. A role the switch
      does not list gets undefined. */
  function UseGasDataFilter(user: Value): (r: Completion<Value>)
    ensures r.Throw? <==> Nullish(user)
    ensures r.Normal? ==> r.value.Obj? || r.value.Undef?
  {
    match Prop(user, "role")
    case Throw(e) => Throw(e)
    case Normal(role) =>
      var id := Prop(user, "userId").value;
      if role == Str("SAdmin") then Normal(Obj([]))
      else if role == Str("user") then Normal(Obj([("userId", id), ("approved", Bool(true))]))
      else if role == Str("vendor") then Normal(Obj([("vendorId", id), ("approved", Bool(true))]))
      else Normal(Undef)
  }

  /** The super administrator's query is empty; a user's and a vendor's
      restrict to approved records owned by them; other roles get none. */
  lemma GasFilterByRole(user: Value)
    ensures UseGasDataFilter(user).Throw? <==> Nullish(user)
    ensures !Nullish(user) ==>
              var q := UseGasDataFilter(user).value;
              var role := Prop(user, "role").value;
              var id := Prop(user, "userId").value;
              (role == Str("SAdmin") <==> q == Obj([])) &&
              (role == Str("user") ==> q.Obj? && Get(q.fields, "userId") == id && Get(q.fields, "approved") == Bool(true)) &&
              (role == Str("vendor") ==> q.Obj? && Get(q.fields, "vendorId") == id && Get(q.fields, "approved") == Bool(true)) &&
              (q.Undef? <==> role !in {Str("SAdmin"), Str("user"), Str("vendor")})
  {
    if !Nullish(user) {
      var id := Prop(user, "userId").value;
      KeyIndexIs([("userId", id), ("approved", Bool(true))], "userId", 0);
      KeyIndexIs([("userId", id), ("approved", Bool(true))], "approved", 1);
      KeyIndexIs([("vendorId", id), ("approved", Bool(true))], "vendorId", 0);
      KeyIndexIs([("vendorId", id), ("approved", Bool(true))], "approved", 1);
    }
  }

  /** `useDataFilter(data, user)`: the super administrator sees the data
      (or an empty list for a falsy one); a user sees the items whose
      `userId` is theirs, a vendor those whose `vendorId` is; other roles
      get undefined. The filter's result is an array, so its `|| []` never
      applies. */
  function UseDataFilter(data: Value, user: Value): (r: Completion<Value>)
    ensures r.Throw? ==> r.error == TypeError
    ensures Nullish(user) ==> r.Throw?
    ensures r.Normal? && Prop(user, "role").value in {Str("user"), Str("vendor")} ==>
              data.Arr? && r.value.Arr? && forall x :: x in r.value.items ==> x in data.items && x.Obj?
  {
    match Prop(user, "role")
    case Throw(e) => Throw(e)
    case Normal(role) =>
      var id := Prop(user, "userId").value;
      if role == Str("SAdmin") then Normal(if Truthy(data) then data else Arr([]))
      else if role == Str("user") || role == Str("vendor") then
        var key := if role == Str("user") then "userId" else "vendorId";
        match FilterObjectsUsingCriteria(data, [(key, id)])
        case Throw(e) => Throw(e)
        case Normal(items) => KeptAreObjects(items, [(key, id)]); Normal(Arr(items))
      else Normal(Undef)
  }

  /** With at least one criterion, only objects pass the test. */
  lemma KeptAreObjects(items: seq<Value>, criteria: Record)
    requires criteria != [] && forall x :: x in items ==> KeepsObject(x, criteria)
    ensures forall x :: x in items ==> x.Obj?
  {
    forall x | x in items ensures x.Obj? {
      assert HasOwn(x, criteria[0].0);
    }
  }

  /** What a user or a vendor is shown: exactly the items of the data that
      carry their own id, compared as text, in the data's order. */
  lemma DataFilterScopes(data: Value, user: Value, v: Value)
    requires !Nullish(user)
    requires Prop(user, "role").value in {Str("user"), Str("vendor")}
    requires UseDataFilter(data, user).Normal?
    ensures data.Arr? && UseDataFilter(data, user).value.Arr?
    ensures var key := if Prop(user, "role").value == Str("user") then "userId" else "vendorId";
            v in UseDataFilter(data, user).value.items <==>
              v in data.items && v.Obj? && HasKey(v.fields, key) &&
              ToText(Get(v.fields, key)) == ToText(Prop(user, "userId").value)
  {
    var key := if Prop(user, "role").value == Str("user") then "userId" else "vendorId";
    var criteria: Record := [(key, Prop(user, "userId").value)];
    FilterMembers(data.items, criteria, v);
    assert KeepsObject(v, criteria) <==>
      (HasOwn(v, criteria[0].0) && ToText(Prop(v, criteria[0].0).value) == ToText(criteria[0].1));
  }

  /** The super administrator's view is the data itself whenever it is
      truthy, and an empty list otherwise. */
  lemma AdminSeesAll(data: Value, user: Value)
    requires !Nullish(user) && Prop(user, "role").value == Str("SAdmin")
    ensures UseDataFilter(data, user) == Normal(if Truthy(data) then data else Arr([]))
  {
  }
}

=== FILE: json.dfy ===
/** JSON.parse and JSON.stringify over the modelled values: a
    recursive-descent reader for objects, arrays, strings with escapes,
    integers, true, false and null, and the writer the codec applies to
    arrays and objects. Numbers with a fraction or an exponent are outside
    the integer model and read as a syntax error. */
module Json {
  import opened Opt
  import opened Text
  import opened JsNumber
  import opened JsValue

  predicate IsJsonSpace(c: char) {
    c == ' ' || c == '\t' || c == '\n' || c == '\r'
  }

  function SkipSpace(s: string): (r: string)
    ensures |r| <= |s|
    ensures r != [] ==> !IsJsonSpace(r[0])
    ensures s != [] && !IsJsonSpace(s[0]) ==> r == s
  {
    if s != [] && IsJsonSpace(s[0]) then SkipSpace(s[1..]) else s
  }

  /** Skipping white space drops a prefix. */
  lemma {:induction false} SkipSpaceSuffix(s: string)
    ensures SkipSpace(s) == s[|s| - |SkipSpace(s)|..]
  {
    if s != [] && IsJsonSpace(s[0]) {
      SkipSpaceSuffix(s[1..]);
    }
  }

  /** A value read from the front of a text, and the text after it. */
  datatype Parsed = Parsed(v: Value, rest: string)
  datatype ParsedItems = ParsedItems(items: seq<Value>, rest: string)
  datatype ParsedMembers = ParsedMembers(members: Record, rest: string)

  predicate IsHex(c: char) {
    IsDigit(c) || 'a' <= c <= 'f' || 'A' <= c <= 'F'
  }

  function HexValue(c: char): (d: nat)
    requires IsHex(c)
    ensures d < 16
  {
    if IsDigit(c) then c as int - '0' as int
    else if 'a' <= c <= 'f' then c as int - 'a' as int + 10
    else c as int - 'A' as int + 10
  }

  /** The character an escape sequence stands for (the text starts after
      the backslash) and how many characters the escape takes after the
      backslash. A `\u` escape naming a surrogate half is outside the model
      (characters here are scalar values) and reads as a syntax error. */
  function Unescape(s: string): (r: Option<(char, nat)>)
    ensures r.Some? ==> 1 <= r.value.1 <= |s|
  {
    if s == [] then None
    else if s[0] == '"' then Some(('"', 1))
    else if s[0] == '\\' then Some(('\\', 1))
    else if s[0] == '/' then Some(('/', 1))
    else if s[0] == 'b' then Some(('\U{8}', 1))
    else if s[0] == 'f' then Some(('\U{C}', 1))
    else if s[0] == 'n' then Some(('\n', 1))
    else if s[0] == 'r' then Some(('\r', 1))
    else if s[0] == 't' then Some(('\t', 1))
    else if s[0] == 'u' && |s| >= 5 && IsHex(s[1]) && IsHex(s[2]) && IsHex(s[3]) && IsHex(s[4]) then
      var code := ((HexValue(s[1]) * 16 + HexValue(s[2])) * 16 + HexValue(s[3])) * 16 + HexValue(s[4]);
      if 0xD800 <= code < 0xE000 then None else Some((code as char, 5))
    else None
  }

  /** The body of a string literal, after its opening quote: the characters
      up to the closing quote, with escapes resolved, and the text after
      the closing quote. Raw control characters are a syntax error. */
  function ParseStringBody(s: string): (r: Option<(string, string)>)
    ensures r.Some? ==> |r.value.0| + |r.value.1| < |s|
  {
    if s == [] then None
    else if s[0] == '"' then Some(([], s[1..]))
    else if s[0] == '\\' then
      match Unescape(s[1..])
      case None => None
      case Some((c, n)) =>
        match ParseStringBody(s[1 + n..])
        case None => None
        case Some((str, rest)) => Some(([c] + str, rest))
    else if s[0] < ' ' then None
    else
      match ParseStringBody(s[1..])
      case None => None
      case Some((str, rest)) => Some(([s[0]] + str, rest))
  }

  /** The number of leading decimal digits. */
  function DigitRun(s: string): (n: nat)
    ensures n <= |s| && AllDigits(s[..n])
    ensures n < |s| ==> !IsDigit(s[n])
  {
    if s == [] || !IsDigit(s[0]) then 0
    else
      var n := DigitRun(s[1..]);
      assert s[..n + 1] == [s[0]] + s[1..][..n];
      n + 1
  }

  /** An integer literal: an optional minus sign and digits with no leading
      zero. */
  function ParseNumber(s: string): (r: Option<Parsed>)
    ensures r.Some? ==> |r.value.rest| < |s| && r.value.v.Num?
  {
    var neg := s != [] && s[0] == '-';
    var body := if neg then s[1..] else s;
    var n := DigitRun(body);
    if n == 0 || (n > 1 && body[0] == '0') then None
    else
      var rest := body[n..];
      if rest != [] && (rest[0] == '.' || rest[0] == 'e' || rest[0] == 'E') then None
      else
        var magnitude: int := DigitsValue(body[..n]);
        Some(Parsed(Num(if neg then -magnitude else magnitude), rest))
  }

  /** One JSON value at the front of `s` (white space already skipped).
      Only a text that starts with `[` reads as an array and only one that
      starts with `{` as an object; every string in the result is shorter
      than the text it was read from. */
  function ParseValue(s: string): (r: Option<Parsed>)
    ensures r.Some? ==> |r.value.rest| < |s| && LeafBound(r.value.v) < |s|
    ensures r.Some? ==> (r.value.v.Arr? <==> s[0] == '[') && (r.value.v.Obj? <==> s[0] == '{')
    ensures r.Some? && s[0] == '"' ==> r.value.v.Str?
    decreases |s|, 0
  {
    if s == [] then None
    else if s[0] == '{' then ParseObject(SkipSpace(s[1..]))
    else if s[0] == '[' then ParseArray(SkipSpace(s[1..]))
    else if s[0] == '"' then
      match ParseStringBody(s[1..])
      case None => None
      case Some((str, rest)) => Some(Parsed(Str(str), rest))
    else if StartsWith(s, "true") then Some(Parsed(Bool(true), s[4..]))
    else if StartsWith(s, "false") then Some(Parsed(Bool(false), s[5..]))
    else if StartsWith(s, "null") then Some(Parsed(Null, s[4..]))
    else if s[0] == '-' || IsDigit(s[0]) then ParseNumber(s)
    else None
  }

  /** The elements of a non-empty array and its closing bracket. */
  function ParseElements(s: string): (r: Option<ParsedItems>)
    ensures r.Some? ==> |r.value.rest| < |s|
    ensures r.Some? ==> forall i :: 0 <= i < |r.value.items| ==> LeafBound(r.value.items[i]) < |s|
    decreases |s|, 1
  {
    match ParseValue(s)
    case None => None
    case Some(Parsed(v, rest)) =>
      var t := SkipSpace(rest);
      if t == [] then None
      else if t[0] == ']' then Some(ParsedItems([v], t[1..]))
      else if t[0] == ',' then
        match ParseElements(SkipSpace(t[1..]))
        case None => None
        case Some(ParsedItems(more, rest')) => Some(ParsedItems([v] + more, rest'))
      else None
  }

  /** An array after its opening bracket and white space. */
  function ParseArray(s: string): (r: Option<Parsed>)
    ensures r.Some? ==> |r.value.rest| < |s| && LeafBound(r.value.v) < |s| && r.value.v.Arr?
    decreases |s|, 2
  {
    if s != [] && s[0] == ']' then Some(Parsed(Arr([]), s[1..]))
    else
      match ParseElements(s)
      case None => None
      case Some(ParsedItems(items, rest)) =>
        ArrBelow(items, |s|);
        Some(Parsed(Arr(items), rest))
  }

  /** One `"key": value` member at the front of `s`. */
  function ParseMember(s: string): (r: Option<(string, Parsed)>)
    ensures r.Some? ==> |r.value.1.rest| < |s| && LeafBound(r.value.1.v) < |s|
    decreases |s|, 1
  {
    if s == [] || s[0] != '"' then None
    else
      match ParseStringBody(s[1..])
      case None => None
      case Some((key, afterKey)) =>
        var t := SkipSpace(afterKey);
        if t == [] || t[0] != ':' then None
        else
          match ParseValue(SkipSpace(t[1..]))
          case None => None
          case Some(p) => Some((key, p))
  }

  lemma ConsBelow(m: (string, Value), more: Record, bound: nat)
    requires LeafBound(m.1) < bound && ValuesBelow(more, bound)
    ensures ValuesBelow([m] + more, bound)
  {
  }

  /** The members of a non-empty object and its closing brace, in the order
      written (duplicates included). */
  function ParseMembers(s: string): (r: Option<ParsedMembers>)
    ensures r.Some? ==> |r.value.rest| < |s| && ValuesBelow(r.value.members, |s|)
    decreases |s|, 2
  {
    match ParseMember(s)
    case None => None
    case Some((key, Parsed(v, rest))) =>
      var u := SkipSpace(rest);
      if u == [] then None
      else if u[0] == '}' then Some(ParsedMembers([(key, v)], u[1..]))
      else if u[0] == ',' then
        match ParseMembers(SkipSpace(u[1..]))
        case None => None
        case Some(ParsedMembers(more, rest')) =>
          ConsBelow((key, v), more, |s|);
          Some(ParsedMembers([(key, v)] + more, rest'))
      else None
  }

  /** An object after its opening brace and white space. A repeated key
      keeps its first position and takes its last value, as assignment does. */
  function ParseObject(s: string): (r: Option<Parsed>)
    ensures r.Some? ==> |r.value.rest| < |s| && LeafBound(r.value.v) < |s| && r.value.v.Obj?
    decreases |s|, 3
  {
    if s != [] && s[0] == '}' then Some(Parsed(Obj([]), s[1..]))
    else
      match ParseMembers(s)
      case None => None
      case Some(ParsedMembers(members, rest)) =>
        PutAllBelow([], members, |s|);
        ObjBelow(PutAll([], members), |s|);
        Some(Parsed(Obj(PutAll([], members)), rest))
  }

  /** `JSON.parse(text)`, with `None` for the SyntaxError it throws. */
  function Parse(text: string): (r: Option<Value>)
    ensures r.Some? ==> LeafBound(r.value) < |text|
  {
    var s := SkipSpace(text);
    match ParseValue(s)
    case None => None
    case Some(Parsed(v, rest)) => if SkipSpace(rest) == [] then Some(v) else None
  }

  /** Only a text whose first non-blank character is `[` or `{` parses to an
      array or an object. */
  lemma ParseContainer(text: string)
    requires Parse(text).Some?
    ensures var s := SkipSpace(text);
            (Parse(text).value.Arr? <==> s[0] == '[') && (Parse(text).value.Obj? <==> s[0] == '{')
  {
  }

  function HexDigit(d: nat): char
    requires d < 16
  {
    "0123456789abcdef"[d]
  }

  /** How JSON.stringify writes one character inside a string literal. */
  function EscapeChar(c: char): string
  {
    if c == '"' then "\\\""
    else if c == '\\' then "\\\\"
    else if c == '\U{8}' then "\\b"
    else if c == '\U{C}' then "\\f"
    else if c == '\n' then "\\n"
    else if c == '\r' then "\\r"
    else if c == '\t' then "\\t"
    else if c < ' ' then "\\u00" + [HexDigit(c as int / 16), HexDigit(c as int % 16)]
    else [c]
  }

  function EscapeString(s: string): string
  {
    if s == [] then [] else EscapeChar(s[0]) + EscapeString(s[1..])
  }

  function Quote(s: string): string
  {
    "\"" + EscapeString(s) + "\""
  }

  /** `JSON.stringify(v)` for the values the codec hands it. Undefined is
      written as `null`, which is how it appears inside an array; undefined
      object members are left out. */
  function Stringify(v: Value): (r: string)
    ensures r != [] && !IsJsonSpace(r[0])
    decreases v, 1
  {
    match v
    case Str(s) => Quote(s)
    case Num(n) => IntToString(n)
    case Bool(b) => if b then "true" else "false"
    case Null => "null"
    case Undef => "null"
    case Arr(items) => "[" + ElementsText(v, 0) + "]"
    case Obj(fields) => "{" + MembersText(v, 0) + "}"
  }

  /** The elements of an array from position `k` on, separated by commas. */
  function ElementsText(v: Value, k: nat): string
    requires v.Arr?
    decreases v, 0, |v.items| - k
  {
    if k >= |v.items| then ""
    else if k + 1 == |v.items| then Stringify(v.items[k])
    else Stringify(v.items[k]) + "," + ElementsText(v, k + 1)
  }

  /** The members of an object from position `k` on whose value is not
      undefined, as `"key":value`, separated by commas. */
  function MembersText(v: Value, k: nat): string
    requires v.Obj?
    decreases v, 0, |v.fields| - k
  {
    if k >= |v.fields| then ""
    else if v.fields[k].1.Undef? then MembersText(v, k + 1)
    else
      var member := Quote(v.fields[k].0) + ":" + Stringify(v.fields[k].1);
      var more := MembersText(v, k + 1);
      if more == "" then member else member + "," + more
  }
}

=== FILE: json_laws.dfy ===
/** What JSON.parse makes of the text JSON.stringify writes: every value
    without undefined and with distinct keys in each object reads back as
    itself. */
module JsonLaws {
  import opened Opt
  import opened Text
  import opened JsNumber
  import opened JsValue
  import opened Json

  /** Values JSON.stringify writes faithfully: no undefined anywhere (an
      undefined element is written as null and an undefined member is left
      out) and no object with a repeated key. */
  predicate Writable(v: Value)
    decreases v
  {
    match v
    case Undef => false
    case Arr(items) => forall i :: 0 <= i < |items| ==> Writable(items[i])
    case Obj(fields) => UniqueKeys(fields) && forall i :: 0 <= i < |fields| ==> Writable(fields[i].1)
    case _ => true
  }

  /** Text that can follow a value inside JSON text without changing how
      the value is read. */
  predicate Stops(rest: string) {
    rest == [] || rest[0] == ',' || rest[0] == ']' || rest[0] == '}'
  }

  lemma HexDigitValue(d: nat)
    requires d < 16
    ensures IsHex(HexDigit(d)) && HexValue(HexDigit(d)) == d
  {
  }

  /** A written character reads back as itself, whatever follows it. */
  lemma ParseEscapedChar(c: char, t: string)
    ensures ParseStringBody(EscapeChar(c) + t) ==
            match ParseStringBody(t)
            case None => None
            case Some((str, rest)) => Some(([c] + str, rest))
  {
    if c == '"' || c == '\\' || c == '\U{8}' || c == '\U{C}' || c == '\n' || c == '\r' || c == '\t' {
      ParseNamedEscape(c, t);
    } else if c < ' ' {
      ParseHexEscape(c, t);
    } else {
      assert EscapeChar(c) == [c];
      assert ([c] + t)[1..] == t;
    }
  }

  lemma ParseNamedEscape(c: char, t: string)
    requires c == '"' || c == '\\' || c == '\U{8}' || c == '\U{C}' || c == '\n' || c == '\r' || c == '\t'
    ensures ParseStringBody(EscapeChar(c) + t) ==
            match ParseStringBody(t)
            case None => None
            case Some((str, rest)) => Some(([c] + str, rest))
  {
    var e := EscapeChar(c);
    var s := e + t;
    assert |e| == 2 && s[0] == '\\';
    assert Unescape(s[1..]) == Some((c, 1));
    assert s[2..] == t;
  }

  lemma ParseHexEscape(c: char, t: string)
    requires c < ' ' && c != '\U{8}' && c != '\U{C}' && c != '\n' && c != '\r' && c != '\t'
    ensures ParseStringBody(EscapeChar(c) + t) ==
            match ParseStringBody(t)
            case None => None
            case Some((str, rest)) => Some(([c] + str, rest))
  {
    var hi := c as int / 16;
    var lo := c as int % 16;
    HexDigitValue(hi);
    HexDigitValue(lo);
    var u := "u00" + [HexDigit(hi), HexDigit(lo)] + t;
    HexEscapeText(HexDigit(hi), HexDigit(lo), t);
    assert EscapeChar(c) + t == "\\" + u;
    assert (EscapeChar(c) + t)[1..] == u;
    assert Unescape(u) == Some((c, 5));
    assert u[5..] == t;
  }

  lemma HexEscapeText(h: char, l: char, t: string)
    ensures "\\u00" + [h, l] + t == "\\" + ("u00" + [h, l] + t)
  {
  }

  /** The body of a written string literal reads back as the string, and
      the text after the closing quote is left over. */
  lemma {:induction false} ParseQuoted(str: string, rest: string)
    ensures ParseStringBody(EscapeString(str) + "\"" + rest) == Some((str, rest))
  {
    if str == [] {
      assert EscapeString(str) + "\"" + rest == "\"" + rest;
    } else {
      var t := EscapeString(str[1..]) + "\"" + rest;
      assert EscapeString(str) + "\"" + rest == EscapeChar(str[0]) + t;
      ParseQuoted(str[1..], rest);
      ParseEscapedChar(str[0], t);
      assert [str[0]] + str[1..] == str;
    }
  }

  /** A run of digits followed by a non-digit is exactly the run. */
  lemma {:induction false} DigitRunOf(digits: string, rest: string)
    requires AllDigits(digits)
    requires rest == [] || !IsDigit(rest[0])
    ensures DigitRun(digits + rest) == |digits|
  {
    if digits != [] {
      assert (digits + rest)[1..] == digits[1..] + rest;
      DigitRunOf(digits[1..], rest);
    }
  }

  /** String(n) reads back as n. */
  lemma ParseWrittenNumber(n: int, rest: string)
    requires Stops(rest)
    ensures ParseNumber(IntToString(n) + rest) == Some(Parsed(Num(n), rest))
  {
    if n < 0 {
      ParseWrittenNegative(n, rest);
    } else {
      ParseWrittenNatural(n, rest);
    }
  }

  lemma ParseWrittenNatural(n: nat, rest: string)
    requires Stops(rest)
    ensures ParseNumber(IntToString(n) + rest) == Some(Parsed(Num(n), rest))
  {
    DigitsOfNat(n);
    ParseDigits(NatToString(n), rest);
  }

  lemma ParseWrittenNegative(n: int, rest: string)
    requires n < 0 && Stops(rest)
    ensures ParseNumber(IntToString(n) + rest) == Some(Parsed(Num(n), rest))
  {
    var m: nat := -n;
    var digits := NatToString(m);
    DigitsOfNat(m);
    ParseDigits(digits, rest);
    ParseNegated(digits + rest, m, rest);
    NegativeText(n, rest);
  }

  lemma NegativeText(n: int, rest: string)
    requires n < 0
    ensures IntToString(n) + rest == "-" + (NatToString(-n) + rest)
  {
    assert IntToString(n) == "-" + NatToString(-n);
  }

  /** Digits without a leading zero read back as their value. */
  lemma ParseDigits(digits: string, rest: string)
    requires digits != [] && AllDigits(digits) && (digits[0] == '0' ==> |digits| == 1)
    requires Stops(rest)
    ensures ParseNumber(digits + rest) == Some(Parsed(Num(DigitsValue(digits)), rest))
  {
    var body := digits + rest;
    DigitRunOf(digits, rest);
    assert body[..|digits|] == digits;
    assert body[|digits|..] == rest;
  }

  /** A minus sign in front of digits negates the number they read as. */
  lemma ParseNegated(body: string, m: int, rest: string)
    requires body != [] && IsDigit(body[0])
    requires ParseNumber(body) == Some(Parsed(Num(m), rest))
    ensures ParseNumber("-" + body) == Some(Parsed(Num(-m), rest))
  {
    assert ("-" + body)[1..] == body;
  }

  /** JSON.parse(JSON.stringify(v)) is v for every value with no undefined
      in it and no key repeated. */
  lemma ParseStringify(v: Value)
    requires Writable(v)
    ensures Parse(Stringify(v)) == Some(v)
  {
    var text := Stringify(v);
    assert text + [] == text;
    ParseValueStringify(v, []);
    assert SkipSpace(text) == text;
  }

  /** An undefined member is left out of the written object wherever it
      stands, so it does not read back: the round trip needs the absence of
      undefined. */
  lemma UndefinedMemberDropped(a: Record, k: string, b: Record)
    ensures Stringify(Obj(a + [(k, Undef)] + b)) == Stringify(Obj(a + b))
    ensures Writable(Obj(a + b)) ==> Parse(Stringify(Obj(a + [(k, Undef)] + b))) == Some(Obj(a + b))
  {
    var v := Obj(a + [(k, Undef)] + b);
    var w := Obj(a + b);
    assert forall j :: 0 <= j < |a| ==> v.fields[j] == w.fields[j];
    assert forall j :: |a| < j < |v.fields| ==> v.fields[j] == w.fields[j - 1];
    SkipUndefinedMember(v, w, |a|, 0);
    if Writable(w) {
      ParseStringify(w);
    }
  }

  /** The members written from position `i` on, for an object `v` that is
      `w` with an undefined member inserted at position `p`. */
  lemma {:induction false} SkipUndefinedMember(v: Value, w: Value, p: nat, i: nat)
    requires v.Obj? && w.Obj? && p < |v.fields| == |w.fields| + 1 && v.fields[p].1.Undef?
    requires forall j :: 0 <= j < p ==> v.fields[j] == w.fields[j]
    requires forall j :: p < j < |v.fields| ==> v.fields[j] == w.fields[j - 1]
    requires i <= |v.fields|
    ensures MembersText(v, i) == MembersText(w, if i > p then i - 1 else i)
    decreases |v.fields| - i
  {
    if i == |v.fields| {
      MembersTextEnd(v, i);
      MembersTextEnd(w, i - 1);
    } else {
      SkipUndefinedMember(v, w, p, i + 1);
      if i == p {
        MembersTextUndefined(v, i);
      } else if i > p {
        MembersTextSame(v, i, w, i - 1);
      } else {
        MembersTextSame(v, i, w, i);
      }
    }
  }

  lemma MembersTextEnd(v: Value, i: nat)
    requires v.Obj? && i >= |v.fields|
    ensures MembersText(v, i) == ""
  {
  }

  lemma MembersTextUndefined(v: Value, i: nat)
    requires v.Obj? && i < |v.fields| && v.fields[i].1.Undef?
    ensures MembersText(v, i) == MembersText(v, i + 1)
  {
  }

  /** Two objects whose members agree at `i` and `j` and whose texts agree
      after them write the same text from there. */
  lemma MembersTextSame(v: Value, i: nat, w: Value, j: nat)
    requires v.Obj? && w.Obj? && i < |v.fields| && j < |w.fields|
    requires v.fields[i] == w.fields[j] && MembersText(v, i + 1) == MembersText(w, j + 1)
    ensures MembersText(v, i) == MembersText(w, j)
  {
  }

  /** Every written value reads back as itself, leaving what follows it. */
  lemma {:induction false} ParseValueStringify(v: Value, rest: string)
    requires Writable(v) && Stops(rest)
    ensures ParseValue(Stringify(v) + rest) == Some(Parsed(v, rest))
    decreases v, 3
  {
    match v
    case Str(str) => ParseWrittenString(str, rest);
    case Num(n) => ParseWrittenNum(n, rest);
    case Bool(b) => ParseWrittenWord(v, rest);
    case Null => ParseWrittenWord(v, rest);
    case Arr(items) => ParseWrittenArray(v, rest);
    case Obj(fields) => ParseWrittenObject(v, rest);
  }

  lemma ParseWrittenString(str: string, rest: string)
    ensures ParseValue(Stringify(Str(str)) + rest) == Some(Parsed(Str(str), rest))
  {
    var s := Stringify(Str(str)) + rest;
    assert s == "\"" + (EscapeString(str) + "\"" + rest);
    assert s[1..] == EscapeString(str) + "\"" + rest;
    ParseQuoted(str, rest);
  }

  lemma ParseWrittenNum(n: int, rest: string)
    requires Stops(rest)
    ensures ParseValue(Stringify(Num(n)) + rest) == Some(Parsed(Num(n), rest))
  {
    var s := Stringify(Num(n)) + rest;
    assert s[0] == '-' || IsDigit(s[0]);
    NotAWord(s);
    ParseWrittenNumber(n, rest);
  }

  /** Text whose first character is not that of a JSON word starts with
      none of them. */
  lemma NotAWord(s: string)
    requires s != [] && s[0] != 't' && s[0] != 'f' && s[0] != 'n'
    ensures !StartsWith(s, "true") && !StartsWith(s, "false") && !StartsWith(s, "null")
  {
    if |s| >= 4 {
      assert s[..4][0] == s[0];
    }
    if |s| >= 5 {
      assert s[..5][0] == s[0];
    }
  }

  /** `true`, `false` and `null` read back as themselves. */
  lemma ParseWrittenWord(v: Value, rest: string)
    requires v.Bool? || v.Null?
    ensures ParseValue(Stringify(v) + rest) == Some(Parsed(v, rest))
  {
    var s := Stringify(v) + rest;
    if v == Bool(true) {
      assert s[..4] == "true" && s[4..] == rest;
    } else if v == Bool(false) {
      assert s[0] == 'f' && !StartsWith(s, "true");
      assert s[..5] == "false" && s[5..] == rest;
    } else {
      assert s[0] == 'n';
      assert !StartsWith(s, "true") && !StartsWith(s, "false");
      assert s[..4] == "null" && s[4..] == rest;
    }
  }

  lemma ParseWrittenArray(v: Value, rest: string)
    requires v.Arr? && Writable(v) && Stops(rest)
    ensures ParseValue(Stringify(v) + rest) == Some(Parsed(v, rest))
    decreases v, 2
  {
    var items := v.items;
    var ws := seq(|items|, i requires 0 <= i < |items| => Stringify(items[i]));
    var inner := ElementsText(v, 0) + "]" + rest;
    assert Stringify(v) + rest == "[" + inner;
    if items == [] {
      assert inner == "]" + rest;
    } else {
      ElementsTextJoin(v, 0, ws);
      assert ws[0..] == ws;
      ElementsReadBack(v, ws);
      ParseJoinedElements(ws, items, rest);
      ArrayOfElements(inner, items, rest);
    }
  }

  lemma ParseWrittenObject(v: Value, rest: string)
    requires v.Obj? && Writable(v) && Stops(rest)
    ensures ParseValue(Stringify(v) + rest) == Some(Parsed(v, rest))
    decreases v, 2
  {
    var fields := v.fields;
    var ms := seq(|fields|, i requires 0 <= i < |fields| => Quote(fields[i].0) + ":" + Stringify(fields[i].1));
    var inner := MembersText(v, 0) + "}" + rest;
    Nest4("{", MembersText(v, 0), "}", rest);
    Nest3(MembersText(v, 0), "}", rest);
    if fields == [] {
      assert inner == "}" + rest;
    } else {
      MembersTextJoin(v, 0, ms);
      assert ms[0..] == ms;
      MembersReadBack(v, ms);
      ParseJoinedMembers(ms, fields, rest);
      ObjectOfMembers(inner, fields, rest);
      AssignDistinct(fields);
    }
  }

  /** Each element's text reads back as the element. */
  lemma ElementsReadBack(v: Value, ws: seq<string>)
    requires v.Arr? && Writable(v) && |ws| == |v.items|
    requires forall i :: 0 <= i < |ws| ==> ws[i] == Stringify(v.items[i])
    ensures forall i, after :: 0 <= i < |ws| && Stops(after) ==>
              ParseValue(ws[i] + after) == Some(Parsed(v.items[i], after))
    decreases v, 1
  {
    forall i, after | 0 <= i < |ws| && Stops(after)
      ensures ParseValue(ws[i] + after) == Some(Parsed(v.items[i], after))
    {
      ParseValueStringify(v.items[i], after);
    }
  }

  /** Each member's text reads back as the member. */
  lemma MembersReadBack(v: Value, ms: seq<string>)
    requires v.Obj? && Writable(v) && |ms| == |v.fields|
    requires forall i :: 0 <= i < |ms| ==> ms[i] == Quote(v.fields[i].0) + ":" + Stringify(v.fields[i].1)
    ensures forall i, after :: 0 <= i < |ms| && Stops(after) ==>
              ParseMember(ms[i] + after) == Some((v.fields[i].0, Parsed(v.fields[i].1, after)))
    decreases v, 1
  {
    forall i, after | 0 <= i < |ms| && Stops(after)
      ensures ParseMember(ms[i] + after) == Some((v.fields[i].0, Parsed(v.fields[i].1, after)))
    {
      ParseMemberStringify(v.fields[i], after);
    }
  }

  /** `[` followed by elements that read back. */
  lemma ArrayOfElements(inner: string, items: seq<Value>, rest: string)
    requires ParseElements(inner) == Some(ParsedItems(items, rest))
    ensures ParseValue("[" + inner) == Some(Parsed(Arr(items), rest))
  {
    ElementsStart(inner);
    assert ("[" + inner)[1..] == inner;
  }

  /** Elements that read start with neither white space nor `]`. */
  lemma ElementsStart(s: string)
    requires ParseElements(s).Some?
    ensures s != [] && !IsJsonSpace(s[0]) && s[0] != ']' && SkipSpace(s) == s
  {
    assert ParseValue(s).Some?;
    ValueStart(s);
  }

  /** A value that reads starts with one of the characters that open a
      JSON value. */
  lemma ValueStart(s: string)
    requires ParseValue(s).Some?
    ensures s != [] && !IsJsonSpace(s[0]) && s[0] != ']'
  {
    if s[0] != '{' && s[0] != '[' && s[0] != '"' && s[0] != '-' && !IsDigit(s[0]) {
      if s[0] != 't' && s[0] != 'f' && s[0] != 'n' {
        NotAWord(s);
      }
    }
  }

  /** Members that read start with a double quote. */
  lemma MembersStart(s: string)
    requires ParseMembers(s).Some?
    ensures s != [] && s[0] == '"' && SkipSpace(s) == s
  {
  }

  /** `{` followed by members that read back. */
  lemma ObjectOfMembers(inner: string, fields: Record, rest: string)
    requires ParseMembers(inner) == Some(ParsedMembers(fields, rest))
    ensures ParseValue("{" + inner) == Some(Parsed(Obj(PutAll([], fields)), rest))
  {
    MembersStart(inner);
    assert ("{" + inner)[1..] == inner;
  }

  /** Distinct keys assigned in order build the record they came from. */
  lemma AssignDistinct(fields: Record)
    requires UniqueKeys(fields)
    ensures PutAll([], fields) == fields
  {
    assert [] + fields == fields;
    PutAllFresh([], fields);
  }

  /** The elements from position `k` on are their texts joined by commas. */
  lemma {:induction false} ElementsTextJoin(v: Value, k: nat, ws: seq<string>)
    requires v.Arr? && |ws| == |v.items| && k <= |ws|
    requires forall i :: 0 <= i < |ws| ==> ws[i] == Stringify(v.items[i])
    ensures ElementsText(v, k) == Join(ws[k..], ',')
    decreases |ws| - k
  {
    if k + 1 < |ws| {
      ElementsTextJoin(v, k + 1, ws);
      assert ws[k..][1..] == ws[k + 1..];
    } else if k + 1 == |ws| {
      assert ws[k..] == [ws[k]];
    }
  }

  /** The members from position `k` on, none undefined, are their texts
      joined by commas. */
  lemma {:induction false} MembersTextJoin(v: Value, k: nat, ms: seq<string>)
    requires v.Obj? && |ms| == |v.fields| && k <= |ms|
    requires forall i :: 0 <= i < |ms| ==> !v.fields[i].1.Undef?
    requires forall i :: 0 <= i < |ms| ==> ms[i] == Quote(v.fields[i].0) + ":" + Stringify(v.fields[i].1)
    ensures MembersText(v, k) == Join(ms[k..], ',')
    decreases |ms| - k
  {
    if k + 1 < |ms| {
      MembersTextJoin(v, k + 1, ms);
      assert ms[k..][1..] == ms[k + 1..];
      JoinStartsWithFirst(ms[k + 1..], ',');
      assert MembersText(v, k + 1) != "";
    } else if k + 1 == |ms| {
      assert ms[k..] == [ms[k]];
      assert MembersText(v, k + 1) == "";
    }
  }

  /** Texts that each read back as a value, joined by commas and closed by
      `]`, read back as the list of those values. */
  lemma {:induction false} ParseJoinedElements(ws: seq<string>, items: seq<Value>, rest: string)
    requires |ws| == |items| >= 1
    requires forall i, after :: 0 <= i < |ws| && Stops(after) ==>
               ParseValue(ws[i] + after) == Some(Parsed(items[i], after))
    ensures ParseElements(Join(ws, ',') + "]" + rest) == Some(ParsedItems(items, rest))
  {
    var s := Join(ws, ',') + "]" + rest;
    if |ws| == 1 {
      assert s == ws[0] + ("]" + rest);
      assert Stops("]" + rest);
      assert ParseValue(ws[0] + ("]" + rest)) == Some(Parsed(items[0], "]" + rest));
      ElementsLast(s, items[0], rest);
      assert [items[0]] == items;
    } else {
      var more := Join(ws[1..], ',') + "]" + rest;
      assert s == ws[0] + ("," + more);
      assert Stops("," + more);
      assert ParseValue(ws[0] + ("," + more)) == Some(Parsed(items[0], "," + more));
      ParseJoinedElements(ws[1..], items[1..], rest);
      ElementsStart(more);
      ElementsStep(s, items[0], more, items[1..], rest);
      assert [items[0]] + items[1..] == items;
    }
  }

  /** Texts that each read back as a member, joined by commas and closed by
      `}`, read back as the list of those members. */
  lemma {:induction false} ParseJoinedMembers(ms: seq<string>, fields: Record, rest: string)
    requires |ms| == |fields| >= 1
    requires forall i, after :: 0 <= i < |ms| && Stops(after) ==>
               ParseMember(ms[i] + after) == Some((fields[i].0, Parsed(fields[i].1, after)))
    ensures ParseMembers(Join(ms, ',') + "}" + rest) == Some(ParsedMembers(fields, rest))
  {
    var s := Join(ms, ',') + "}" + rest;
    if |ms| == 1 {
      JoinedMembersOne(ms, fields, rest);
    } else {
      var more := Join(ms[1..], ',') + "}" + rest;
      assert s == ms[0] + ("," + more);
      assert Stops("," + more);
      assert ParseMember(ms[0] + ("," + more)) == Some((fields[0].0, Parsed(fields[0].1, "," + more)));
      ParseJoinedMembers(ms[1..], fields[1..], rest);
      MembersStart(more);
      MembersStep(s, fields[0].0, fields[0].1, more, fields[1..], rest);
      assert [(fields[0].0, fields[0].1)] + fields[1..] == fields;
    }
  }

  lemma JoinedMembersOne(ms: seq<string>, fields: Record, rest: string)
    requires |ms| == |fields| == 1
    requires forall after :: Stops(after) ==>
               ParseMember(ms[0] + after) == Some((fields[0].0, Parsed(fields[0].1, after)))
    ensures ParseMembers(Join(ms, ',') + "}" + rest) == Some(ParsedMembers(fields, rest))
  {
    var s := Join(ms, ',') + "}" + rest;
    assert s == ms[0] + ("}" + rest);
    assert Stops("}" + rest);
    MembersLast(s, fields[0].0, fields[0].1, rest);
    assert [(fields[0].0, fields[0].1)] == fields;
  }

  /** How ParseElements goes on after an element followed by a comma. */
  lemma ElementsStep(s: string, x: Value, more: string, items: seq<Value>, rest: string)
    requires ParseValue(s) == Some(Parsed(x, "," + more)) && SkipSpace(more) == more
    requires ParseElements(more) == Some(ParsedItems(items, rest))
    ensures ParseElements(s) == Some(ParsedItems([x] + items, rest))
  {
    assert ("," + more)[1..] == more;
  }

  /** How ParseElements ends after an element followed by `]`. */
  lemma ElementsLast(s: string, x: Value, rest: string)
    requires ParseValue(s) == Some(Parsed(x, "]" + rest))
    ensures ParseElements(s) == Some(ParsedItems([x], rest))
  {
    assert ("]" + rest)[1..] == rest;
  }

  /** How ParseMembers goes on after a member followed by a comma. */
  lemma MembersStep(s: string, key: string, x: Value, more: string, members: Record, rest: string)
    requires ParseMember(s) == Some((key, Parsed(x, "," + more))) && SkipSpace(more) == more
    requires ParseMembers(more) == Some(ParsedMembers(members, rest))
    ensures ParseMembers(s) == Some(ParsedMembers([(key, x)] + members, rest))
  {
    assert ("," + more)[1..] == more;
  }

  /** How ParseMembers ends after a member followed by `}`. */
  lemma MembersLast(s: string, key: string, x: Value, rest: string)
    requires ParseMember(s) == Some((key, Parsed(x, "}" + rest)))
    ensures ParseMembers(s) == Some(ParsedMembers([(key, x)], rest))
  {
    assert ("}" + rest)[1..] == rest;
  }

  /** One written member reads back as its key and value. */
  lemma ParseMemberStringify(field: (string, Value), after: string)
    requires Writable(field.1) && Stops(after)
    ensures ParseMember(Quote(field.0) + ":" + Stringify(field.1) + after) == Some((field.0, Parsed(field.1, after)))
    decreases field.1, 4
  {
    ParseValueStringify(field.1, after);
    MemberOf(field.0, Stringify(field.1), after, field.1);
  }

  /** A quoted key, a colon and a text that reads as `v` read as the member. */
  lemma MemberOf(key: string, text: string, after: string, v: Value)
    requires text != [] && !IsJsonSpace(text[0])
    requires ParseValue(text + after) == Some(Parsed(v, after))
    ensures ParseMember(Quote(key) + ":" + text + after) == Some((key, Parsed(v, after)))
  {
    var s := Quote(key) + ":" + text + after;
    var value := text + after;
    var q := EscapeString(key) + "\"" + (":" + value);
    MemberText(EscapeString(key), text, after);
    assert s == "\"" + q;
    assert s[1..] == q;
    ParseQuoted(key, ":" + value);
    assert value[0] == text[0];
    MemberStep(s, key, value, Parsed(v, after));
  }

  /** The written member regrouped after its opening quote. */
  lemma MemberText(e: string, text: string, after: string)
    ensures "\"" + e + "\"" + ":" + text + after == "\"" + (e + "\"" + (":" + (text + after)))
  {
  }

  /** How ParseMember reads a key, a colon right after it and a value right
      after that. */
  lemma MemberStep(s: string, key: string, value: string, p: Parsed)
    requires s != [] && s[0] == '"' && ParseStringBody(s[1..]) == Some((key, ":" + value))
    requires value != [] && !IsJsonSpace(value[0]) && ParseValue(value) == Some(p)
    ensures ParseMember(s) == Some((key, p))
  {
    assert SkipSpace(":" + value) == ":" + value;
    assert (":" + value)[1..] == value;
    assert SkipSpace(value) == value;
  }
}

=== FILE: keyed_data.dfy ===
/** The two keyed helpers: `parseDataByKey` finds the first item whose `key`
    property matches and reads its `value` (JSON-parsing a bracketed text),
    and `getParsedServiceData` copies an object, decoding the blocks held
    under the keys that start with a prefix. */
module KeyedData {
  import opened Opt
  import opened Text
  import opened JsValue
  import Json
  import opened BlockCodec

  /** `item.key === key`. */
  predicate KeyMatches(item: Value, key: string) {
    Prop(item, "key") == Normal(Str(key))
  }

  /** `data.find((item) => item.key === key)` on an array: the first item
      whose `key` is the text `key`, or nothing; reading `key` off a null or
      undefined item before a match throws. */
  function FindByKey(items: seq<Value>, key: string): (r: Completion<Option<Value>>)
    ensures r.Throw? ==> r.error == TypeError
    ensures r.Normal? && r.value.Some? ==> r.value.value in items && KeyMatches(r.value.value, key)
    ensures r == Normal(None) ==> forall x :: x in items ==> !KeyMatches(x, key)
  {
    if items == [] then Normal(None)
    else if items[0].Null? || items[0].Undef? then Throw(TypeError)
    else if KeyMatches(items[0], key) then Normal(Some(items[0]))
    else FindByKey(items[1..], key)
  }

  /** Items that are neither null nor undefined and do not match. */
  predicate Passed(items: seq<Value>, key: string, n: nat)
    requires n <= |items|
  {
    forall j :: 0 <= j < n ==> !items[j].Null? && !items[j].Undef? && !KeyMatches(items[j], key)
  }

  /** find returns the first matching item when every item before it can
      be read and does not match. */
  lemma {:induction false} FindByKeyFirst(items: seq<Value>, key: string, i: nat)
    requires i < |items| && Passed(items, key, i) && KeyMatches(items[i], key)
    ensures FindByKey(items, key) == Normal(Some(items[i]))
  {
    if i > 0 {
      assert Passed(items[1..], key, i - 1) by {
        forall j | 0 <= j < i - 1 ensures !items[1..][j].Null? && !items[1..][j].Undef? && !KeyMatches(items[1..][j], key) {
          assert items[1..][j] == items[j + 1];
        }
      }
      FindByKeyFirst(items[1..], key, i - 1);
    }
  }

  /** find throws at the first null or undefined item it reaches. */
  lemma {:induction false} FindByKeyThrows(items: seq<Value>, key: string, i: nat)
    requires i < |items| && Passed(items, key, i) && (items[i].Null? || items[i].Undef?)
    ensures FindByKey(items, key).Throw?
  {
    if i > 0 {
      assert Passed(items[1..], key, i - 1) by {
        forall j | 0 <= j < i - 1 ensures !items[1..][j].Null? && !items[1..][j].Undef? && !KeyMatches(items[1..][j], key) {
          assert items[1..][j] == items[j + 1];
        }
      }
      FindByKeyThrows(items[1..], key, i - 1);
    }
  }

  /** find finds nothing when every item can be read and none matches. */
  lemma {:induction false} FindByKeyMissing(items: seq<Value>, key: string)
    requires Passed(items, key, |items|)
    ensures FindByKey(items, key) == Normal(None)
  {
    if items != [] {
      assert Passed(items[1..], key, |items| - 1) by {
        forall j | 0 <= j < |items| - 1 ensures !items[1..][j].Null? && !items[1..][j].Undef? && !KeyMatches(items[1..][j], key) {
          assert items[1..][j] == items[j + 1];
        }
      }
      FindByKeyMissing(items[1..], key);
    }
  }

  /** How parseDataByKey reads a found item's `value`: a falsy value gives
      undefined; a truthy value that is not text has no `startsWith`, and
      the TypeError is caught as null; a text shaped `[...]` is
      JSON-parsed, a parse error again giving null; any other text is
      returned as it is. */
  function ReadEntryValue(val: Value): (r: Value)
    ensures r.Undef? <==> !Truthy(val)
    ensures Truthy(val) && !val.Str? ==> r == Null
    ensures val.Str? && Truthy(val) && !(StartsWith(val.s, "[") && EndsWith(val.s, "]")) ==> r == val
    ensures val.Str? && StartsWith(val.s, "[") && EndsWith(val.s, "]") ==>
              r == match Json.Parse(val.s) case Some(v) => v case None => Null
  {
    if !Truthy(val) then Undef
    else if !val.Str? then Null
    else if StartsWith(val.s, "[") && EndsWith(val.s, "]") then
      match Json.Parse(val.s)
      case Some(v) => v
      case None => Null
    else val
  }

  /** `parseDataByKey(data, key)`. Everything inside its `try` that throws
      (calling `find` on a non-array, reading `key` off a null item,
      `startsWith` on a non-text value, JSON.parse) ends in null. */
  function ParseDataByKey(data: Value, key: string): (r: Value)
    ensures !data.Arr? ==> r == Null
  {
    if !data.Arr? then Null
    else
      match FindByKey(data.items, key)
      case Throw(_) => Null
      case Normal(None) => Undef
      case Normal(Some(item)) =>
        match Prop(item, "value")
        case Throw(_) => Null
        case Normal(val) => ReadEntryValue(val)
  }

  /** The first matching item decides: its `value` is read as
      ReadEntryValue says. */
  lemma ParseDataByKeyFirst(items: seq<Value>, key: string, i: nat)
    requires i < |items| && Passed(items, key, i) && KeyMatches(items[i], key)
    ensures items[i].Obj?
    ensures ParseDataByKey(Arr(items), key) == ReadEntryValue(Get(items[i].fields, "value"))
  {
    FindByKeyFirst(items, key, i);
  }

  /** No matching item gives undefined. */
  lemma ParseDataByKeyMissing(items: seq<Value>, key: string)
    requires Passed(items, key, |items|)
    ensures ParseDataByKey(Arr(items), key) == Undef
  {
    FindByKeyMissing(items, key);
  }

  /** A null or undefined item reached before any match gives null. */
  lemma ParseDataByKeyNullItem(items: seq<Value>, key: string, i: nat)
    requires i < |items| && Passed(items, key, i) && (items[i].Null? || items[i].Undef?)
    ensures ParseDataByKey(Arr(items), key) == Null
  {
    FindByKeyThrows(items, key, i);
  }

  /** What `result[key]` becomes for one entry: under a key starting with
      the prefix, the value is decoded by convertStringToJSON, which
      throws a TypeError on anything but text; other values are kept. */
  function ServiceEntry(prefix: string, e: (string, Value)): (r: Completion<Value>)
    ensures r.Throw? <==> StartsWith(e.0, prefix) && !e.1.Str?
    ensures r.Throw? ==> r.error == TypeError
    ensures !StartsWith(e.0, prefix) ==> r == Normal(e.1)
    ensures r.Normal? && StartsWith(e.0, prefix) ==> r.value.Arr? || r.value.Obj?
  {
    if !StartsWith(e.0, prefix) then Normal(e.1)
    else if e.1.Str? then Normal(DecodeBlock(e.1.s))
    else Throw(TypeError)
  }

  /** The new values of a run of entries, in order, or the TypeError of
      the first entry that throws. */
  function ServiceEntries(prefix: string, es: Record): (r: Completion<Record>)
    ensures r.Normal? ==> |r.value| == |es|
    ensures r.Throw? ==> r.error == TypeError
  {
    if es == [] then Normal([])
    else
      match ServiceEntries(prefix, es[..|es| - 1])
      case Throw(e) => Throw(e)
      case Normal(init) =>
        match ServiceEntry(prefix, es[|es| - 1])
        case Throw(e) => Throw(e)
        case Normal(v) => Normal(init + [(es[|es| - 1].0, v)])
  }

  /** What getParsedServiceData returns: an empty object when the data is
      neither an object nor an array or the prefix is not text; otherwise
      the entries assigned one by one onto an empty object, unless one of
      them throws. */
  function ParsedServiceData(data: Value, searchKey: Value): (r: Completion<Value>)
    ensures r.Throw? ==> r.error == TypeError
    ensures !(data.Arr? || data.Obj?) || !searchKey.Str? ==> r == Normal(Obj([]))
    ensures r.Normal? ==> r.value.Obj? && UniqueKeys(r.value.fields)
  {
    if !(data.Arr? || data.Obj?) || !searchKey.Str? then Normal(Obj([]))
    else
      match ServiceEntries(searchKey.s, Entries(data).value)
      case Throw(e) => Throw(e)
      case Normal(mapped) => PutAllUnique([], mapped); Normal(Obj(PutAll([], mapped)))
  }

  /** A run of entries that throws makes every longer run throw. */
  lemma {:induction false} ServiceEntriesThrowPersists(prefix: string, es: Record, n: nat)
    requires n <= |es| && ServiceEntries(prefix, es[..n]).Throw?
    ensures ServiceEntries(prefix, es).Throw?
    decreases |es| - n
  {
    if n < |es| {
      assert es[..n + 1][..n] == es[..n];
      ServiceEntriesThrowPersists(prefix, es, n + 1);
    } else {
      assert es[..n] == es;
    }
  }

  /** One more entry: it is added to the run's values, or its TypeError
      ends the run. */
  lemma ServiceEntriesStep(prefix: string, es: Record, i: nat)
    requires i < |es| && ServiceEntries(prefix, es[..i]).Normal?
    ensures ServiceEntry(prefix, es[i]).Throw? ==> ServiceEntries(prefix, es[..i + 1]).Throw?
    ensures ServiceEntry(prefix, es[i]).Normal? ==>
              ServiceEntries(prefix, es[..i + 1]) ==
                Normal(ServiceEntries(prefix, es[..i]).value + [(es[i].0, ServiceEntry(prefix, es[i]).value)])
  {
    assert es[..i + 1][..i] == es[..i];
  }

  /** `getParsedServiceData(servicesData, searchKey)`, the `for...in` loop
      filling `result`. */
  method GetParsedServiceData(data: Value, searchKey: Value) returns (r: Completion<Value>)
    ensures r == ParsedServiceData(data, searchKey)
  {
    if !(data.Arr? || data.Obj?) || !searchKey.Str? {
      return Normal(Obj([]));
    }
    var prefix := searchKey.s;
    var es := Entries(data).value;
    var result: Record := [];
    for i := 0 to |es|
      invariant ServiceEntries(prefix, es[..i]).Normal?
      invariant result == PutAll([], ServiceEntries(prefix, es[..i]).value)
    {
      var e := es[i];
      ServiceEntriesStep(prefix, es, i);
      if StartsWith(e.0, prefix) && !e.1.Str? {
        ServiceEntriesThrowPersists(prefix, es, i + 1);
        return Throw(TypeError);
      }
      var v;
      if StartsWith(e.0, prefix) {
        v := ConvertStringToJSON(e.1.s);
      } else {
        v := e.1;
      }
      PutAllSnoc([], ServiceEntries(prefix, es[..i]).value, (e.0, v));
      result := Put(result, e.0, v);
    }
    assert es[..|es|] == es;
    r := Normal(Obj(result));
  }

  /** The call throws exactly when some entry under a matching key holds
      something other than text. */
  lemma {:induction false} ServiceEntriesThrow(prefix: string, es: Record)
    ensures ServiceEntries(prefix, es).Throw? <==>
            exists i :: 0 <= i < |es| && StartsWith(es[i].0, prefix) && !es[i].1.Str?
  {
    if es != [] {
      var n := |es| - 1;
      var init := es[..n];
      ServiceEntriesThrow(prefix, init);
      assert ServiceEntries(prefix, es).Throw? <==>
             ServiceEntries(prefix, init).Throw? || ServiceEntry(prefix, es[n]).Throw?;
      if exists i :: 0 <= i < n && StartsWith(init[i].0, prefix) && !init[i].1.Str? {
        var i :| 0 <= i < n && StartsWith(init[i].0, prefix) && !init[i].1.Str?;
        assert es[i] == init[i];
      }
      if exists i :: 0 <= i < |es| && StartsWith(es[i].0, prefix) && !es[i].1.Str? {
        var i :| 0 <= i < |es| && StartsWith(es[i].0, prefix) && !es[i].1.Str?;
        if i < n {
          assert init[i] == es[i];
        }
      }
    }
  }

  /** When no entry throws, entry `i` keeps its key and holds the value
      ServiceEntry gives it. */
  lemma {:induction false} ServiceEntriesValues(prefix: string, es: Record)
    requires ServiceEntries(prefix, es).Normal?
    ensures forall i :: 0 <= i < |es| ==>
              ServiceEntry(prefix, es[i]).Normal? &&
              ServiceEntries(prefix, es).value[i] == (es[i].0, ServiceEntry(prefix, es[i]).value)
  {
    if es != [] {
      var n := |es| - 1;
      assert es[..n + 1] == es;
      ServiceEntriesStep(prefix, es, n);
      ServiceEntriesValues(prefix, es[..n]);
      var init := ServiceEntries(prefix, es[..n]).value;
      var all := ServiceEntries(prefix, es).value;
      forall i | 0 <= i < n
        ensures ServiceEntry(prefix, es[i]).Normal? && all[i] == (es[i].0, ServiceEntry(prefix, es[i]).value)
      {
        assert all[i] == init[i];
        assert es[..n][i] == es[i];
      }
    }
  }

  /** On an object with distinct keys and no throwing entry, the result
      has the same keys in the same order, with every value under a key
      starting with the prefix decoded as a block and every other value
      kept. */
  lemma ServiceDataFields(data: Value, prefix: string)
    requires data.Obj? && UniqueKeys(data.fields)
    requires ParsedServiceData(data, Str(prefix)).Normal?
    ensures var r := ParsedServiceData(data, Str(prefix)).value;
            r.Obj? && |r.fields| == |data.fields| &&
            forall i :: 0 <= i < |data.fields| ==>
              r.fields[i] == (data.fields[i].0,
                              if StartsWith(data.fields[i].0, prefix) && data.fields[i].1.Str?
                              then DecodeBlock(data.fields[i].1.s)
                              else data.fields[i].1)
  {
    var es := data.fields;
    ServiceEntriesValues(prefix, es);
    MappedUnique(prefix, es);
    var mapped := ServiceEntries(prefix, es).value;
    assert [] + mapped == mapped;
    PutAllFresh([], mapped);
    forall i | 0 <= i < |es|
      ensures mapped[i] == (es[i].0, if StartsWith(es[i].0, prefix) && es[i].1.Str? then DecodeBlock(es[i].1.s) else es[i].1)
    {
    }
  }

  /** The new values keep the entries' keys, so distinct keys stay
      distinct. */
  lemma MappedUnique(prefix: string, es: Record)
    requires UniqueKeys(es) && ServiceEntries(prefix, es).Normal?
    ensures UniqueKeys(ServiceEntries(prefix, es).value)
  {
    var mapped := ServiceEntries(prefix, es).value;
    ServiceEntriesValues(prefix, es);
    forall i, j | 0 <= i < j < |mapped| ensures mapped[i].0 != mapped[j].0 {
      assert mapped[i].0 == es[i].0 && mapped[j].0 == es[j].0;
    }
  }
}

=== FILE: mongo.dfy ===
/** The pure parts of the MongoDB helpers: translating `{field, operator,
    value}` conditions into a query object, cutting a list into batches of
    1000, and building the update, delete and pipeline-stage documents. */
module Mongo {
  import opened Opt
  import opened JsValue

  const BatchSize: nat := 1000

  /** The clause one operator puts under its field, or nothing for an
      operator the switch does not list. A `like` clause holds the pattern
      value and the flag "i" in place of the RegExp object. */
  function ClauseOf(operator: Value, value: Value): (r: Option<Value>)
    ensures r.Some? <==> operator in {Str("eq"), Str("neq"), Str("gt"), Str("lt"), Str("in"), Str("is.null"), Str("like")}
  {
    if operator == Str("eq") then Some(Obj([("$eq", value)]))
    else if operator == Str("neq") then Some(Obj([("$ne", value)]))
    else if operator == Str("gt") then Some(Obj([("$gt", value)]))
    else if operator == Str("lt") then Some(Obj([("$lt", value)]))
    else if operator == Str("in") then Some(Obj([("$in", if value.Arr? then value else Arr([value]))]))
    else if operator == Str("is.null") then Some(Obj([("$eq", Null)]))
    else if operator == Str("like") then Some(Obj([("$regex", Obj([("pattern", value), ("flags", Str("i"))]))]))
    else None
  }

  /** `in` takes a list as it is and wraps any other value in a list of
      one; `is.null` ignores its value. */
  lemma ClauseIn(value: Value, other: Value)
    ensures ClauseOf(Str("in"), value) ==
            Some(Obj([("$in", if value.Arr? then value else Arr([value]))]))
    ensures !value.Arr? ==> ClauseOf(Str("in"), value).value.fields[0].1 == Arr([value])
    ensures ClauseOf(Str("is.null"), value) == ClauseOf(Str("is.null"), other)
  {
  }

  /** What one condition assigns: destructuring `{field, operator, value}`
      throws on null or undefined; a listed operator assigns its clause to
      the field (converted to a property key), any other operator assigns
      nothing. */
  function ConditionPair(c: Value): (r: Completion<Option<(string, Value)>>)
    ensures r.Throw? <==> c.Null? || c.Undef?
  {
    match Prop(c, "operator")
    case Throw(e) => Throw(e)
    case Normal(op) =>
      match ClauseOf(op, Prop(c, "value").value)
      case None => Normal(None)
      case Some(clause) => Normal(Some((ToText(Prop(c, "field").value), clause)))
  }

  function ConditionPairs(cs: seq<Value>): seq<Completion<Option<(string, Value)>>>
  {
    seq(|cs|, i requires 0 <= i < |cs| => ConditionPair(cs[i]))
  }

  /** What `mapFilter(conditions)` returns: an empty query for anything but
      an array; otherwise the assignments of the conditions in order, unless
      destructuring one of them throws. */
  function FilterQuery(conditions: Value): (r: Completion<Record>)
    ensures !conditions.Arr? ==> r == Normal([])
    ensures r.Throw? <==>
              conditions.Arr? && exists i :: 0 <= i < |conditions.items| && (conditions.items[i].Null? || conditions.items[i].Undef?)
    ensures r.Normal? ==> UniqueKeys(r.value)
  {
    if !conditions.Arr? then Normal([])
    else
      var pairs := ConditionPairs(conditions.items);
      CollectValues(pairs);
      assert forall i :: 0 <= i < |pairs| ==> (pairs[i].Throw? <==> conditions.items[i].Null? || conditions.items[i].Undef?);
      match Collect(ConditionPairs(conditions.items))
      case Throw(e) => Throw(e)
      case Normal(os) => PutAllUnique([], Present(os)); Normal(PutAll([], Present(os)))
  }

  /** `mapFilter(conditions)`, the `forEach` loop writing `query[field]`. */
  method MapFilter(conditions: Value) returns (r: Completion<Record>)
    ensures r == FilterQuery(conditions)
  {
    if !conditions.Arr? {
      return Normal([]);
    }
    var cs := conditions.items;
    ghost var pairs := ConditionPairs(cs);
    ghost var os: seq<Option<(string, Value)>> := [];
    var query: Record := [];
    for i := 0 to |cs|
      invariant Collect(pairs[..i]) == Normal(os)
      invariant query == PutAll([], Present(os))
    {
      assert pairs[..i + 1] == pairs[..i] + [pairs[i]];
      CollectSnoc(pairs[..i], pairs[i]);
      var c := cs[i];
      if c.Null? || c.Undef? {
        CollectPrefixThrow(pairs, i + 1, TypeError);
        return Throw(TypeError);
      }
      var clause := ClauseOf(Prop(c, "operator").value, Prop(c, "value").value);
      if clause.Some? {
        var field := ToText(Prop(c, "field").value);
        PresentSnoc(os, Some((field, clause.value)));
        PutAllSnoc([], Present(os), (field, clause.value));
        query := Put(query, field, clause.value);
        os := os + [Some((field, clause.value))];
      } else {
        PresentSnoc(os, None);
        os := os + [None];
      }
    }
    assert pairs[..|cs|] == pairs;
    r := Normal(query);
  }

  /** Once a prefix of the calls throws, the whole run throws the same. */
  lemma {:induction false} CollectPrefixThrow<T>(cs: seq<Completion<T>>, n: nat, e: string)
    requires n <= |cs| && Collect(cs[..n]) == Throw(e)
    ensures Collect(cs) == Throw(e)
  {
    if n < |cs| {
      assert cs[..|cs| - 1][..n] == cs[..n];
      CollectPrefixThrow(cs[..|cs| - 1], n, e);
    } else {
      assert cs[..n] == cs;
    }
  }

  /** The field a condition assigns, when it assigns one. */
  function AssignedField(c: Value): Option<string>
  {
    match ConditionPair(c)
    case Normal(Some(p)) => Some(p.0)
    case _ => None
  }

  /** A field holds the clause of the last condition on it with a listed
      operator, and a field no such condition names is absent. */
  lemma FilterQueryGet(conditions: seq<Value>, k: string)
    requires FilterQuery(Arr(conditions)).Normal?
    ensures var q := FilterQuery(Arr(conditions)).value;
            Get(q, k) == match LastBinding(Present(Collect(ConditionPairs(conditions)).value), k)
                         case Some(v) => v
                         case None => Undef
    ensures var q := FilterQuery(Arr(conditions)).value;
            HasKey(q, k) <==> exists i :: 0 <= i < |conditions| && AssignedField(conditions[i]) == Some(k)
  {
    var pairs := ConditionPairs(conditions);
    var os := Collect(pairs).value;
    PutAllGet([], Present(os), k);
    PutAllHasKey([], Present(os), k);
    CollectValues(pairs);
    PresentHasKey(os, conditions, k);
  }

  lemma PresentHasKey(os: seq<Option<(string, Value)>>, cs: seq<Value>, k: string)
    requires |os| == |cs| && forall i :: 0 <= i < |cs| ==> ConditionPair(cs[i]) == Normal(os[i])
    ensures HasKey(Present(os), k) <==> exists i :: 0 <= i < |cs| && AssignedField(cs[i]) == Some(k)
  {
    var ps := Present(os);
    if HasKey(ps, k) {
      var j :| 0 <= j < |ps| && ps[j].0 == k;
      PresentMember(os, ps[j]);
      var i :| 0 <= i < |os| && os[i] == Some(ps[j]);
      assert AssignedField(cs[i]) == Some(k);
    }
    if exists i :: 0 <= i < |cs| && AssignedField(cs[i]) == Some(k) {
      var i :| 0 <= i < |cs| && AssignedField(cs[i]) == Some(k);
      var p := os[i].value;
      PresentMember(os, p);
      var j :| 0 <= j < |ps| && ps[j] == p;
    }
  }

  /** A condition with an unlisted operator changes nothing. */
  lemma UnknownOperatorIgnored(conditions: seq<Value>, c: Value)
    requires !c.Null? && !c.Undef?
    requires Prop(c, "operator").value !in {Str("eq"), Str("neq"), Str("gt"), Str("lt"), Str("in"), Str("is.null"), Str("like")}
    ensures FilterQuery(Arr(conditions + [c])) == FilterQuery(Arr(conditions))
  {
    var pairs := ConditionPairs(conditions + [c]);
    assert pairs[..|conditions|] == ConditionPairs(conditions);
    assert pairs[|conditions|] == Normal(None);
  }

  /** A later condition on a field replaces an earlier one. */
  lemma LaterConditionWins(conditions: seq<Value>, c: Value, k: string)
    requires FilterQuery(Arr(conditions + [c])).Normal?
    requires AssignedField(c) == Some(k)
    ensures Get(FilterQuery(Arr(conditions + [c])).value, k) == ConditionPair(c).value.value.1
  {
    var pairs := ConditionPairs(conditions + [c]);
    assert pairs[..|conditions|] == ConditionPairs(conditions);
    var os := Collect(pairs).value;
    CollectValues(pairs);
    assert os[|os| - 1] == ConditionPair(c).value;
    assert Present(os) == Present(os[..|os| - 1]) + [ConditionPair(c).value.value];
    PutAllGet([], Present(os), k);
  }

  /** `Array.from({length: Math.ceil(n / 1000)}, (_, i) => xs.slice(i * 1000, i * 1000 + 1000))`. */
  function Chunks<T>(xs: seq<T>): (r: seq<seq<T>>)
    ensures |r| == (|xs| + BatchSize - 1) / BatchSize
  {
    seq((|xs| + BatchSize - 1) / BatchSize, i requires 0 <= i < (|xs| + BatchSize - 1) / BatchSize =>
          xs[i * BatchSize .. if i * BatchSize + BatchSize <= |xs| then i * BatchSize + BatchSize else |xs|])
  }

  /** The number of chunks is the least that covers the list; every chunk
      holds at most 1000 items, every chunk but the last exactly 1000, and
      none is empty. */
  lemma ChunkSizes<T>(xs: seq<T>)
    ensures var r := Chunks(xs);
            |r| * BatchSize >= |xs| && (|r| > 0 ==> (|r| - 1) * BatchSize < |xs|)
    ensures var r := Chunks(xs);
            forall i :: 0 <= i < |r| ==> 0 < |r[i]| <= BatchSize && (i < |r| - 1 ==> |r[i]| == BatchSize)
  {
  }

  /** All the items of a list of chunks, in order. */
  function Flatten<T>(chunks: seq<seq<T>>): seq<T>
  {
    if chunks == [] then [] else Flatten(chunks[..|chunks| - 1]) + chunks[|chunks| - 1]
  }

  lemma {:induction false} FlattenChunksPrefix<T>(xs: seq<T>, k: nat)
    requires k <= |Chunks(xs)|
    ensures Flatten(Chunks(xs)[..k]) == xs[..if k * BatchSize <= |xs| then k * BatchSize else |xs|]
  {
    var r := Chunks(xs);
    if k > 0 {
      FlattenChunksPrefix(xs, k - 1);
      assert r[..k][..k - 1] == r[..k - 1];
      var lo := (k - 1) * BatchSize;
      var hi := if k * BatchSize <= |xs| then k * BatchSize else |xs|;
      assert r[..k][k - 1] == xs[lo..hi];
      assert xs[..lo] + xs[lo..hi] == xs[..hi];
    }
  }

  /** Concatenating the chunks gives back the list. */
  lemma FlattenChunks<T>(xs: seq<T>)
    ensures Flatten(Chunks(xs)) == xs
  {
    var r := Chunks(xs);
    FlattenChunksPrefix(xs, |r|);
    assert r[..|r|] == r;
    ChunkSizes(xs);
    assert xs[..|xs|] == xs;
  }

  /** The `updateMany` operation built for one update spec: the filter is
      mapFilter of its conditions, the update is `$inc` of its data when
      `increment` is truthy and `$set` otherwise, and `upsert` is its own
      value when truthy, false otherwise. */
  function UpdateOperation(u: Value): (r: Completion<Value>)
    ensures r.Throw? <==> u.Null? || u.Undef? || FilterQuery(Prop(u, "conditions").value).Throw?
    ensures r.Normal? ==> r.value.Obj? && |r.value.fields| == 1 && r.value.fields[0].0 == "updateMany"
  {
    match Prop(u, "conditions")
    case Throw(e) => Throw(e)
    case Normal(conditions) =>
      match FilterQuery(conditions)
      case Throw(e) => Throw(e)
      case Normal(q) =>
        var data := Prop(u, "data").value;
        var upsert := Prop(u, "upsert").value;
        Normal(Obj([("updateMany", Obj([
          ("filter", Obj(q)),
          ("update", if Truthy(Prop(u, "increment").value) then Obj([("$inc", data)]) else Obj([("$set", data)])),
          ("upsert", if Truthy(upsert) then upsert else Bool(false))]))]))
  }

  /** `updates.map(...)` in bulkUpdate. */
  function UpdateOperations(updates: seq<Value>): Completion<seq<Value>>
  {
    Collect(seq(|updates|, i requires 0 <= i < |updates| => UpdateOperation(updates[i])))
  }

  /** The batches bulkUpdate writes. */
  function UpdateBatches(updates: seq<Value>): Completion<seq<seq<Value>>>
  {
    match UpdateOperations(updates)
    case Throw(e) => Throw(e)
    case Normal(ops) => Normal(Chunks(ops))
  }

  /** One operation per update spec, in order, each as UpdateOperation
      builds it; the batches hold exactly those operations. */
  lemma UpdateOperationsInOrder(updates: seq<Value>)
    requires UpdateOperations(updates).Normal?
    ensures var ops := UpdateOperations(updates).value;
            |ops| == |updates| && forall i :: 0 <= i < |updates| ==> UpdateOperation(updates[i]) == Normal(ops[i])
    ensures Flatten(UpdateBatches(updates).value) == UpdateOperations(updates).value
  {
    CollectValues(seq(|updates|, i requires 0 <= i < |updates| => UpdateOperation(updates[i])));
    FlattenChunks(UpdateOperations(updates).value);
  }

  /** The parts of an update operation. */
  lemma UpdateOperationParts(u: Value)
    requires !u.Null? && !u.Undef?
    requires FilterQuery(Prop(u, "conditions").value).Normal?
    ensures UpdateOperation(u).Normal?
    ensures var m := UpdateOperation(u).value.fields[0].1;
            m.Obj? && |m.fields| == 3 &&
            m.fields[0] == ("filter", Obj(FilterQuery(Prop(u, "conditions").value).value)) &&
            m.fields[1].1.Obj? && |m.fields[1].1.fields| == 1 &&
            (m.fields[1].1.fields[0].0 == "$inc" <==> Truthy(Prop(u, "increment").value)) &&
            m.fields[1].1.fields[0].1 == Prop(u, "data").value &&
            (!Truthy(Prop(u, "upsert").value) ==> m.fields[2] == ("upsert", Bool(false)))
  {
  }

  /** The `deleteMany` operation for one condition set. */
  function DeleteOperation(conditionSet: Value): (r: Completion<Value>)
    ensures r.Throw? <==> FilterQuery(conditionSet).Throw?
    ensures r.Normal? ==> r.value.Obj? && |r.value.fields| == 1 && r.value.fields[0].0 == "deleteMany"
  {
    match FilterQuery(conditionSet)
    case Throw(e) => Throw(e)
    case Normal(q) => Normal(Obj([("deleteMany", Obj([("filter", Obj(q))]))]))
  }

  /** `conditionSets.map(...)` in bulkDelete. */
  function DeleteOperations(sets: seq<Value>): Completion<seq<Value>>
  {
    Collect(seq(|sets|, i requires 0 <= i < |sets| => DeleteOperation(sets[i])))
  }

  /** One `deleteMany` per condition set, in input order, whose filter is
      mapFilter of that set. */
  lemma DeleteOperationsInOrder(sets: seq<Value>)
    requires DeleteOperations(sets).Normal?
    ensures var ops := DeleteOperations(sets).value;
            |ops| == |sets| &&
            forall i :: 0 <= i < |sets| ==>
              FilterQuery(sets[i]).Normal? &&
              ops[i] == Obj([("deleteMany", Obj([("filter", Obj(FilterQuery(sets[i]).value))]))])
  {
    var cs := seq(|sets|, i requires 0 <= i < |sets| => DeleteOperation(sets[i]));
    CollectValues(cs);
    forall i | 0 <= i < |sets| ensures FilterQuery(sets[i]).Normal? {
      assert cs[i].Normal?;
    }
  }

  /** `stages.match(conditions)`. */
  function MatchStage(conditions: Value): (r: Completion<Value>)
    ensures r.Throw? <==> FilterQuery(conditions).Throw?
    ensures !conditions.Arr? ==> r == Normal(Obj([("$match", Obj([]))]))
  {
    match FilterQuery(conditions)
    case Throw(e) => Throw(e)
    case Normal(q) => Normal(Obj([("$match", Obj(q))]))
  }

  /** `stages.group(id, accumulators)`: `{_id: id, ...accumulators}`. */
  function GroupStage(id: Value, accumulators: Record): (r: Value)
    ensures r.Obj? && |r.fields| == 1 && r.fields[0].0 == "$group" && r.fields[0].1.Obj?
    ensures forall k :: HasKey(r.fields[0].1.fields, k) <==> k == "_id" || HasKey(accumulators, k)
    ensures UniqueKeys(r.fields[0].1.fields)
  {
    forall k ensures HasKey(PutAll([("_id", id)], accumulators), k) <==> k == "_id" || HasKey(accumulators, k) {
      PutAllHasKey([("_id", id)], accumulators, k);
      assert HasKey([("_id", id)], k) <==> k == "_id" by {
        assert [("_id", id)][0].0 == "_id";
      }
    }
    PutAllUnique([("_id", id)], accumulators);
    Obj([("$group", Obj(PutAll([("_id", id)], accumulators)))])
  }

  /** `_id` comes first; an accumulator named `_id` replaces its value. */
  lemma GroupIdFirst(id: Value, accumulators: Record)
    ensures var g := GroupStage(id, accumulators).fields[0].1.fields;
            g != [] && g[0].0 == "_id" &&
            Get(g, "_id") == match LastBinding(accumulators, "_id")
                             case Some(v) => v
                             case None => id
  {
    PutAllKeepsPrefix([("_id", id)], accumulators);
    PutAllGet([("_id", id)], accumulators, "_id");
  }

  /** The match stage wraps exactly the query mapFilter builds. */
  lemma MatchWraps(conditions: Value)
    ensures MatchStage(conditions).Throw? <==> FilterQuery(conditions).Throw?
    ensures MatchStage(conditions).Normal? ==>
            MatchStage(conditions).value.fields == [("$match", Obj(FilterQuery(conditions).value))]
  {
  }

  /** A stage document: one field, the stage operator, holding its
      argument. */
  function Stage(operator: string, argument: Value): Value
  {
    Obj([(operator, argument)])
  }

  function ProjectStage(fields: Value): Value { Stage("$project", fields) }

  function LookupStage(from: Value, localField: Value, foreignField: Value, asField: Value): Value
  {
    Stage("$lookup", Obj([("from", from), ("localField", localField), ("foreignField", foreignField), ("as", asField)]))
  }

  function UnwindStage(path: Value): Value { Stage("$unwind", path) }

  function SortStage(criteria: Value): Value { Stage("$sort", criteria) }

  function LimitStage(n: Value): Value { Stage("$limit", n) }

  function OutStage(collectionName: Value): Value { Stage("$out", collectionName) }

  /** Every pass-through stage is a single-field object under its own
      operator whose payload is the caller's argument, untouched; the
      lookup payload lists its four arguments under their own names. */
  lemma PassThroughStages(a: Value, b: Value, c: Value, d: Value)
    ensures ProjectStage(a).fields == [("$project", a)]
    ensures UnwindStage(a).fields == [("$unwind", a)]
    ensures SortStage(a).fields == [("$sort", a)]
    ensures LimitStage(a).fields == [("$limit", a)]
    ensures OutStage(a).fields == [("$out", a)]
    ensures var l := LookupStage(a, b, c, d).fields;
            |l| == 1 && l[0].0 == "$lookup" &&
            Get(l[0].1.fields, "from") == a && Get(l[0].1.fields, "localField") == b &&
            Get(l[0].1.fields, "foreignField") == c && Get(l[0].1.fields, "as") == d
  {
    var f: Record := [("from", a), ("localField", b), ("foreignField", c), ("as", d)];
    KeyIndexIs(f, "from", 0);
    KeyIndexIs(f, "localField", 1);
    KeyIndexIs(f, "foreignField", 2);
    KeyIndexIs(f, "as", 3);
  }
}

=== FILE: numbers.dfy ===
/** JavaScript number text, restricted to integers: `String(n)` for an
    integer, `Number(text)` and the acceptance test of `parseFloat(text)`.
    Numbers are modelled as unbounded integers (see README, "Left out"). */
module JsNumber {
  import opened Opt
  import opened Text

  predicate IsDigit(c: char) {
    '0' <= c <= '9'
  }

  predicate AllDigits(s: string) {
    forall i :: 0 <= i < |s| ==> IsDigit(s[i])
  }

  function DigitChar(d: nat): (c: char)
    requires d < 10
    ensures IsDigit(c)
  {
    ('0' as int + d) as char
  }

  function DigitValue(c: char): (d: nat)
    requires IsDigit(c)
    ensures d < 10 && DigitChar(d) == c
  {
    c as int - '0' as int
  }

  /** The decimal digits of a natural number, without leading zeros. */
  function NatToString(n: nat): (r: string)
    ensures |r| >= 1 && AllDigits(r)
    ensures r[0] == '0' ==> n == 0
    decreases n
  {
    if n < 10 then [DigitChar(n)] else NatToString(n / 10) + [DigitChar(n % 10)]
  }

  /** `String(n)` for an integer `n`: a minus sign for negatives, then the
      digits. */
  function IntToString(i: int): (r: string)
    ensures r != []
    ensures r[0] == '-' || IsDigit(r[0])
    ensures forall k :: 0 <= k < |r| ==> r[k] == '-' || IsDigit(r[k])
  {
    if i < 0 then "-" + NatToString(-i) else NatToString(i)
  }

  /** The value of a run of decimal digits (leading zeros allowed). */
  function DigitsValue(s: string): nat
    requires AllDigits(s)
  {
    if s == [] then 0 else DigitsValue(s[..|s| - 1]) * 10 + DigitValue(s[|s| - 1])
  }

  lemma {:induction false} DigitsOfNat(n: nat)
    ensures DigitsValue(NatToString(n)) == n
  {
    if n >= 10 {
      var r := NatToString(n);
      assert r[..|r| - 1] == NatToString(n / 10);
      DigitsOfNat(n / 10);
    }
  }

  /** `Number(text)` on the texts this model treats as numbers: after
      trimming, the empty text is 0 and an optional sign followed by decimal
      digits is that integer; anything else is NaN (`None`). */
  function NumberOf(t: string): (r: Option<int>)
  {
    var u := Trim(t);
    if u == [] then Some(0)
    else if (u[0] == '-' || u[0] == '+') && |u| >= 2 && AllDigits(u[1..]) then
      var magnitude: int := DigitsValue(u[1..]);
      Some(if u[0] == '-' then -magnitude else magnitude)
    else if AllDigits(u) then Some(DigitsValue(u))
    else None
  }

  /** Whether `parseFloat(text)` is a number: after leading white space the
      text begins with a decimal literal, optionally signed, or with
      "Infinity". */
  predicate ParseFloatAccepts(t: string) {
    var u := TrimStart(t);
    var body := if u != [] && (u[0] == '-' || u[0] == '+') then u[1..] else u;
    || (body != [] && IsDigit(body[0]))
    || (|body| >= 2 && body[0] == '.' && IsDigit(body[1]))
    || StartsWith(body, "Infinity")
  }

  /** The guard `!isNaN(Number(t)) && !isNaN(parseFloat(t))`. */
  predicate IsNumeric(t: string) {
    NumberOf(t).Some? && ParseFloatAccepts(t)
  }

  /** Both parsers must accept: this rejects exactly the texts that Number()
      reads as 0 only because they are blank. */
  lemma NumericIffNonBlankNumber(t: string)
    ensures IsNumeric(t) <==> NumberOf(t).Some? && Trim(t) != []
  {
    var u := TrimStart(t);
    var v := TrimEnd(u);
    assert Trim(t) == v;
    if v == [] {
      assert u == [];
    } else if NumberOf(t).Some? {
      TrimEndPrefix(u);
      assert u[0] == v[0];
      if v[0] == '-' || v[0] == '+' {
        assert |v| >= 2 && AllDigits(v[1..]);
        assert u[1] == v[1] && IsDigit(v[1]);
      } else {
        assert AllDigits(v) && IsDigit(v[0]);
      }
    }
  }

  /** Every character of a numeric text is white space, a sign or a
      digit. */
  lemma NumericChars(t: string)
    requires IsNumeric(t)
    ensures forall c :: c in t ==> IsSpace(c) || c == '-' || c == '+' || IsDigit(c)
  {
    var u := Trim(t);
    NumericIffNonBlankNumber(t);
    TrimOfTrimmed(u);
    NumberCoreChars(u);
    var a, b :| 0 <= a <= b <= |t| && u == t[a..b] &&
                forall k :: 0 <= k < a || b <= k < |t| ==> IsSpace(t[k]);
    forall k | a <= k < b
      ensures t[k] == '-' || t[k] == '+' || IsDigit(t[k])
    {
      assert t[k] == u[k - a];
    }
  }

  /** The trimmed text Number() reads is signs and digits only. */
  lemma NumberCoreChars(u: string)
    requires Trim(u) == u && NumberOf(u).Some?
    ensures forall j :: 0 <= j < |u| ==> u[j] == '-' || u[j] == '+' || IsDigit(u[j])
  {
    if u != [] && (u[0] == '-' || u[0] == '+') && |u| >= 2 && AllDigits(u[1..]) {
      forall j | 1 <= j < |u|
        ensures IsDigit(u[j])
      {
        assert u[j] == u[1..][j - 1];
      }
    }
  }

  /** Number() and parseFloat() accept leading zeros and surrounding
      blanks: "007" is 7 and " 5" is 5. */
  lemma LenientNumberText()
    ensures IsNumeric("007") && NumberOf("007") == Some(7)
    ensures IsNumeric(" 5") && NumberOf(" 5") == Some(5)
  {
    TrimOfTrimmed("007");
    assert DigitsValue("007") == 7 by {
      assert "007"[..2] == "00" && "00"[..1] == "0" && "0"[..0] == "";
    }
    assert TrimStart(" 5") == "5" by {
      assert " 5"[1..] == "5";
    }
    assert Trim(" 5") == "5";
    assert DigitsValue("5") == 5 by {
      assert "5"[..0] == "";
    }
  }

  lemma IntToStringIsTrimmed(i: int)
    ensures Trim(IntToString(i)) == IntToString(i)
  {
    var r := IntToString(i);
    assert !IsSpace(r[0]) && !IsSpace(r[|r| - 1]);
    TrimOfTrimmed(r);
  }

  lemma NumberOfDigits(u: string)
    requires Trim(u) == u && u != [] && AllDigits(u)
    ensures NumberOf(u) == Some(DigitsValue(u))
  {
  }

  lemma NumberOfNegative(u: string)
    requires Trim(u) == u && |u| >= 2 && u[0] == '-' && AllDigits(u[1..])
    ensures NumberOf(u) == Some(-(DigitsValue(u[1..]) as int))
  {
  }

  /** Number(String(i)) == i, and the text passes the parseFloat guard. */
  lemma NumberOfIntToString(i: int)
    ensures NumberOf(IntToString(i)) == Some(i)
    ensures IsNumeric(IntToString(i))
  {
    IntToStringIsTrimmed(i);
    var r := IntToString(i);
    if i < 0 {
      var digits := NatToString(-i);
      assert r == "-" + digits;
      assert r[1..] == digits;
      DigitsOfNat(-i);
      NumberOfNegative(r);
    } else {
      assert r == NatToString(i);
      DigitsOfNat(i);
      NumberOfDigits(r);
    }
    NumericIffNonBlankNumber(r);
  }
}

=== FILE: option.dfy ===
/** The optional-value datatype used across the model: `None` stands for a
    JavaScript lookup or parse attempt that produced nothing. */
module Opt {

  datatype Option<+T> = None | Some(value: T)

  /** The values present in a list of options, in order. */
  function Present<T>(os: seq<Option<T>>): (r: seq<T>)
    ensures |r| <= |os|
  {
    if os == [] then []
    else
      var init := Present(os[..|os| - 1]);
      match os[|os| - 1]
      case Some(p) => init + [p]
      case None => init
  }

  /** When every option holds a value, those values are all present. */
  lemma {:induction false} PresentAll<T>(os: seq<Option<T>>, vs: seq<T>)
    requires |os| == |vs|
    requires forall j :: 0 <= j < |os| ==> os[j] == Some(vs[j])
    ensures Present(os) == vs
  {
    if os != [] {
      var n := |os| - 1;
      PresentAll(os[..n], vs[..n]);
      assert vs == vs[..n] + [vs[n]];
    }
  }

  /** Appending one option appends its value, if it has one. */
  lemma PresentSnoc<T>(os: seq<Option<T>>, o: Option<T>)
    ensures Present(os + [o]) == if o.Some? then Present(os) + [o.value] else Present(os)
  {
    assert (os + [o])[..|os|] == os;
  }

  /** Extending a prefix by one option appends its value, if it has one. */
  lemma PresentPrefixSnoc<T>(os: seq<Option<T>>, j: nat)
    requires j < |os|
    ensures Present(os[..j + 1]) == if os[j].Some? then Present(os[..j]) + [os[j].value] else Present(os[..j])
  {
    assert os[..j + 1] == os[..j] + [os[j]];
    PresentSnoc(os[..j], os[j]);
  }

  /** A value is present exactly when some option holds it. */
  lemma {:induction false} PresentMember<T>(os: seq<Option<T>>, x: T)
    ensures x in Present(os) <==> exists i :: 0 <= i < |os| && os[i] == Some(x)
  {
    if os != [] {
      var n := |os| - 1;
      PresentMember(os[..n], x);
      if exists i :: 0 <= i < n && os[..n][i] == Some(x) {
        var i :| 0 <= i < n && os[..n][i] == Some(x);
        assert os[i] == Some(x);
      }
      if exists i :: 0 <= i < |os| && os[i] == Some(x) {
        var i :| 0 <= i < |os| && os[i] == Some(x);
        if i < n {
          assert os[..n][i] == Some(x);
        }
      }
    }
  }
}

=== FILE: permission.dfy ===
/** The permission table: for each feature and role, five flags saying
    whether the role may read, create, update, delete and disable. */
module Permission {
  import opened Opt
  import opened JsValue

  datatype Flags = Flags(read: int, create: int, update: int, delete: int, disable: int)

  const All := Flags(1, 1, 1, 1, 1)
  const NoDelete := Flags(1, 1, 1, 0, 1)
  const NoDeleteNoDisable := Flags(1, 1, 1, 0, 0)

  /** `permissions.features`. */
  const Features: map<string, map<string, Flags>> := map[
    "vendor" := map["vendor" := NoDelete, "managers" := NoDelete, "admins" := All, "SAdmin" := All],
    "user" := map["user" := NoDeleteNoDisable, "vendor" := NoDeleteNoDisable,
                  "managers" := All, "admins" := All, "SAdmin" := All]
  ]

  /** `permissions.features[feature][role]`: an unknown feature is
      undefined, and indexing it throws; an unknown role is undefined
      (`None`). */
  function Lookup(feature: string, role: string): (r: Completion<Option<Flags>>)
    ensures r.Throw? <==> feature != "vendor" && feature != "user"
    ensures r.Normal? ==>
              (r.value.Some? <==>
                 role in (if feature == "vendor" then {"vendor", "managers", "admins", "SAdmin"}
                          else {"user", "vendor", "managers", "admins", "SAdmin"}))
  {
    if feature !in Features then Throw(TypeError)
    else if role !in Features[feature] then Normal(None)
    else Normal(Some(Features[feature][role]))
  }

  /** Administrators and the super administrator hold every flag in every
      feature. */
  lemma AdminsHoldAll(feature: string, role: string)
    requires feature in {"vendor", "user"} && role in {"admins", "SAdmin"}
    ensures Lookup(feature, role) == Normal(Some(All))
  {
  }

  /** Deleting is denied exactly to vendors and managers on the vendor
      feature, and to users and vendors on the user feature. */
  lemma DeleteDenied(feature: string, role: string)
    requires Lookup(feature, role).Normal? && Lookup(feature, role).value.Some?
    ensures Lookup(feature, role).value.value.delete == 0 <==>
            (feature == "vendor" && role in {"vendor", "managers"}) ||
            (feature == "user" && role in {"user", "vendor"})
  {
  }

  /** Disabling is denied only to users and vendors on the user feature. */
  lemma DisableDenied(feature: string, role: string)
    requires Lookup(feature, role).Normal? && Lookup(feature, role).value.Some?
    ensures Lookup(feature, role).value.value.disable == 0 <==>
            feature == "user" && role in {"user", "vendor"}
  {
  }

  /** Every flag is 0 or 1, and reading, creating and updating are granted
      to every role listed. */
  lemma FlagsAreBits(feature: string, role: string)
    requires Lookup(feature, role).Normal? && Lookup(feature, role).value.Some?
    ensures var f := Lookup(feature, role).value.value;
            f.read == 1 && f.create == 1 && f.update == 1 &&
            0 <= f.delete <= 1 && 0 <= f.disable <= 1
  {
  }

  /** A role a known feature does not list gets undefined. */
  lemma UnknownRole(feature: string, role: string)
    requires feature in {"vendor", "user"}
    requires feature == "vendor" ==> role !in {"vendor", "managers", "admins", "SAdmin"}
    requires feature == "user" ==> role !in {"user", "vendor", "managers", "admins", "SAdmin"}
    ensures Lookup(feature, role) == Normal(None)
  {
  }
}

=== FILE: text.dfy ===
/** String helpers with the semantics of the JavaScript String methods the
    source uses: trim, split and join on one character, indexOf, startsWith
    and endsWith. Strings are sequences of Unicode scalar values. */
module Text {

  /** The WhiteSpace and LineTerminator characters of ECMAScript, the set
      stripped by String.prototype.trim and by Number(). */
  predicate IsSpace(c: char) {
    if c <= ' ' then c == ' ' || '\t' <= c <= '\r'
    else if c < '\U{A0}' then false
    else
      || c == '\U{A0}' || c == '\U{1680}' || ('\U{2000}' <= c <= '\U{200A}')
      || c == '\U{2028}' || c == '\U{2029}' || c == '\U{202F}' || c == '\U{205F}'
      || c == '\U{3000}' || c == '\U{FEFF}'
  }


  /** String.prototype.trimStart. */
  function TrimStart(s: string): (r: string)
    ensures |r| <= |s|
    ensures r != [] ==> !IsSpace(r[0])
    ensures s != [] && !IsSpace(s[0]) ==> r == s
  {
    if s != [] && IsSpace(s[0]) then TrimStart(s[1..]) else s
  }

  /** String.prototype.trimEnd. */
  function TrimEnd(s: string): (r: string)
    ensures |r| <= |s|
    ensures r != [] ==> !IsSpace(r[|r| - 1])
    ensures s != [] && !IsSpace(s[|s| - 1]) ==> r == s
    ensures s != [] && !IsSpace(s[0]) ==> r != []
  {
    if s != [] && IsSpace(s[|s| - 1]) then TrimEnd(s[..|s| - 1]) else s
  }

  /** Trimming the start drops a prefix. */
  lemma {:induction false} TrimStartSuffix(s: string)
    ensures TrimStart(s) == s[|s| - |TrimStart(s)|..]
    ensures forall k :: 0 <= k < |s| - |TrimStart(s)| ==> IsSpace(s[k])
    decreases |s|
  {
    if s != [] && IsSpace(s[0]) {
      TrimStartSuffix(s[1..]);
      assert forall k :: 1 <= k < |s| ==> s[k] == s[1..][k - 1];
    }
  }

  /** Trimming the end drops a suffix. */
  lemma {:induction false} TrimEndPrefix(s: string)
    ensures TrimEnd(s) == s[..|TrimEnd(s)|]
    ensures forall k :: |TrimEnd(s)| <= k < |s| ==> IsSpace(s[k])
    decreases |s|
  {
    if s != [] && IsSpace(s[|s| - 1]) {
      TrimEndPrefix(s[..|s| - 1]);
    }
  }

  /** String.prototype.trim. */
  function Trim(s: string): (r: string)
    ensures |r| <= |s|
    ensures r != [] ==> !IsSpace(r[0]) && !IsSpace(r[|r| - 1])
    ensures exists a, b :: 0 <= a <= b <= |s| && r == s[a..b] &&
              forall k :: 0 <= k < a || b <= k < |s| ==> IsSpace(s[k])
  {
    var t := TrimStart(s);
    var u := TrimEnd(t);
    TrimStartSuffix(s);
    TrimEndPrefix(t);
    var a := |s| - |t|;
    SpacesAround(s, t, u, a);
    assert u == s[a..a + |u|];
    u
  }

  /** Cutting white space off the front and then off the back cuts only
      white space from the text. */
  lemma SpacesAround(s: string, t: string, u: string, a: nat)
    requires a <= |s| && t == s[a..] && forall k :: 0 <= k < a ==> IsSpace(s[k])
    requires |u| <= |t| && u == t[..|u|] && forall k :: |u| <= k < |t| ==> IsSpace(t[k])
    ensures u == s[a..a + |u|]
    ensures forall k :: 0 <= k < a || a + |u| <= k < |s| ==> IsSpace(s[k])
  {
    forall k | a + |u| <= k < |s|
      ensures IsSpace(s[k])
    {
      assert s[k] == t[k - a];
    }
  }

  /** Text that starts and ends with a non-space character is its own trim,
      and so is the empty text. */
  lemma TrimOfTrimmed(s: string)
    requires s != [] ==> !IsSpace(s[0]) && !IsSpace(s[|s| - 1])
    ensures Trim(s) == s
  {
  }

  /** The first `c` of `k + [c] + f`, for `k` free of `c`, stands right
      after `k`; the text before it is `k` and the text after it is `f`. */
  lemma FirstSeparator(k: string, c: char, f: string)
    requires c !in k
    ensures IndexOf(k + [c] + f, c) == |k|
    ensures (k + [c] + f)[..|k|] == k && (k + [c] + f)[|k| + 1..] == f
  {
    var s := k + [c] + f;
    assert s[|k|] == c;
    assert s[..|k|] == k;
  }

  /** Trimming twice is trimming once. */
  lemma TrimTwice(s: string)
    ensures Trim(Trim(s)) == Trim(s)
  {
    TrimOfTrimmed(Trim(s));
  }

  /** A character absent from a text is absent from its trim. */
  lemma TrimKeepsAbsent(s: string, c: char)
    requires c !in s
    ensures c !in Trim(s)
  {
    var a, b :| 0 <= a <= b <= |s| && Trim(s) == s[a..b];
    forall k | 0 <= k < b - a ensures Trim(s)[k] != c {
      assert Trim(s)[k] == s[a + k];
    }
  }

  /** A sample block text is its own trim and holds a `|`. */
  lemma TrimmedSample()
    ensures Trim("a:'true'|b:1") == "a:'true'|b:1" && '|' in "a:'true'|b:1"
  {
    var s := "a:'true'|b:1";
    assert s[8] == '|';
    TrimOfTrimmed(s);
  }

  /** Concatenation regrouped to the right. */
  lemma Nest3(a: string, b: string, c: string)
    ensures a + b + c == a + (b + c)
  {
  }

  lemma Nest4(a: string, b: string, c: string, d: string)
    ensures a + b + c + d == a + (b + (c + d))
  {
  }

  /** A quoted key and its colon regrouped to the right. */
  lemma NestKey(k: string, rest: string)
    ensures "'" + k + "':" + rest == "'" + (k + ("'" + (":" + rest)))
    ensures "\"" + k + "\":" + rest == "\"" + (k + ("\"" + (":" + rest)))
  {
  }

  /** The text `{k:'s'}` and `['s']` regrouped to the right. */
  lemma NestLiterals(k: string, s: string)
    ensures "{" + k + ":'" + s + "'}" == "{" + (k + (":" + ("'" + (s + ("'" + "}")))))
    ensures "['" + s + "']" == "[" + ("'" + (s + ("'" + "]")))
  {
  }

  /** A non-empty text followed by another is its first character followed
      by the rest of both. */
  lemma FirstAndRest(x: string, y: string)
    requires x != []
    ensures x + y == [x[0]] + (x[1..] + y)
  {
  }

  /** Text whose first character is not a space does not trim to nothing. */
  lemma TrimNotBlank(s: string)
    requires s != [] && !IsSpace(s[0])
    ensures Trim(s) != []
  {
  }

  /** String.prototype.indexOf for one character: the first position of `c`,
      or -1. */
  function IndexOf(s: string, c: char): (i: int)
    ensures -1 <= i < |s|
    ensures i == -1 <==> c !in s
    ensures 0 <= i ==> s[i] == c && c !in s[..i]
  {
    if s == [] then -1
    else if s[0] == c then 0
    else
      var j := IndexOf(s[1..], c);
      if j == -1 then -1
      else
        assert s[..j + 1] == [s[0]] + s[1..][..j];
        j + 1
  }

  /** String.prototype.split on a one-character separator: the pieces between
      the separators, so there is always one more piece than separators. */
  function Split(s: string, sep: char): (r: seq<string>)
    ensures |r| >= 1
    ensures forall i :: 0 <= i < |r| ==> sep !in r[i]
    decreases |s|
  {
    var i := IndexOf(s, sep);
    if i < 0 then [s]
    else
      var rest := Split(s[i + 1..], sep);
      assert forall j :: 1 <= j < |rest| + 1 ==> ([s[..i]] + rest)[j] == rest[j - 1];
      [s[..i]] + rest
  }

  /** Array.prototype.join with a one-character separator. */
  function Join(parts: seq<string>, sep: char): (r: string)
  {
    if |parts| == 0 then ""
    else if |parts| == 1 then parts[0]
    else parts[0] + [sep] + Join(parts[1..], sep)
  }

  /** A character that occurs in no piece and is not the separator does not
      occur in the joined text. */
  lemma {:induction false} JoinAvoids(parts: seq<string>, sep: char, c: char)
    requires c != sep
    requires forall i :: 0 <= i < |parts| ==> c !in parts[i]
    ensures c !in Join(parts, sep)
  {
    if |parts| >= 2 {
      JoinAvoids(parts[1..], sep, c);
    }
  }

  /** The separator occurs in the joined text exactly when some piece holds
      it or there are at least two pieces. */
  lemma {:induction false} JoinHasSeparator(parts: seq<string>, sep: char)
    requires forall i :: 0 <= i < |parts| ==> sep !in parts[i]
    ensures sep in Join(parts, sep) <==> |parts| >= 2
  {
    if |parts| >= 2 {
      var j := Join(parts, sep);
      assert j[|parts[0]|] == sep;
    } else if |parts| == 1 {
      assert Join(parts, sep) == parts[0];
    }
  }

  /** The joined text begins with the first piece. */
  lemma JoinStartsWithFirst(parts: seq<string>, sep: char)
    requires |parts| >= 1
    ensures StartsWith(Join(parts, sep), parts[0])
  {
    if |parts| >= 2 {
      assert Join(parts, sep)[..|parts[0]|] == parts[0];
    }
  }

  /** A character of any piece occurs in the joined text. */
  lemma {:induction false} JoinKeeps(parts: seq<string>, sep: char, i: nat, c: char)
    requires i < |parts| && c in parts[i]
    ensures c in Join(parts, sep)
  {
    if |parts| >= 2 {
      var rest := Join(parts[1..], sep);
      assert Join(parts, sep) == parts[0] + [sep] + rest;
      if i > 0 {
        JoinKeeps(parts[1..], sep, i - 1, c);
      }
    }
  }

  /** Splitting a joined text on the separator gives the pieces back, as
      long as no piece holds the separator. */
  lemma {:induction false} SplitJoin(parts: seq<string>, sep: char)
    requires |parts| >= 1
    requires forall i :: 0 <= i < |parts| ==> sep !in parts[i]
    ensures Split(Join(parts, sep), sep) == parts
  {
    if |parts| >= 2 {
      var rest := Join(parts[1..], sep);
      var s := parts[0] + [sep] + rest;
      assert Join(parts, sep) == s;
      assert s[..|parts[0]|] == parts[0];
      assert s[|parts[0]|] == sep;
      assert IndexOf(s, sep) == |parts[0]|;
      assert s[|parts[0]| + 1..] == rest;
      SplitJoin(parts[1..], sep);
    }
  }

  predicate StartsWith(s: string, prefix: string) {
    |prefix| <= |s| && s[..|prefix|] == prefix
  }

  predicate EndsWith(s: string, suffix: string) {
    |suffix| <= |s| && s[|s| - |suffix|..] == suffix
  }
}

=== FILE: transform.dfy ===
/** `transformData`: a walk over a nested value that turns text leaves into
    the richer values they spell (a block of records, a JSON container, a
    boolean, a canonical integer), leaving everything else as it is. */
module Transform {
  import opened Opt
  import opened Text
  import opened JsNumber
  import opened JsValue
  import Json
  import opened BlockCodec
  import BlockLaws

  /** `toLowerCase` on the letters A-Z. No other character lowers to one of
      the letters of "true" or "false", so comparing the lowered text with
      those two words is exact. */
  function LowerChar(c: char): char {
    if 'A' <= c <= 'Z' then (c as int + 32) as char else c
  }

  function LowerAscii(s: string): (r: string)
    ensures |r| == |s|
  {
    seq(|s|, i requires 0 <= i < |s| => LowerChar(s[i]))
  }

  /** Shaped like `{...}` or `[...]`. */
  predicate Bracketed(t: string) {
    || (StartsWith(t, "{") && EndsWith(t, "}"))
    || (StartsWith(t, "[") && EndsWith(t, "]"))
  }

  /** What JSON.parse gives for a bracketed text, if it does not throw. */
  function ParsedContainer(t: string): (r: Option<Value>)
    ensures r.Some? ==> LeafBound(r.value) < |t|
  {
    if Bracketed(t) then Json.Parse(t) else None
  }

  /** `transformValue(value)`. A text re-parsed as JSON yields strings
      shorter than itself, so the walk ends. */
  function TransformValue(v: Value): (r: Value)
    ensures r.Str? ==> r == v
    ensures v.Arr? ==> r.Arr? && |r.items| == |v.items|
    ensures v.Obj? ==> r.Obj? && |r.fields| == |v.fields|
    decreases LeafBound(v), v
  {
    match v
    case Arr(items) =>
      Arr(seq(|items|, i requires 0 <= i < |items| =>
            ChildBelowBound(v, 0, i); TransformValue(items[i])))
    case Obj(fields) =>
      Obj(seq(|fields|, i requires 0 <= i < |fields| =>
            ChildBelowBound(v, 0, i); (fields[i].0, TransformValue(fields[i].1))))
    case Str(s) =>
      var t := Trim(s);
      if '\n' in t || '|' in t then DecodeBlock(t)
      else if ParsedContainer(t).Some? then
        ContainerIsContainer(t);
        TransformValue(ParsedContainer(t).value)
      else
        var l := LowerAscii(t);
        if l == "true" || l == "false" then Bool(l == "true")
        else if NumberOf(t).Some? && t == IntToString(NumberOf(t).value) then Num(NumberOf(t).value)
        else v
    case _ => v
  }

  /** The definition of `TransformValue` unfolded, branch by branch:
      containers are walked element by element (object keys unchanged),
      non-text leaves are returned as they are, and a text holding a line
      break or a `|` once trimmed is decoded as a block, with no further
      pass over the result; any other text that JSON.parse reads as a
      bracketed container is walked again as that container. The
      characterisations that do not restate the definition are
      `TransformBool`, `TransformNumber` and `TransformTextFallback`. */
  lemma TransformShape(v: Value)
    ensures v.Arr? ==> var r := TransformValue(v);
              r.Arr? && |r.items| == |v.items| &&
              forall i :: 0 <= i < |v.items| ==> r.items[i] == TransformValue(v.items[i])
    ensures v.Obj? ==> var r := TransformValue(v);
              r.Obj? && |r.fields| == |v.fields| &&
              forall i :: 0 <= i < |v.fields| ==>
                r.fields[i].0 == v.fields[i].0 && r.fields[i].1 == TransformValue(v.fields[i].1)
    ensures v.Num? || v.Bool? || v.Null? || v.Undef? ==> TransformValue(v) == v
    ensures v.Str? && ('\n' in Trim(v.s) || '|' in Trim(v.s)) ==> TransformValue(v) == DecodeBlock(Trim(v.s))
    ensures v.Str? && '\n' !in Trim(v.s) && '|' !in Trim(v.s) && ParsedContainer(Trim(v.s)).Some? ==>
              TransformValue(v) == TransformValue(ParsedContainer(Trim(v.s)).value)
  {
  }

  /** A bracketed text that JSON.parse accepts is an array or an object. */
  lemma ContainerIsContainer(t: string)
    requires ParsedContainer(t).Some?
    ensures ParsedContainer(t).value.Arr? || ParsedContainer(t).value.Obj?
  {
    assert t[0] == '{' || t[0] == '[';
    assert Json.SkipSpace(t) == t;
    Json.ParseContainer(t);
  }

  /** The steps before the boolean test only ever produce containers. */
  lemma EarlyStepsGiveContainers(s: string)
    requires var t := Trim(s); '\n' in t || '|' in t || ParsedContainer(t).Some?
    ensures TransformValue(Str(s)).Arr? || TransformValue(Str(s)).Obj?
  {
    var t := Trim(s);
    if '\n' in t || '|' in t {
      TransformShape(Str(s));
    } else {
      ContainerIsContainer(t);
      var c := ParsedContainer(t).value;
      assert TransformValue(Str(s)) == TransformValue(c);
      TransformShape(c);
    }
  }

  /** Lowering keeps every character that is not a capital letter. */
  lemma LowerKeeps(t: string, i: nat)
    requires i < |t| && !('A' <= t[i] <= 'Z')
    ensures LowerAscii(t)[i] == t[i]
  {
  }

  /** A text none of whose steps before the boolean test apply: no line
      break or `|`, and not a bracketed JSON container. */
  lemma NotEarly(t: string)
    requires LowerAscii(t) == "true" || LowerAscii(t) == "false" || (t != [] && (t[0] == '-' || IsDigit(t[0])) && forall i :: 0 <= i < |t| ==> t[i] == '-' || IsDigit(t[i]))
    ensures '\n' !in t && '|' !in t && ParsedContainer(t).None?
  {
    var l := LowerAscii(t);
    forall i | 0 <= i < |t| ensures t[i] != '\n' && t[i] != '|' {
      if t[i] == '\n' || t[i] == '|' {
        LowerKeeps(t, i);
      }
    }
    if Bracketed(t) {
      assert t[0] == '{' || t[0] == '[';
      LowerKeeps(t, 0);
    }
  }

  /** A text leaf becomes a boolean exactly when, trimmed, it is "true" or
      "false" in any mix of letter cases. */
  lemma TransformBool(s: string, b: bool)
    ensures TransformValue(Str(s)) == Bool(b) <==>
            LowerAscii(Trim(s)) == (if b then "true" else "false")
  {
    var t := Trim(s);
    var l := LowerAscii(t);
    if l == "true" || l == "false" {
      NotEarly(t);
    } else if '\n' in t || '|' in t || ParsedContainer(t).Some? {
      EarlyStepsGiveContainers(s);
    }
  }

  /** A text leaf becomes the number `n` exactly when, trimmed, it is the
      canonical decimal text of `n`: "007", "+7" and "" stay text. */
  lemma TransformNumber(s: string, n: int)
    ensures TransformValue(Str(s)) == Num(n) <==> Trim(s) == IntToString(n)
  {
    var t := Trim(s);
    if t == IntToString(n) {
      NotEarly(t);
      NumberOfIntToString(n);
      assert LowerAscii(t)[0] == t[0];
    } else if '\n' in t || '|' in t || ParsedContainer(t).Some? {
      EarlyStepsGiveContainers(s);
    }
  }

  /** A text leaf stays text exactly when, trimmed, it has no line break or
      `|`, is not a bracketed container JSON.parse accepts, is not "true" or
      "false" in any letter case and is not the canonical text of an
      integer; it is then returned as it was, surrounding blanks included. */
  lemma TransformTextFallback(s: string)
    ensures TransformValue(Str(s)).Str? <==>
              var t := Trim(s);
              && '\n' !in t && '|' !in t && ParsedContainer(t).None?
              && LowerAscii(t) != "true" && LowerAscii(t) != "false"
              && forall n: int :: t != IntToString(n)
    ensures TransformValue(Str(s)).Str? ==> TransformValue(Str(s)) == Str(s)
  {
    var t := Trim(s);
    if '\n' in t || '|' in t || ParsedContainer(t).Some? {
      EarlyStepsGiveContainers(s);
    } else if LowerAscii(t) == "true" || LowerAscii(t) == "false" {
      TransformBool(s, LowerAscii(t) == "true");
    } else if exists n: int :: t == IntToString(n) {
      var n: int :| t == IntToString(n);
      TransformNumber(s, n);
    }
  }

  lemma LowerTrue()
    ensures LowerAscii("true") == "true"
  {
    var l := LowerAscii("true");
    assert l[0] == 't' && l[1] == 'r' && l[2] == 'u' && l[3] == 'e';
  }

  /** The second pass over the decoded record turns its text "true" into a
      boolean. */
  lemma SecondPassExample()
    ensures TransformValue(Arr([Obj([("a", Str("true")), ("b", Num(1))])])) ==
            Arr([Obj([("a", Bool(true)), ("b", Num(1))])])
  {
    var rec: Record := [("a", Str("true")), ("b", Num(1))];
    LowerTrue();
    TrimOfTrimmed("true");
    TransformBool("true", true);
    TransformShape(Num(1));
    var r := TransformValue(Obj(rec));
    TransformShape(Obj(rec));
    assert r.fields == [("a", Bool(true)), ("b", Num(1))];
    TransformShape(Arr([Obj(rec)]));
  }

  /** transformData is not idempotent: a quoted 'true' inside a block
      decodes to the text "true", which a second pass turns into a
      boolean. */
  lemma TransformNotIdempotent()
    ensures TransformValue(Str("a:'true'|b:1")) == Arr([Obj([("a", Str("true")), ("b", Num(1))])])
    ensures TransformValue(TransformValue(Str("a:'true'|b:1"))) ==
            Arr([Obj([("a", Bool(true)), ("b", Num(1))])])
  {
    FirstPassExample();
    SecondPassExample();
  }

  /** The first pass decodes the block and keeps the quoted text. */
  lemma FirstPassExample()
    ensures TransformValue(Str("a:'true'|b:1")) == Arr([Obj([("a", Str("true")), ("b", Num(1))])])
  {
    BlockLaws.QuotedTrueExample();
    Text.TrimmedSample();
    BlockTextTransforms("a:'true'|b:1");
  }

  /** Text that is its own trim and holds a `|` is decoded as a block by
      the first pass. */
  lemma BlockTextTransforms(text: string)
    requires Trim(text) == text && '|' in text
    ensures TransformValue(Str(text)) == DecodeBlock(text)
  {
    TransformShape(Str(text));
  }
}

=== FILE: user_store.dfy ===
/** The user store: an in-memory list of users kept in step with the
    `'users'` entry of the browser's encrypted storage, here an abstract
    map from storage keys to stored lists. */
module UserStore {
  import opened JsValue

  /** `users.findIndex((user) => user.id === target)`, searching from
      position `from`. Reading `user.id` throws on a null or undefined user;
      `target` is the right-hand side, read after `user.id` on every step
      (updateUser reads `updatedUser.id` there, which throws on a null
      update). The result is -1 when no user matches. */
  function FindById(users: seq<Value>, target: Completion<Value>, from: nat): (r: Completion<int>)
    requires from <= |users|
    decreases |users| - from
    ensures r.Normal? && r.value >= 0 ==>
              from <= r.value < |users| && target.Normal? && Prop(users[r.value], "id") == target &&
              forall j :: from <= j < r.value ==> Prop(users[j], "id").Normal? && Prop(users[j], "id") != target
    ensures r.Normal? && r.value < 0 ==>
              r.value == -1 &&
              forall j :: from <= j < |users| ==> Prop(users[j], "id").Normal? && Prop(users[j], "id") != target
    ensures r.Throw? ==>
              from < |users| &&
              (target.Throw? || exists j :: from <= j < |users| && (users[j].Null? || users[j].Undef?))
    ensures r.Throw? && target.Normal? ==> r.error == TypeError
  {
    if from == |users| then Normal(-1)
    else
      match Prop(users[from], "id")
      case Throw(e) => Throw(e)
      case Normal(id) =>
        match target
        case Throw(e) => Throw(e)
        case Normal(t) => if id == t then Normal(from) else FindById(users, target, from + 1)
  }

  /** A search over users that all carry ids never throws when the target
      can be read, and finds the first user whose id is the target. */
  lemma {:induction false} FindByIdTotal(users: seq<Value>, t: Value, from: nat)
    requires from <= |users|
    requires forall j :: from <= j < |users| ==> !users[j].Null? && !users[j].Undef?
    decreases |users| - from
    ensures FindById(users, Normal(t), from).Normal?
    ensures FindById(users, Normal(t), from).value >= 0 <==>
            exists j :: from <= j < |users| && Prop(users[j], "id") == Normal(t)
  {
    if from < |users| {
      FindByIdTotal(users, t, from + 1);
    }
  }

  /** The list with position `i` removed: `splice(i, 1)`. */
  function RemoveAt(users: seq<Value>, i: nat): (r: seq<Value>)
    requires i < |users|
    ensures |r| == |users| - 1
    ensures forall j :: 0 <= j < i ==> r[j] == users[j]
    ensures forall j :: i <= j < |r| ==> r[j] == users[j + 1]
  {
    users[..i] + users[i + 1..]
  }

  class Store {
    /** `users.value`. */
    var users: seq<Value>
    /** The storage the store mirrors its list to, by key. */
    var storage: map<string, seq<Value>>

    /** The stored `'users'` list is the in-memory list; with nothing
        stored, the list is empty. */
    predicate Mirrored()
      reads this
    {
      if "users" in storage then storage["users"] == users else users == []
    }

    /** Creating the store reads the stored list, or starts empty when there
        is none. */
    constructor(stored: map<string, seq<Value>>)
      ensures storage == stored
      ensures users == if "users" in stored then stored["users"] else []
      ensures Mirrored()
    {
      storage := stored;
      users := if "users" in stored then stored["users"] else [];
    }

    /** `setUsers(newUsers)`: replace the list and store it. */
    method SetUsers(newUsers: seq<Value>)
      modifies this
      ensures users == newUsers
      ensures storage == old(storage)["users" := newUsers]
      ensures Mirrored()
    {
      users := newUsers;
      storage := storage["users" := newUsers];
    }

    /** `addUser(user)`: append and store. */
    method AddUser(user: Value)
      modifies this
      ensures users == old(users) + [user]
      ensures |users| == |old(users)| + 1 && users[..|old(users)|] == old(users)
      ensures storage == old(storage)["users" := users]
      ensures Mirrored()
    {
      users := users + [user];
      storage := storage["users" := users];
    }

    /** `updateUser(updatedUser)`: put the update in place of the first user
        with the same id and store the list; with no such user nothing
        changes. A search that throws changes nothing either. */
    method UpdateUser(updated: Value) returns (r: Completion<()>)
      requires Mirrored()
      modifies this
      ensures var found := FindById(old(users), Prop(updated, "id"), 0);
              match found
              case Throw(e) => r == Throw(e) && users == old(users) && storage == old(storage)
              case Normal(i) =>
                r == Normal(()) &&
                if i < 0 then users == old(users) && storage == old(storage)
                else users == old(users)[i := updated] && storage == old(storage)["users" := users]
      ensures Mirrored()
    {
      var found := FindById(users, Prop(updated, "id"), 0);
      if found.Throw? {
        return Throw(found.error);
      }
      var index := found.value;
      if index != -1 {
        users := users[index := updated];
        storage := storage["users" := users];
      }
      r := Normal(());
    }

    /** `deleteUser(userId)`: remove the first user with that id, keeping
        the order of the rest, and store the list; with no such user nothing
        changes. */
    method DeleteUser(userId: Value) returns (r: Completion<()>)
      requires Mirrored()
      modifies this
      ensures var found := FindById(old(users), Normal(userId), 0);
              match found
              case Throw(e) => r == Throw(e) && users == old(users) && storage == old(storage)
              case Normal(i) =>
                r == Normal(()) &&
                if i < 0 then users == old(users) && storage == old(storage)
                else users == RemoveAt(old(users), i) && storage == old(storage)["users" := users]
      ensures Mirrored()
    {
      var found := FindById(users, Normal(userId), 0);
      if found.Throw? {
        return Throw(found.error);
      }
      var index := found.value;
      if index != -1 {
        users := RemoveAt(users, index);
        storage := storage["users" := users];
      }
      r := Normal(());
    }

    /** `clearUsers()`: empty the list and remove the stored entry. */
    method ClearUsers()
      modifies this
      ensures users == []
      ensures storage == old(storage) - {"users"}
      ensures Mirrored()
    {
      users := [];
      storage := storage - {"users"};
    }
  }
}

=== FILE: value_codec.dfy ===
/** The single-value text codec: `formatValueToString` writes a value as
    text and `parseValueString` reads it back, trying an object or array,
    a number, a boolean, a single-quoted string and finally the raw text.
    The regular-expression rewrites both sides apply are written out as
    left-to-right scanners that make the same choices the regular
    expression engine makes. */
module ValueCodec {
  import opened Opt
  import opened Text
  import opened JsNumber
  import opened JsValue
  import Json

  /** Characters that `.` does not match in a JavaScript regular expression. */
  predicate IsLineTerminator(c: char) {
    c == '\n' || c == '\r' || c == '\U{2028}' || c == '\U{2029}'
  }

  /** `[a-zA-Z_$]` */
  predicate IsIdentStart(c: char) {
    'a' <= c <= 'z' || 'A' <= c <= 'Z' || c == '_' || c == '$'
  }

  /** `[a-zA-Z0-9_$]` */
  predicate IsIdentChar(c: char) {
    IsIdentStart(c) || IsDigit(c)
  }

  /** The length of the longest run of identifier characters at the front. */
  function IdentRun(s: string): (n: nat)
    ensures n <= |s|
    ensures forall k :: 0 <= k < n ==> IsIdentChar(s[k])
    ensures n < |s| ==> !IsIdentChar(s[n])
  {
    if s == [] || !IsIdentChar(s[0]) then 0 else 1 + IdentRun(s[1..])
  }

  /** `r` is `s` with some occurrences of `from` turned into `to` and
      every other character kept in place. */
  predicate Requoted(s: string, r: string, from: char, to: char) {
    |r| == |s| && forall k {:trigger r[k]} :: 0 <= k < |s| ==> r[k] == s[k] || (s[k] == from && r[k] == to)
  }

  lemma RequotedCons(s: string, c: char, more: string, from: char, to: char)
    requires s != [] && c == s[0] && Requoted(s[1..], more, from, to)
    ensures Requoted(s, [c] + more, from, to)
  {
    forall k | 0 <= k < |s|
      ensures ([c] + more)[k] == s[k] || (s[k] == from && ([c] + more)[k] == to)
    {
      if k > 0 {
        assert s[k] == s[1..][k - 1];
      }
    }
  }

  /** A `from` pair around `s[1..e]` becomes a `to` pair. */
  lemma RequotedPair(s: string, e: nat, more: string, from: char, to: char)
    requires 1 <= e < |s| && s[0] == from && s[e] == from
    requires Requoted(s[e + 1..], more, from, to)
    ensures Requoted(s, [to] + s[1..e] + [to] + more, from, to)
  {
    var r := [to] + s[1..e] + [to] + more;
    forall k | 0 <= k < |s|
      ensures r[k] == s[k] || (s[k] == from && r[k] == to)
    {
      if 0 < k < e {
        assert r[k] == s[1..e][k - 1];
      } else if k > e {
        assert r[k] == more[k - e - 1];
        assert s[k] == s[e + 1..][k - e - 1];
      }
    }
  }

  /** `s` with every `c` removed. */
  function Without(s: string, c: char): (r: string)
    ensures |r| <= |s| && c !in r
  {
    if s == [] then []
    else if s[0] == c then Without(s[1..], c)
    else [s[0]] + Without(s[1..], c)
  }

  lemma ConsWithout(x: char, m: string, c: char)
    ensures Without([x] + m, c) == (if x == c then [] else [x]) + Without(m, c)
  {
    assert ([x] + m)[1..] == m;
  }

  /** Text free of `c` survives its removal, whatever follows it. */
  lemma {:induction false} RunWithout(k: string, m: string, c: char)
    requires c !in k
    ensures Without(k + m, c) == k + Without(m, c)
  {
    if k != [] {
      assert k[0] in k;
      RunWithout(k[1..], m, c);
      assert k + m == [k[0]] + (k[1..] + m);
      ConsWithout(k[0], k[1..] + m, c);
      assert k + Without(m, c) == [k[0]] + (k[1..] + Without(m, c));
    } else {
      assert k + m == m && k + Without(m, c) == Without(m, c);
    }
  }

  /** A key with or without `c` around it reads the same once `c` is
      removed. */
  lemma KeyWithout(k: string, sep: char, m: string, c: char)
    requires c !in k && sep != c
    ensures Without([c] + k + [c] + [sep] + m, c) == k + [sep] + Without(m, c)
    ensures Without(k + [sep] + m, c) == k + [sep] + Without(m, c)
  {
    RunWithout(k, [c] + [sep] + m, c);
    assert [c] + k + [c] + [sep] + m == [c] + (k + ([c] + [sep] + m));
    ConsWithout(c, k + ([c] + [sep] + m), c);
    ConsWithout(c, [sep] + m, c);
    assert [c] + [sep] + m == [c] + ([sep] + m);
    ConsWithout(sep, m, c);
    RunWithout(k, [sep] + m, c);
    assert k + [sep] + m == k + ([sep] + m);
  }

  /** Quoting the run `s[..n]` in front of a colon keeps the text once
      double quotes are removed. */
  lemma QuotedKeyStep(s: string, n: nat, more: string)
    requires n < |s| && s[n] == ':' && forall k :: 0 <= k < n ==> IsIdentChar(s[k])
    requires |more| >= |s[n + 1..]| && Without(more, '"') == Without(s[n + 1..], '"')
    ensures var r := "\"" + s[..n] + "\":" + more;
            |r| >= |s| && Without(r, '"') == Without(s, '"')
  {
    assert s == s[..n] + ":" + s[n + 1..];
    assert '"' !in s[..n];
    assert "\"" + s[..n] + "\":" + more == ['"'] + s[..n] + ['"'] + ":" + more;
    KeyQuotesWithout('"', s[..n], more);
    KeyQuotesWithout('"', s[..n], s[n + 1..]);
  }

  /** Unquoting the run `s[1..n + 1]` between single quotes in front of a
      colon keeps the text once single quotes are removed. */
  lemma UnquotedKeyStep(s: string, n: nat, more: string)
    requires n + 2 < |s| && s[0] == '\'' && s[n + 1] == '\'' && s[n + 2] == ':'
    requires forall k :: 1 <= k < n + 1 ==> IsIdentChar(s[k])
    requires |more| <= |s[n + 3..]| && Without(more, '\'') == Without(s[n + 3..], '\'')
    ensures var r := s[1..n + 1] + ":" + more;
            |r| <= |s| && Without(r, '\'') == Without(s, '\'')
  {
    assert s == ['\''] + s[1..n + 1] + ['\''] + ":" + s[n + 3..];
    assert '\'' !in s[1..n + 1];
    KeyQuotesWithout('\'', s[1..n + 1], more);
    KeyQuotesWithout('\'', s[1..n + 1], s[n + 3..]);
  }

  /** Removing the quote `q` from a key quoted with it, or from a bare key,
      leaves the bare key. */
  lemma KeyQuotesWithout(q: char, k: string, m: string)
    requires q != ':' && q !in k
    ensures Without([q] + k + [q] + ":" + m, q) == k + ":" + Without(m, q)
    ensures Without(k + ":" + m, q) == k + ":" + Without(m, q)
  {
    KeyWithout(k, ':', m, q);
    assert [q] + k + [q] + ":" + m == [q] + k + [q] + [':'] + m;
    assert k + ":" + m == k + [':'] + m;
  }

  /** Where the literal body `[^'\\]*(?:\\.[^'\\]*)*` followed by `'`
      ends, for a text after an opening `'`: the index of the closing quote.
      A backslash takes the next character with it unless that is a line
      terminator; the body cannot end in the middle of such a pair. */
  function SingleQuotedEnd(u: string): (r: Option<nat>)
    ensures r.Some? ==> r.value < |u| && u[r.value] == '\''
  {
    if u == [] then None
    else if u[0] == '\'' then Some(0)
    else if u[0] == '\\' then
      if |u| >= 2 && !IsLineTerminator(u[1]) then
        match SingleQuotedEnd(u[2..])
        case None => None
        case Some(j) => Some(j + 2)
      else None
    else
      match SingleQuotedEnd(u[1..])
      case None => None
      case Some(j) => Some(j + 1)
  }

  /** The rewrite `'...'` to `"..."` (useEssentials.js line 76). A quote
      that opens no complete literal is kept. The first character changes
      only when a literal starts there. */
  function DoubleQuoteLiterals(s: string): (r: string)
    ensures s != [] ==> r != [] && (r[0] == s[0] || (s[0] == '\'' && r[0] == '"'))
    ensures '\'' !in s ==> r == s
    ensures Requoted(s, r, '\'', '"')
    ensures s != [] && s[0] == '\'' ==> (r[0] == '"' <==> SingleQuotedEnd(s[1..]).Some?)
  {
    if s == [] then []
    else if s[0] == '\'' then
      match SingleQuotedEnd(s[1..])
      case Some(j) =>
        var more := DoubleQuoteLiterals(s[j + 2..]);
        RequotedPair(s, j + 1, more, '\'', '"');
        "\"" + s[1..1 + j] + "\"" + more
      case None =>
        var more := DoubleQuoteLiterals(s[1..]);
        RequotedCons(s, s[0], more, '\'', '"');
        [s[0]] + more
    else
      var more := DoubleQuoteLiterals(s[1..]);
      RequotedCons(s, s[0], more, '\'', '"');
      [s[0]] + more
  }

  /** The rewrite `ident:` to `"ident":` (useEssentials.js line 77). It
      applies everywhere in the text, inside string literals too. */
  function QuoteBareKeys(s: string): (r: string)
    ensures s != [] ==> r != [] && (r[0] == s[0] || (IsIdentStart(s[0]) && r[0] == '"'))
    ensures ':' !in s ==> r == s
    ensures |r| >= |s| && Without(r, '"') == Without(s, '"')
  {
    if s == [] then []
    else if IsIdentStart(s[0]) then
      var n := IdentRun(s);
      if n < |s| && s[n] == ':' then
        var more := QuoteBareKeys(s[n + 1..]);
        QuotedKeyStep(s, n, more);
        "\"" + s[..n] + "\":" + more
      else
        assert s == s[..n] + s[n..];
        var more := QuoteBareKeys(s[n..]);
        RunWithout(s[..n], more, '"');
        RunWithout(s[..n], s[n..], '"');
        s[..n] + more
    else
      var more := QuoteBareKeys(s[1..]);
      ConsWithout(s[0], more, '"');
      ConsWithout(s[0], s[1..], '"');
      assert s == [s[0]] + s[1..];
      [s[0]] + more
  }

  /** The rewrite `"..."` to `'...'` whose closing quote is not preceded
      by a backslash (useEssentials.js line 121). The candidate closing
      quote is always the next `"`; when a backslash precedes it, the
      opening quote is kept and the scan resumes after it. */
  function SingleQuoteStrings(s: string): (r: string)
    ensures s != [] ==> r != []
    ensures '"' !in s ==> r == s
    ensures Requoted(s, r, '"', '\'')
  {
    if s == [] then []
    else if s[0] == '"' then
      var j := IndexOf(s[1..], '"');
      if 0 <= j && s[j] != '\\' then
        var more := SingleQuoteStrings(s[j + 2..]);
        RequotedPair(s, j + 1, more, '"', '\'');
        "'" + s[1..1 + j] + "'" + more
      else
        var more := SingleQuoteStrings(s[1..]);
        RequotedCons(s, s[0], more, '"', '\'');
        [s[0]] + more
    else
      var more := SingleQuoteStrings(s[1..]);
      RequotedCons(s, s[0], more, '"', '\'');
      [s[0]] + more
  }

  /** The rewrite `'ident':` to `ident:` (useEssentials.js line 122). */
  function UnquoteIdentKeys(s: string): (r: string)
    ensures s != [] ==> r != []
    ensures '\'' !in s ==> r == s
    ensures |r| <= |s| && Without(r, '\'') == Without(s, '\'')
  {
    if s == [] then []
    else if s[0] == '\'' && |s| >= 2 && IsIdentStart(s[1]) then
      var n := IdentRun(s[1..]);
      if n + 2 < |s| && s[n + 1] == '\'' && s[n + 2] == ':' then
        var more := UnquoteIdentKeys(s[n + 3..]);
        UnquotedKeyStep(s, n, more);
        s[1..n + 1] + ":" + more
      else
        var more := UnquoteIdentKeys(s[1..]);
        ConsWithout(s[0], more, '\'');
        ConsWithout(s[0], s[1..], '\'');
        assert s == [s[0]] + s[1..];
        [s[0]] + more
    else
      var more := UnquoteIdentKeys(s[1..]);
      ConsWithout(s[0], more, '\'');
      ConsWithout(s[0], s[1..], '\'');
      assert s == [s[0]] + s[1..];
      [s[0]] + more
  }

  /** `[a-zA-Z_$][a-zA-Z0-9_$]*` */
  predicate IsIdentifier(k: string) {
    k != [] && IsIdentStart(k[0]) && forall i :: 0 <= i < |k| ==> IsIdentChar(k[i])
  }

  /** The identifier run of an identifier followed by something else is
      the identifier. */
  lemma IdentRunOf(k: string, rest: string)
    requires IsIdentifier(k) && rest != [] && !IsIdentChar(rest[0])
    ensures IdentRun(k + rest) == |k|
  {
    assert forall i :: 0 <= i < |k| ==> (k + rest)[i] == k[i];
    assert (k + rest)[|k|] == rest[0];
  }

  /** The first `c` after a text free of `c`. */
  lemma IndexAfter(b: string, c: char, rest: string)
    requires c !in b
    ensures IndexOf(b + [c] + rest, c) == |b|
  {
    var u := b + [c] + rest;
    assert u[|b|] == c;
  }

  /** A body free of quotes and backslashes ends at the next quote. */
  lemma {:induction false} LiteralEnd(b: string, rest: string)
    requires '\'' !in b && '\\' !in b
    ensures SingleQuotedEnd(b + "'" + rest) == Some(|b|)
  {
    if b != [] {
      assert b[0] in b;
      assert b[1..] + "'" + rest == (b + "'" + rest)[1..];
      LiteralEnd(b[1..], rest);
    }
  }

  /** A complete single-quoted literal becomes a double-quoted one with the
      same body, and the rewrite carries on after it. */
  lemma DoubleQuotesLiteral(b: string, rest: string)
    requires '\'' !in b && '\\' !in b
    ensures DoubleQuoteLiterals("'" + b + "'" + rest) == "\"" + b + "\"" + DoubleQuoteLiterals(rest)
  {
    var s := "'" + b + "'" + rest;
    LiteralEnd(b, rest);
    assert s[1..] == b + "'" + rest;
    assert s[1..1 + |b|] == b && s[|b| + 2..] == rest;
  }

  /** A backslash keeps the quote after it inside the literal. */
  lemma EscapedQuoteInLiteral()
    ensures DoubleQuoteLiterals("'it\\'s'") == "\"it\\'s\""
  {
    var s := "'it\\'s'";
    assert SingleQuotedEnd(s[1..]) == Some(5) by {
      assert s[1..][1..] == "t\\'s'";
      assert s[1..][1..][1..] == "\\'s'";
      assert s[1..][1..][1..][2..] == "s'";
      assert "s'"[1..] == "'";
    }
    assert s[6 + 1..] == [];
  }

  /** An identifier followed by a colon gains double quotes. */
  lemma BareKeyQuoted(k: string, rest: string)
    requires IsIdentifier(k)
    ensures QuoteBareKeys(k + ":" + rest) == "\"" + k + "\":" + QuoteBareKeys(rest)
  {
    var s := k + ":" + rest;
    assert s == k + (":" + rest);
    assert s[0] == k[0] && IsIdentStart(s[0]);
    IdentRunOf(k, ":" + rest);
    assert s[|k|] == ':';
    assert s[..|k|] == k && s[|k| + 1..] == rest;
  }

  /** A double-quoted text whose closing quote has no backslash before it
      becomes single-quoted, and the rewrite carries on after it. */
  lemma StringSingleQuoted(b: string, rest: string)
    requires '"' !in b && (b == [] || b[|b| - 1] != '\\')
    ensures SingleQuoteStrings("\"" + b + "\"" + rest) == "'" + b + "'" + SingleQuoteStrings(rest)
  {
    var s := "\"" + b + "\"" + rest;
    assert s[1..] == b + "\"" + rest;
    IndexAfter(b, '"', rest);
    assert s[|b|] != '\\';
    assert s[1..1 + |b|] == b && s[|b| + 2..] == rest;
  }

  /** When a backslash precedes the next double quote, the opening quote is
      kept and the scan resumes right after it. */
  lemma EscapedCloseKept(b: string, rest: string)
    requires '"' !in b && b != [] && b[|b| - 1] == '\\'
    ensures SingleQuoteStrings("\"" + b + "\"" + rest) == "\"" + SingleQuoteStrings(b + "\"" + rest)
  {
    var s := "\"" + b + "\"" + rest;
    assert s[1..] == b + "\"" + rest;
    IndexAfter(b, '"', rest);
    assert s[|b|] == '\\';
  }

  /** A single-quoted identifier followed by a colon loses its quotes. */
  lemma IdentKeyUnquoted(k: string, rest: string)
    requires IsIdentifier(k)
    ensures UnquoteIdentKeys("'" + k + "':" + rest) == k + ":" + UnquoteIdentKeys(rest)
  {
    var s := "'" + k + "':" + rest;
    assert s[1..] == k + ("':" + rest);
    assert s[0] == '\'' && IsIdentStart(s[1]);
    IdentRunOf(k, "':" + rest);
    assert s[|k| + 1] == '\'' && s[|k| + 2] == ':';
    assert s[1..|k| + 1] == k && s[|k| + 3..] == rest;
  }

  /** `replace(/'/g, "\\'")`: every quote gains a backslash. */
  function EscapeQuotes(s: string): (r: string)
    ensures |r| >= |s|
    ensures s != [] ==> r != [] && r[0] != '\''
    ensures '\'' !in s ==> r == s
    ensures forall c :: c != '\'' && c != '\\' ==> (c in r <==> c in s)
  {
    if s == [] then []
    else if s[0] == '\'' then "\\'" + EscapeQuotes(s[1..])
    else [s[0]] + EscapeQuotes(s[1..])
  }

  /** `replace(/\\'/g, "'")`: every backslash-quote pair loses its
      backslash. */
  function UnescapeQuotes(s: string): (r: string)
    ensures |r| <= |s|
  {
    if s == [] then []
    else if |s| >= 2 && s[0] == '\\' && s[1] == '\'' then "'" + UnescapeQuotes(s[2..])
    else [s[0]] + UnescapeQuotes(s[1..])
  }

  /** Step 1 of parseValueString: the text rewritten and handed to
      JSON.parse, kept only when it yields an object or an array. */
  function ObjectLiteral(t: string): (r: Option<Value>)
    ensures r.Some? ==> r.value.Arr? || r.value.Obj?
  {
    match Json.Parse(QuoteBareKeys(DoubleQuoteLiterals(t)))
    case Some(v) => if v.Arr? || v.Obj? then Some(v) else None
    case None => None
  }

  predicate IsQuoted(t: string) {
    StartsWith(t, "'") && EndsWith(t, "'")
  }

  /** `parseValueString(valueString)`. It never throws: a JSON failure
      falls through to the later steps. A one-character text `'` is both
      opened and closed by the same quote; `substring(1, 0)` then swaps its
      bounds and returns that quote. */
  function ParseValueString(t: string): (r: Value)
    ensures !r.Null? && !r.Undef?
    ensures r.Num? ==> IsNumeric(t) && NumberOf(t) == Some(r.n)
    ensures r.Bool? ==> t == (if r.b then "true" else "false")
    ensures r.Str? ==> |r.s| <= |t|
    ensures r.Str? && !IsQuoted(t) ==> r.s == t
    ensures ObjectLiteral(t).Some? ==> r == ObjectLiteral(t).value
    ensures ObjectLiteral(t).None? && IsNumeric(t) ==> r == Num(NumberOf(t).value)
    ensures ObjectLiteral(t).None? && !IsNumeric(t) && (t == "true" || t == "false") ==> r == Bool(t == "true")
    ensures ObjectLiteral(t).None? && !IsNumeric(t) && t != "true" && t != "false" && IsQuoted(t) && |t| >= 2 ==>
              r == Str(UnescapeQuotes(t[1..|t| - 1]))
  {
    match ObjectLiteral(t)
    case Some(v) => v
    case None =>
      if IsNumeric(t) then Num(NumberOf(t).value)
      else if t == "true" then Bool(true)
      else if t == "false" then Bool(false)
      else if IsQuoted(t) then
        if |t| >= 2 then Str(UnescapeQuotes(t[1..|t| - 1])) else Str(t)
      else Str(t)
  }

  /** `formatValueToString(value)`. */
  function FormatValueToString(v: Value): (r: string)
    ensures r != []
    ensures v.Str? ==> |r| >= 2 && r[0] == '\'' && r[|r| - 1] == '\''
    ensures v.Num? ==> r == IntToString(v.n)
    ensures v.Bool? ==> r == (if v.b then "true" else "false")
  {
    match v
    case Str(s) => "'" + EscapeQuotes(s) + "'"
    case Num(n) => IntToString(n)
    case Bool(b) => if b then "true" else "false"
    case Null => "null"
    case Undef => "undefined"
    case _ =>
      UnquoteIdentKeys(SingleQuoteStrings(Json.Stringify(v)))
  }

  /** Unescaping undoes escaping for every text, backslashes included: a
      backslash of the original is never followed by a quote after
      escaping, because every quote gained a backslash of its own. */
  lemma {:induction false} UnescapeEscape(s: string)
    ensures UnescapeQuotes(EscapeQuotes(s)) == s
  {
    if s != [] {
      UnescapeEscape(s[1..]);
      if s[0] == '\'' {
        assert EscapeQuotes(s) == "\\'" + EscapeQuotes(s[1..]);
        assert EscapeQuotes(s)[2..] == EscapeQuotes(s[1..]);
      } else {
        var e := EscapeQuotes(s[1..]);
        assert EscapeQuotes(s) == [s[0]] + e;
        assert e != [] ==> e[0] != '\'';
        assert ([s[0]] + e)[1..] == e;
      }
    }
  }

  /** Only a text that starts with `[` or `{` (or with JSON white space)
      can take the object/array step: both rewrites keep the first
      character or turn it into `"`. */
  lemma ObjectLiteralNeedsBracket(t: string)
    requires t != [] && t[0] != '[' && t[0] != '{' && !Json.IsJsonSpace(t[0])
    ensures ObjectLiteral(t).None?
  {
    var u := QuoteBareKeys(DoubleQuoteLiterals(t));
    assert u[0] == t[0] || u[0] == '"';
    assert Json.SkipSpace(u) == u;
    if Json.Parse(u).Some? {
      Json.ParseContainer(u);
    }
  }

  /** A numeric text takes the number step, whatever its blanks, sign or
      leading zeros: the JSON step cannot claim it. */
  lemma NumericTextReadsAsNumber(t: string)
    requires IsNumeric(t)
    ensures ParseValueString(t) == Num(NumberOf(t).value)
  {
    NumericChars(t);
    assert '\'' !in t && ':' !in t;
    assert DoubleQuoteLiterals(t) == t;
    assert QuoteBareKeys(t) == t;
    if Json.Parse(t).Some? {
      Json.ParseContainer(t);
      Json.SkipSpaceSuffix(t);
      var s := Json.SkipSpace(t);
      assert s[0] == t[|t| - |s|] && s[0] in t;
      assert s[0] != '[' && s[0] != '{';
    }
  }

  /** Leading zeros and surrounding blanks do not stop the number step. */
  lemma LenientNumbersRead()
    ensures ParseValueString("007") == Num(7)
    ensures ParseValueString(" 5") == Num(5)
  {
    LenientNumberText();
    NumericTextReadsAsNumber("007");
    NumericTextReadsAsNumber(" 5");
  }

  /** A text whose first character is not blank, not a sign and not a
      digit is not a number. */
  lemma NotNumeric(t: string)
    requires t != [] && !IsSpace(t[0]) && !IsDigit(t[0]) && t[0] != '-' && t[0] != '+'
    ensures !IsNumeric(t)
  {
    var u := Trim(t);
    assert TrimStart(t) == t;
    TrimEndPrefix(t);
    assert u != [] && u[0] == t[0];
  }

  /** The steps of parseValueString a text skips when it starts with a
      character that opens neither a container nor a number. */
  lemma ParsePlainText(t: string)
    requires t != [] && t[0] != '[' && t[0] != '{' && !IsSpace(t[0])
    requires !IsDigit(t[0]) && t[0] != '-' && t[0] != '+'
    ensures ParseValueString(t) ==
      if t == "true" then Bool(true)
      else if t == "false" then Bool(false)
      else if IsQuoted(t) then (if |t| >= 2 then Str(UnescapeQuotes(t[1..|t| - 1])) else Str(t))
      else Str(t)
  {
    ObjectLiteralNeedsBracket(t);
    NotNumeric(t);
  }

  /** For every string, formatting then parsing gives it back. */
  lemma StringRoundTrip(s: string)
    ensures ParseValueString(FormatValueToString(Str(s))) == Str(s)
  {
    var e := EscapeQuotes(s);
    var t := FormatValueToString(Str(s));
    assert t == "'" + e + "'";
    QuotedBody(e);
    ParsePlainText(t);
    assert t[0] != "true"[0] && t[0] != "false"[0];
    UnescapeEscape(s);
  }

  /** A text between two quotes is quoted, and its body is that text. */
  lemma QuotedBody(e: string)
    ensures IsQuoted("'" + e + "'") && ("'" + e + "'")[1..|e| + 1] == e
  {
    var t := "'" + e + "'";
    assert t[..1] == "'";
    assert t[|t| - 1..] == "'";
  }

  /** Every integer formats to its decimal text and parses back to itself. */
  lemma NumberRoundTrip(n: int)
    ensures ParseValueString(FormatValueToString(Num(n))) == Num(n)
  {
    var t := IntToString(n);
    ObjectLiteralNeedsBracket(t);
    NumberOfIntToString(n);
  }

  lemma BoolRoundTrip(b: bool)
    ensures ParseValueString(FormatValueToString(Bool(b))) == Bool(b)
  {
    ParsePlainText(FormatValueToString(Bool(b)));
  }

  /** A word that is neither `true` nor `false` reads back as text. */
  lemma PlainWord(t: string)
    requires t != [] && 'a' <= t[0] <= 'z' && t != "true" && t != "false"
    ensures ParseValueString(t) == Str(t)
  {
    ParsePlainText(t);
    assert t[..1][0] != '\'';
  }

  /** Null formats as the word `null`, and that word reads back as a
      string, not as null. */
  lemma NullReadsBackAsText()
    ensures FormatValueToString(Null) == "null"
    ensures ParseValueString("null") == Str("null")
  {
    PlainWord("null");
  }

  /** Undefined formats as the word `undefined`, which reads back as a
      string. */
  lemma UndefinedReadsBackAsText()
    ensures FormatValueToString(Undef) == "undefined"
    ensures ParseValueString("undefined") == Str("undefined")
  {
    PlainWord("undefined");
  }

  /** A number needs both Number() and parseFloat(): the empty text, which
      Number() reads as 0, stays the empty string. */
  lemma EmptyTextStaysText()
    ensures ParseValueString("") == Str("")
  {
  }
}

=== FILE: values.dfy ===
/** JavaScript values as the codec, the filters and the query builders see
    them, with the object operations they use: property lookup `obj[k]`,
    assignment `obj[k] = v`, a run of assignments (the loop bodies of
    convertStringToJSON and mapFilter, Object.assign and object spread),
    truthiness, `String(v)` and `Object.entries`. */
module JsValue {
  import opened Opt
  import opened Text
  import opened JsNumber

  /** A JavaScript value. Objects keep their own properties in insertion
      order; a well-formed object never has a key twice (UniqueKeys). */
  datatype Value =
    | Str(s: string)
    | Num(n: int)
    | Bool(b: bool)
    | Null
    | Undef
    | Arr(items: seq<Value>)
    | Obj(fields: seq<(string, Value)>)

  /** The own properties of an object, in order. */
  type Record = seq<(string, Value)>

  /** How a JavaScript call ends: with a value, or by throwing an error that
      the code does not catch. */
  datatype Completion<+T> = Normal(value: T) | Throw(error: string)

  const TypeError := "TypeError"

  predicate HasKey(r: Record, k: string) {
    exists i :: 0 <= i < |r| && r[i].0 == k
  }

  predicate UniqueKeys(r: Record) {
    forall i, j :: 0 <= i < j < |r| ==> r[i].0 != r[j].0
  }

  /** The position of property `k`, or -1. */
  function KeyIndex(r: Record, k: string): (i: int)
    ensures -1 <= i < |r|
    ensures i == -1 <==> !HasKey(r, k)
    ensures 0 <= i ==> r[i].0 == k && forall j :: 0 <= j < i ==> r[j].0 != k
  {
    if r == [] then -1
    else if r[0].0 == k then 0
    else
      var j := KeyIndex(r[1..], k);
      if j == -1 then
        assert forall i :: 1 <= i < |r| ==> r[i].0 == r[1..][i - 1].0;
        -1
      else j + 1
  }

  /** `obj[k]`: the property's value, or undefined when it is absent. */
  function Get(r: Record, k: string): Value {
    var i := KeyIndex(r, k);
    if i < 0 then Undef else r[i].1
  }

  lemma KeyIndexIs(r: Record, k: string, i: int)
    requires 0 <= i < |r| && r[i].0 == k
    requires forall j :: 0 <= j < i ==> r[j].0 != k
    ensures KeyIndex(r, k) == i
  {
  }

  /** Lookups only depend on the keys and their order. */
  lemma KeyIndexSameKeys(r: Record, r': Record, k: string)
    requires |r| == |r'| && forall j :: 0 <= j < |r| ==> r[j].0 == r'[j].0
    ensures KeyIndex(r, k) == KeyIndex(r', k)
  {
    if HasKey(r, k) {
      KeyIndexIs(r', k, KeyIndex(r, k));
    } else {
      assert !HasKey(r', k);
    }
  }

  lemma KeyIndexAppend(r: Record, p: (string, Value), k: string)
    ensures KeyIndex(r + [p], k) == if HasKey(r, k) then KeyIndex(r, k)
                                    else if p.0 == k then |r| else -1
  {
    var r' := r + [p];
    if HasKey(r, k) {
      KeyIndexIs(r', k, KeyIndex(r, k));
    } else if p.0 == k {
      KeyIndexIs(r', k, |r|);
    } else {
      assert !HasKey(r', k);
    }
  }

  /** `obj[k] = v`: an existing property keeps its position and takes the new
      value; a new property goes at the end. What that means for lookups is
      stated by PutGet, PutHasKey and PutShape. */
  function Put(r: Record, k: string, v: Value): Record
  {
    var i := KeyIndex(r, k);
    if i < 0 then r + [(k, v)] else r[i := (k, v)]
  }

  /** After `obj[k] = v`, `obj[k]` is `v` and every other key reads as
      before. */
  lemma PutGet(r: Record, k: string, v: Value)
    ensures Get(Put(r, k, v), k) == v
    ensures forall k' :: k' != k ==> Get(Put(r, k, v), k') == Get(r, k')
  {
    var i := KeyIndex(r, k);
    var r' := Put(r, k, v);
    if i < 0 {
      forall k' ensures KeyIndex(r', k') == if HasKey(r, k') then KeyIndex(r, k')
                                            else if k == k' then |r| else -1 {
        KeyIndexAppend(r, (k, v), k');
      }
    } else {
      forall k' ensures KeyIndex(r', k') == KeyIndex(r, k') {
        KeyIndexSameKeys(r, r', k');
      }
    }
  }

  /** `obj[k] = v` adds exactly the key `k`. */
  lemma PutHasKey(r: Record, k: string, v: Value, k': string)
    ensures HasKey(Put(r, k, v), k') <==> HasKey(r, k') || k' == k
  {
    var i := KeyIndex(r, k);
    var r' := Put(r, k, v);
    if i < 0 {
      KeyIndexAppend(r, (k, v), k');
    } else {
      KeyIndexSameKeys(r, r', k');
    }
  }

  /** The old keys keep their places, keys stay distinct, a new key goes at
      the end, and every entry is an old one or the assigned one. */
  lemma PutShape(r: Record, k: string, v: Value)
    ensures |r| <= |Put(r, k, v)|
    ensures forall j :: 0 <= j < |r| ==> Put(r, k, v)[j].0 == r[j].0
    ensures UniqueKeys(r) ==> UniqueKeys(Put(r, k, v))
    ensures !HasKey(r, k) ==> Put(r, k, v) == r + [(k, v)]
    ensures forall j :: 0 <= j < |Put(r, k, v)| ==>
              Put(r, k, v)[j] in r || Put(r, k, v)[j] == (k, v)
  {
    var i := KeyIndex(r, k);
    var r' := Put(r, k, v);
    if 0 <= i {
      forall j | 0 <= j < |r'| ensures r'[j] in r || r'[j] == (k, v) {
        if j != i { assert r'[j] == r[j]; }
      }
    }
  }

  /** The assignments `obj[p.0] = p.1` for each pair `p` of `ps`, in order. */
  function PutAll(r: Record, ps: Record): Record
  {
    if ps == [] then r
    else
      var last := ps[|ps| - 1];
      Put(PutAll(r, ps[..|ps| - 1]), last.0, last.1)
  }

  /** The value bound to `k` by the last pair that names it. */
  function LastBinding(ps: Record, k: string): Option<Value>
  {
    if ps == [] then None
    else if ps[|ps| - 1].0 == k then Some(ps[|ps| - 1].1)
    else LastBinding(ps[..|ps| - 1], k)
  }

  /** After a run of assignments, each key holds the value of the last
      assignment to it, and any other key is untouched. */
  lemma {:induction false} PutAllGet(r: Record, ps: Record, k: string)
    ensures Get(PutAll(r, ps), k) == match LastBinding(ps, k)
                                     case Some(v) => v
                                     case None => Get(r, k)
  {
    if ps != [] {
      var last := ps[|ps| - 1];
      PutAllGet(r, ps[..|ps| - 1], k);
      PutGet(PutAll(r, ps[..|ps| - 1]), last.0, last.1);
    }
  }

  /** A run of assignments adds exactly the assigned keys. */
  lemma {:induction false} PutAllHasKey(r: Record, ps: Record, k: string)
    ensures HasKey(PutAll(r, ps), k) <==> HasKey(r, k) || HasKey(ps, k)
  {
    if ps != [] {
      var init := ps[..|ps| - 1];
      PutAllHasKey(r, init, k);
      PutHasKey(PutAll(r, init), ps[|ps| - 1].0, ps[|ps| - 1].1, k);
      assert HasKey(ps, k) <==> HasKey(init, k) || ps[|ps| - 1].0 == k by {
        if HasKey(ps, k) && ps[|ps| - 1].0 != k {
          var i :| 0 <= i < |ps| && ps[i].0 == k;
          assert init[i].0 == k;
        }
        if HasKey(init, k) {
          var i :| 0 <= i < |init| && init[i].0 == k;
          assert ps[i].0 == k;
        }
      }
    }
  }

  /** Existing keys keep their places: they stay in front, in their order. */
  lemma {:induction false} PutAllKeepsPrefix(r: Record, ps: Record)
    ensures |r| <= |PutAll(r, ps)|
    ensures forall j :: 0 <= j < |r| ==> PutAll(r, ps)[j].0 == r[j].0
  {
    if ps != [] {
      PutAllKeepsPrefix(r, ps[..|ps| - 1]);
    }
  }

  lemma {:induction false} PutAllUnique(r: Record, ps: Record)
    requires UniqueKeys(r)
    ensures UniqueKeys(PutAll(r, ps))
  {
    if ps != [] {
      PutAllUnique(r, ps[..|ps| - 1]);
    }
  }

  /** Assigning distinct new keys appends them in order. */
  lemma {:induction false} PutAllFresh(r: Record, ps: Record)
    requires UniqueKeys(r + ps)
    ensures PutAll(r, ps) == r + ps
  {
    if ps != [] {
      var init := ps[..|ps| - 1];
      var last := ps[|ps| - 1];
      assert r + ps == (r + init) + [last];
      assert UniqueKeys(r + init) by {
        forall i, j | 0 <= i < j < |r + init|
          ensures (r + init)[i].0 != (r + init)[j].0
        {
          assert (r + init)[i] == (r + ps)[i] && (r + init)[j] == (r + ps)[j];
        }
      }
      PutAllFresh(r, init);
      assert !HasKey(r + init, last.0) by {
        forall i | 0 <= i < |r + init| ensures (r + init)[i].0 != last.0 {
          assert (r + init)[i] == (r + ps)[i];
          assert last == (r + ps)[|r + ps| - 1];
        }
      }
    }
  }

  lemma PutAllSnoc(r: Record, ps: Record, p: (string, Value))
    ensures PutAll(r, ps + [p]) == Put(PutAll(r, ps), p.0, p.1)
  {
    assert (ps + [p])[..|ps|] == ps;
  }

  /** Two runs of assignments are one run over both lists. */
  lemma {:induction false} PutAllAppend(r: Record, a: Record, b: Record)
    ensures PutAll(PutAll(r, a), b) == PutAll(r, a + b)
  {
    if b == [] {
      assert a + b == a;
    } else {
      var init := b[..|b| - 1];
      var last := b[|b| - 1];
      PutAllAppend(r, a, init);
      assert b == init + [last];
      assert a + b == (a + init) + [last];
      PutAllSnoc(r, a + init, last);
      PutAllSnoc(PutAll(r, a), init, last);
    }
  }

  /** The property read `v[k]`: null and undefined throw; an object looks
      the key up; no other value has the properties read here ("key" and
      "value"). */
  function Prop(v: Value, k: string): (r: Completion<Value>)
    ensures r.Throw? <==> v.Null? || v.Undef?
    ensures v.Obj? ==> r == Normal(Get(v.fields, k))
  {
    match v
    case Null => Throw(TypeError)
    case Undef => Throw(TypeError)
    case Obj(fields) => Normal(Get(fields, k))
    case _ => Normal(Undef)
  }

  /** The values of a run of calls, or the error of the first that throws. */
  function Collect<T>(cs: seq<Completion<T>>): (r: Completion<seq<T>>)
    ensures r.Normal? ==> |r.value| == |cs|
  {
    if cs == [] then Normal([])
    else
      match Collect(cs[..|cs| - 1])
      case Throw(e) => Throw(e)
      case Normal(init) =>
        match cs[|cs| - 1]
        case Throw(e) => Throw(e)
        case Normal(x) => Normal(init + [x])
  }

  /** One more call: its error if the run so far went through, its value
      appended otherwise. */
  lemma CollectSnoc<T>(cs: seq<Completion<T>>, c: Completion<T>)
    ensures Collect(cs + [c]) ==
            match Collect(cs)
            case Throw(e) => Throw(e)
            case Normal(init) => if c.Throw? then Throw(c.error) else Normal(init + [c.value])
  {
    assert (cs + [c])[..|cs|] == cs;
  }

  /** A run of calls throws exactly when one of them does, and otherwise
      yields each call's value in order. */
  lemma {:induction false} CollectValues<T>(cs: seq<Completion<T>>)
    ensures Collect(cs).Throw? <==> exists i :: 0 <= i < |cs| && cs[i].Throw?
    ensures Collect(cs).Normal? ==> forall i :: 0 <= i < |cs| ==> cs[i] == Normal(Collect(cs).value[i])
  {
    if cs != [] {
      var n := |cs| - 1;
      CollectValues(cs[..n]);
      if exists i :: 0 <= i < n && cs[..n][i].Throw? {
        var i :| 0 <= i < n && cs[..n][i].Throw?;
        assert cs[i].Throw?;
      }
      if exists i :: 0 <= i < |cs| && cs[i].Throw? {
        var i :| 0 <= i < |cs| && cs[i].Throw?;
        if i < n {
          assert cs[..n][i].Throw?;
        }
      }
    }
  }

  /** JavaScript truthiness. */
  predicate Truthy(v: Value) {
    match v
    case Str(s) => s != []
    case Num(n) => n != 0
    case Bool(b) => b
    case Null => false
    case Undef => false
    case Arr(_) => true
    case Obj(_) => true
  }

  /** `String(v)`: arrays join their elements with commas, writing null and
      undefined elements as empty text; plain objects render as
      "[object Object]". */
  function ToText(v: Value): string
  {
    match v
    case Str(s) => s
    case Num(n) => IntToString(n)
    case Bool(b) => if b then "true" else "false"
    case Null => "null"
    case Undef => "undefined"
    case Arr(items) =>
      Join(seq(|items|, i requires 0 <= i < |items| =>
             if items[i].Null? || items[i].Undef? then "" else ToText(items[i])), ',')
    case Obj(_) => "[object Object]"
  }

  /** `Object.entries(v)` (and the keys `for...in` visits): an object's own
      properties, an array's or string's indices as text with their
      elements, nothing for a number or boolean; null and undefined throw
      (`None`). */
  function Entries(v: Value): (r: Option<Record>)
    ensures r.None? <==> v.Null? || v.Undef?
  {
    match v
    case Obj(fields) => Some(fields)
    case Arr(items) => Some(seq(|items|, i requires 0 <= i < |items| => (IntToString(i), items[i])))
    case Str(s) => Some(seq(|s|, i requires 0 <= i < |s| => (IntToString(i), Str([s[i]]))))
    case Num(_) => Some([])
    case Bool(_) => Some([])
    case Null => None
    case Undef => None
  }

  /** The length of the longest string anywhere in `v` outside object keys.
      A JSON text is always longer than every string parsed out of it,
      which is what makes transformData's re-parsing terminate. */
  function LeafBound(v: Value): nat
    decreases v, 1
  {
    match v
    case Str(s) => |s|
    case Arr(items) => ChildrenBound(v, 0)
    case Obj(fields) => ChildrenBound(v, 0)
    case _ => 0
  }

  /** The largest LeafBound among the elements (or property values) of a
      container from position `k` on. */
  function ChildrenBound(v: Value, k: nat): nat
    requires v.Arr? || v.Obj?
    decreases v, 0, (if v.Arr? then |v.items| else |v.fields|) - k
  {
    if v.Arr? then
      if k >= |v.items| then 0
      else var m := ChildrenBound(v, k + 1); var b := LeafBound(v.items[k]); if b > m then b else m
    else
      if k >= |v.fields| then 0
      else var m := ChildrenBound(v, k + 1); var b := LeafBound(v.fields[k].1); if b > m then b else m
  }

  predicate ValuesBelow(r: Record, bound: nat) {
    forall i :: 0 <= i < |r| ==> LeafBound(r[i].1) < bound
  }

  lemma PutBelow(r: Record, k: string, v: Value, bound: nat)
    requires ValuesBelow(r, bound) && LeafBound(v) < bound
    ensures ValuesBelow(Put(r, k, v), bound)
  {
  }

  lemma {:induction false} PutAllBelow(r: Record, ps: Record, bound: nat)
    requires ValuesBelow(r, bound) && ValuesBelow(ps, bound)
    ensures ValuesBelow(PutAll(r, ps), bound)
  {
    if ps != [] {
      PutAllBelow(r, ps[..|ps| - 1], bound);
      PutBelow(PutAll(r, ps[..|ps| - 1]), ps[|ps| - 1].0, ps[|ps| - 1].1, bound);
    }
  }

  lemma {:induction false} ChildrenBelow(v: Value, k: nat, bound: nat)
    requires v.Arr? || v.Obj?
    requires v.Arr? ==> forall i :: k <= i < |v.items| ==> LeafBound(v.items[i]) < bound
    requires v.Obj? ==> forall i :: k <= i < |v.fields| ==> LeafBound(v.fields[i].1) < bound
    requires bound > 0
    ensures ChildrenBound(v, k) < bound
    decreases (if v.Arr? then |v.items| else |v.fields|) - k
  {
    if v.Arr? && k < |v.items| {
      ChildrenBelow(v, k + 1, bound);
    } else if v.Obj? && k < |v.fields| {
      ChildrenBelow(v, k + 1, bound);
    }
  }

  lemma ObjBelow(fields: Record, bound: nat)
    requires ValuesBelow(fields, bound) && bound > 0
    ensures LeafBound(Obj(fields)) < bound
  {
    ChildrenBelow(Obj(fields), 0, bound);
  }

  lemma ArrBelow(items: seq<Value>, bound: nat)
    requires forall i :: 0 <= i < |items| ==> LeafBound(items[i]) < bound
    requires bound > 0
    ensures LeafBound(Arr(items)) < bound
  {
    ChildrenBelow(Arr(items), 0, bound);
  }

  /** An element of a container is bounded by the container. */
  lemma {:induction false} ChildBelowBound(v: Value, k: nat, i: nat)
    requires v.Arr? || v.Obj?
    requires v.Arr? ==> k <= i < |v.items|
    requires v.Obj? ==> k <= i < |v.fields|
    ensures v.Arr? ==> LeafBound(v.items[i]) <= ChildrenBound(v, k)
    ensures v.Obj? ==> LeafBound(v.fields[i].1) <= ChildrenBound(v, k)
    decreases i - k
  {
    if k < i {
      ChildBelowBound(v, k + 1, i);
    }
  }
}
